=== FILE: README.md ===
# Logical-imager ingestion, modelled in Dafny

This project models the logical-imager ingestion pipeline of Autopsy. The
logical imager is a stand-alone tool. It copies the files its rules select off
a live system into an acquisition folder: a sparse VHD image (or an extracted
`root` tree), a tab-separated manifest `SearchResults.txt`, and `users.txt`.
The Autopsy side covered here has five parts.

- **Rule configuration** (`ImagerConfig`, `ConfigDeserializer`,
  `ConfigValues`, `RuleValues`, `ConfigProperties`). The JSON rule file is deserialized into rule sets. The
  rule level has a closed key schema, and so do the `size-range` and
  `date-range` objects. Rules start from defaults. Field values carry over
  from one rule to the next within one `rules` array. A full-paths
  exclusivity check runs against that carried-over state. The configuration
  holder has its constructors and setters, and the rule set has `find`.
- **Manifest ingestion** (`Manifest`, `Text`, `Decimal`, `Query`,
  `LocalImport`, `Tagging`, `LogicalImageTask`).
  - Manifest rows are split on tabs and must have 14 fields.
  - Without a VHD, the extracted files are imported as one all-or-nothing
    database transaction.
  - The interesting-file pass builds SQL conditions with quote escaping and
    creates de-duplicated hit artifacts. It posts them as one batch.
  - `run` and `cancelTask` decide the result code, the error list, the data
    sources, and whether the destination is deleted.
- **Strings viewer pager** (`StringsPager`). This covers the page count
  (truncating long division, then an accidental widening to `float`),
  go-to-page validation, next and previous, and the page/offset invariant.
- **Acquisition picker** (`ImagerPanel`). It reads folder names of the form
  `Logical_Imager_<host>_<yyyymmdd>_<HH>_<MM>_<SS>` with Java's `find()`
  semantics. It fills the append-only image table and selects a row. It
  also covers browsing, panel validation, and the small-count branch of the
  byte formatter.
- **Table report settings** (`ReportSettings`). The entries whose check box is
  on are kept, in the selection map's iteration order.

The file system, the case database, the blackboard, the VHD sub-task, the
user's cancellation and the JSON text parser are outside the model. They enter
as inputs: oracle records (`ImportOracle`, `TagOracle`, `Environment`), a
lookup function, a set of existing hits, and a `Json` tree.

Java's fixed-width arithmetic is written out. `WrapInt` is int narrowing and
overflow. `JavaDiv` is truncating division. `ParseLong`/`ParseInt` and
`LongToString` are decimal text conversion. `ToFloat`/`RoundToInt` stand for
the long-to-float widening and `Math.round(float)`.

## Model

All source paths are under `Core/src/org/sleuthkit/autopsy/`, written out in full.

| member | source | states |
|---|---|---|
| ImagerConfig.EmptyConfig | Core/src/org/sleuthkit/autopsy/configurelogicalimager/LogicalImagerConfig.java:39-42 | The no-argument configuration does not finalize the image writer and has no rule sets. |
| ImagerConfig.SetFinalizeImageWriter | Core/src/org/sleuthkit/autopsy/configurelogicalimager/LogicalImagerConfig.java:56-58 | The flag takes the new value; the rule-set list is untouched. |
| ImagerConfig.SetRuleSets | Core/src/org/sleuthkit/autopsy/configurelogicalimager/LogicalImagerConfig.java:64-66 | The rule-set list is replaced; the flag is untouched. |
| ImagerConfig.FindSpec | Core/src/org/sleuthkit/autopsy/configurelogicalimager/LogicalImagerRuleSet.java:54-62 | `find` returns rule i exactly when i is the first rule whose name equals the argument and every earlier rule has a non-null name. It returns null exactly when every rule has a non-null, different name. It fails (null dereference) exactly when a null-named rule comes before every match. |
| ImagerConfig.FindFromSpec | Core/src/org/sleuthkit/autopsy/configurelogicalimager/LogicalImagerRuleSet.java:55-61 | The same three-way characterisation for the loop resumed at any index past rules already known not to match. |
| ImagerConfig.FindFrom | Core/src/org/sleuthkit/autopsy/configurelogicalimager/LogicalImagerRuleSet.java:55-61 | A rule found from index k has the name asked for and lies at or after k; a failure means some rule from k on has a null name. |
| Json.Get | Core/src/org/sleuthkit/autopsy/configurelogicalimager/LogicalImagerConfigDeserializer.java:51-56 | `get` yields null exactly when no member has the key. |
| Json.GetFindsLast | Core/src/org/sleuthkit/autopsy/configurelogicalimager/LogicalImagerConfigDeserializer.java:51-66 | With a repeated key, `get` yields the value of the last member stored under it, as the parsed object keeps it. |
| Json.GetInsert | Core/src/org/sleuthkit/autopsy/configurelogicalimager/LogicalImagerConfigDeserializer.java:51-66 | A member under another key, inserted anywhere, changes no lookup. |
| Json.WithoutSpec | Core/src/org/sleuthkit/autopsy/configurelogicalimager/LogicalImagerConfigDeserializer.java:92-94 | Dropping a key keeps every other member, key and lookup. |
| Json.EntrySetSpec | Core/src/org/sleuthkit/autopsy/configurelogicalimager/LogicalImagerConfigDeserializer.java:92-94 | The entry set the loop visits has one entry per key, exactly the object's keys, each with the value `get` reads. |
| Json.EntrySetDistinct | Core/src/org/sleuthkit/autopsy/configurelogicalimager/LogicalImagerConfigDeserializer.java:92-94 | An object without a repeated key is visited member by member, in order. |
| Json.AsBoolean | Core/src/org/sleuthkit/autopsy/configurelogicalimager/LogicalImagerConfigDeserializer.java:53 | A JSON boolean reads as itself; JSON null and objects throw. |
| Json.AsInt | Core/src/org/sleuthkit/autopsy/configurelogicalimager/LogicalImagerConfigDeserializer.java:143-147 | A number reads as its low 32 bits. Every successful read is an int. JSON null and objects throw. |
| Json.AsStringList | Core/src/org/sleuthkit/autopsy/configurelogicalimager/LogicalImagerConfigDeserializer.java:107-135 | A list read succeeds with one string per element, each element's own reading. An all-string array always succeeds. |
| ConfigDeserializer.SlotOf | Core/src/org/sleuthkit/autopsy/configurelogicalimager/LogicalImagerConfigDeserializer.java:96-176 | A key selects a `case` exactly when it is one of the ten rule keys; the range cases are selected by exactly their two keys. |
| ConfigDeserializer.ApplySizeRange | Core/src/org/sleuthkit/autopsy/configurelogicalimager/LogicalImagerConfigDeserializer.java:137-153 | A `size-range` object is accepted only if all its keys are `min`/`max`. An unsupported-key failure names a key of the object outside that set. |
| ConfigDeserializer.ApplyDateRange | Core/src/org/sleuthkit/autopsy/configurelogicalimager/LogicalImagerConfigDeserializer.java:154-173 | A `date-range` object is accepted only if all its keys are `min`/`max`/`min-days`. An unsupported-key failure names a key outside that set. |
| ConfigDeserializer.ApplyMember | Core/src/org/sleuthkit/autopsy/configurelogicalimager/LogicalImagerConfigDeserializer.java:94-176 | An accepted entry lies within the schema, range keys included. An unsupported-key failure names a key the schema rejects. |
| ConfigDeserializer.ApplyMembers | Core/src/org/sleuthkit/autopsy/configurelogicalimager/LogicalImagerConfigDeserializer.java:92-177 | A rule object is accepted only if every entry lies within the schema. An unsupported-key failure names an off-schema key of some entry. |
| ConfigDeserializer.ParseRule | Core/src/org/sleuthkit/autopsy/configurelogicalimager/LogicalImagerConfigDeserializer.java:91-200 | An accepted rule is an object whose entries, read over the running state, give the rule. That rule passes the full-paths exclusivity check. |
| ConfigDeserializer.ParseRulesFrom | Core/src/org/sleuthkit/autopsy/configurelogicalimager/LogicalImagerConfigDeserializer.java:74-205 | An accepted `rules` array gives one rule per element, and none of them fails the exclusivity check. |
| ConfigDeserializer.ParseRuleSet | Core/src/org/sleuthkit/autopsy/configurelogicalimager/LogicalImagerConfigDeserializer.java:61-69 | An accepted rule set is an object with both `set-name` and `rules`. Its name is the `set-name` string and its rules are the parse of the `rules` array. |
| ConfigDeserializer.ParseRuleSets | Core/src/org/sleuthkit/autopsy/configurelogicalimager/LogicalImagerConfigDeserializer.java:60-70 | Accepted rule sets come one per element, in document order, each the parse of its element. |
| ConfigDeserializer.Deserialize | Core/src/org/sleuthkit/autopsy/configurelogicalimager/LogicalImagerConfigDeserializer.java:46-72 | An accepted document is an object with `rule-sets`. Its flag is `finalize-image-writer` (false when absent) and its rule sets are the parse of that array. Any error rejects the whole document. |
| ConfigDeserializer.FinalizeFlag | Core/src/org/sleuthkit/autopsy/configurelogicalimager/LogicalImagerConfigDeserializer.java:51-54 | An absent `finalize-image-writer` leaves the flag false; a boolean value sets it; any failure comes from a present key. |
| ConfigDeserializer.Deref | Core/src/org/sleuthkit/autopsy/configurelogicalimager/LogicalImagerConfigDeserializer.java:56-66 | Calling through a null fails with a null dereference, and through a value yields that value. |
| ConfigDeserializer.RuleSetOf | Core/src/org/sleuthkit/autopsy/configurelogicalimager/LogicalImagerConfigDeserializer.java:60-69 | A missing `set-name` fails with a null dereference, and so does a missing `rules` after a readable name. An accepted set holds the name and the rules read. |
| ConfigDeserializer.ConfigOf | Core/src/org/sleuthkit/autopsy/configurelogicalimager/LogicalImagerConfigDeserializer.java:46-72 | A flag failure rejects the document first; then a missing `rule-sets` fails with a null dereference. An accepted configuration holds the flag and the rule sets read. |
| ConfigProperties.SizeRangeFrame | Core/src/org/sleuthkit/autopsy/configurelogicalimager/LogicalImagerConfigDeserializer.java:137-153 | A size range changes no field other than the bounds it names. |
| ConfigProperties.DateRangeFrame | Core/src/org/sleuthkit/autopsy/configurelogicalimager/LogicalImagerConfigDeserializer.java:154-173 | A date range changes no field other than the bounds it names. |
| ConfigProperties.MemberFrame | Core/src/org/sleuthkit/autopsy/configurelogicalimager/LogicalImagerConfigDeserializer.java:96-176 | One entry changes no field it does not name. |
| ConfigProperties.SlotFrame | Core/src/org/sleuthkit/autopsy/configurelogicalimager/LogicalImagerConfigDeserializer.java:97-173 | One `case` body changes no field other than its own. |
| ConfigProperties.MembersFrame | Core/src/org/sleuthkit/autopsy/configurelogicalimager/LogicalImagerConfigDeserializer.java:92-177 | A rule object changes no field that none of its entries names. |
| ConfigProperties.MembersAppend | Core/src/org/sleuthkit/autopsy/configurelogicalimager/LogicalImagerConfigDeserializer.java:92-177 | Reading two entry lists one after the other is reading their concatenation, and the first error wins. |
| ConfigProperties.RulesAreCumulative | Core/src/org/sleuthkit/autopsy/configurelogicalimager/LogicalImagerConfigDeserializer.java:74-205 | Rule k of an array is what reading all entries of elements 0..k, in document order, from the starting state gives. The running state is never reset between rules. |
| ConfigProperties.RulesFromPredecessor | Core/src/org/sleuthkit/autopsy/configurelogicalimager/LogicalImagerConfigDeserializer.java:74-205 | Rule k is its own object's entries read over rule k-1 (over the starting state for rule 0). |
| ConfigProperties.RuleFieldCarriesOver | Core/src/org/sleuthkit/autopsy/configurelogicalimager/LogicalImagerConfigDeserializer.java:77-91 | A field that rule k's object does not name keeps rule k-1's value, or the default for rule 0. |
| ConfigProperties.RuleFieldDefault | Core/src/org/sleuthkit/autopsy/configurelogicalimager/LogicalImagerConfigDeserializer.java:77-89 | A field that no object among rules 0..k names holds its default in rule k: alert on, save off, every other field null. |
| ConfigValues.SlotWrites | Core/src/org/sleuthkit/autopsy/configurelogicalimager/LogicalImagerConfigDeserializer.java:97-108 | `shouldAlert` and `shouldSave` accept exactly a boolean and store it in their flag; `name` and `description` accept exactly a string and store it. Every other field keeps its value. |
| ConfigValues.ListSlotWrites | Core/src/org/sleuthkit/autopsy/configurelogicalimager/LogicalImagerConfigDeserializer.java:109-136 | The four list keys accept exactly an array of strings, and store the strings, in order, in their own field. Every other field keeps its value. |
| ConfigValues.SizeRangeReads | Core/src/org/sleuthkit/autopsy/configurelogicalimager/LogicalImagerConfigDeserializer.java:137-153 | Read key by key without repeated keys, a size range is accepted exactly when its keys are `min`/`max` and each value reads as an int; it sets each bound given and keeps the other. |
| ConfigValues.DateRangeReads | Core/src/org/sleuthkit/autopsy/configurelogicalimager/LogicalImagerConfigDeserializer.java:154-173 | The same for a date range, with `min`, `max` and `min-days`. |
| ConfigValues.SizeRangeValues | Core/src/org/sleuthkit/autopsy/configurelogicalimager/LogicalImagerConfigDeserializer.java:137-153 | A `size-range` object is accepted exactly when all its keys are `min`/`max` and the value `get` reads under each reads as an int. The bound it gives is that int, and the running state's bound when the key is absent. |
| ConfigValues.DateRangeValues | Core/src/org/sleuthkit/autopsy/configurelogicalimager/LogicalImagerConfigDeserializer.java:154-173 | The same for a `date-range` object, with `min` as the minimum date, `max` as the maximum date and `min-days`. |
| ConfigValues.RangeSlotWrites | Core/src/org/sleuthkit/autopsy/configurelogicalimager/LogicalImagerConfigDeserializer.java:137-173 | The `size-range` and `date-range` cases accept exactly an object the range reading accepts, and store its bounds. |
| RuleValues.EntryStores | Core/src/org/sleuthkit/autopsy/configurelogicalimager/LogicalImagerConfigDeserializer.java:96-176 | An accepted entry under a field's key holds a value its `case` accepts, and leaves in the field the boolean, string, string list or bound it holds. |
| RuleValues.KeyDecidesField | Core/src/org/sleuthkit/autopsy/configurelogicalimager/LogicalImagerConfigDeserializer.java:92-177 | In an accepted entry list without repeated keys, the entry under a field's key decides that field, wherever it stands. |
| RuleValues.RuleFields | Core/src/org/sleuthkit/autopsy/configurelogicalimager/LogicalImagerConfigDeserializer.java:91-200 | An accepted rule object gives, in each field, the value its key's entry stores (`get`'s value, so the last of a repeated key), and the running state's value when the object does not hold the key. |
| RuleValues.PredecessorCausesRejection | Core/src/org/sleuthkit/autopsy/configurelogicalimager/LogicalImagerConfigDeserializer.java:179-184 | A full-paths rule that is accepted alone is rejected after a predecessor that set extensions. The exclusivity check sees carried-over values. |
| RuleValues.FullPathsWithExtensionsRejected | Core/src/org/sleuthkit/autopsy/configurelogicalimager/LogicalImagerConfigDeserializer.java:179-184 | A rule naming both full paths and extensions is rejected, and no rule list is produced. |
| ConfigProperties.UnknownRuleKeyRejected | Core/src/org/sleuthkit/autopsy/configurelogicalimager/LogicalImagerConfigDeserializer.java:174-175 | A key outside the rule schema fails the parse with an unsupported-key error naming it. |
| ConfigProperties.UnknownRuleKeyRejectsRules | Core/src/org/sleuthkit/autopsy/configurelogicalimager/LogicalImagerConfigDeserializer.java:92-176 | A rule object whose entry set holds an unknown key after accepted entries fails the whole `rules` array with that key. |
| ConfigProperties.UnknownSizeKeyRejected | Core/src/org/sleuthkit/autopsy/configurelogicalimager/LogicalImagerConfigDeserializer.java:140-151 | A `size-range` key other than `min` and `max` fails with that key wherever it stands. |
| ConfigProperties.UnknownDateKeyRejected | Core/src/org/sleuthkit/autopsy/configurelogicalimager/LogicalImagerConfigDeserializer.java:157-171 | A `date-range` key other than `min`, `max` and `min-days` fails with that key wherever it stands. |
| ConfigProperties.UnknownRangeKeyRejectsEntry | Core/src/org/sleuthkit/autopsy/configurelogicalimager/LogicalImagerConfigDeserializer.java:137-173 | A range object holding an off-schema key makes its rule entry fail with that key. |
| ConfigProperties.NeverMissingRuleSet | Core/src/org/sleuthkit/autopsy/configurelogicalimager/LogicalImagerConfigDeserializer.java:56-59 | No document ever produces the "Missing rule-set" error. |
| ConfigProperties.NoRuleSetMissingRuleSet | Core/src/org/sleuthkit/autopsy/configurelogicalimager/LogicalImagerConfigDeserializer.java:60-70 | No rule-set array produces that error. |
| ConfigProperties.NoRuleMissingRuleSet | Core/src/org/sleuthkit/autopsy/configurelogicalimager/LogicalImagerConfigDeserializer.java:91-202 | No rules array produces that error. |
| ConfigProperties.NoMemberMissingRuleSet | Core/src/org/sleuthkit/autopsy/configurelogicalimager/LogicalImagerConfigDeserializer.java:94-176 | No rule object produces that error. |
| ConfigProperties.NoSizeMissingRuleSet | Core/src/org/sleuthkit/autopsy/configurelogicalimager/LogicalImagerConfigDeserializer.java:137-153 | No size range produces that error. |
| ConfigProperties.NoDateMissingRuleSet | Core/src/org/sleuthkit/autopsy/configurelogicalimager/LogicalImagerConfigDeserializer.java:154-173 | No date range produces that error. |
| ConfigProperties.MissingRuleSetsRejected | Core/src/org/sleuthkit/autopsy/configurelogicalimager/LogicalImagerConfigDeserializer.java:50-59 | A document without `rule-sets` is rejected. Unless reading the flag failed first, the rejection is a null dereference. |
| ConfigProperties.ExtraTopLevelKeyIgnored | Core/src/org/sleuthkit/autopsy/configurelogicalimager/LogicalImagerConfigDeserializer.java:50-56 | A top-level key other than the two the code reads changes nothing. |
| ConfigProperties.ExtraRuleSetKeyIgnored | Core/src/org/sleuthkit/autopsy/configurelogicalimager/LogicalImagerConfigDeserializer.java:63-67 | A rule-set key other than `set-name` and `rules` changes nothing. |
| ConfigProperties.RepeatedFlagLastWins | Core/src/org/sleuthkit/autopsy/configurelogicalimager/LogicalImagerConfigDeserializer.java:51-54 | A repeated `finalize-image-writer` is read with its last value. |
| ConfigProperties.RepeatedRuleKeyLastWins | Core/src/org/sleuthkit/autopsy/configurelogicalimager/LogicalImagerConfigDeserializer.java:92-133 | A repeated rule key is visited once, with its last value; an earlier value that would be rejected is never read. |
| Decimal.WrapInt | Core/src/org/sleuthkit/autopsy/contentviewers/textcontentviewer/StringsContentPanel.java:395 | Int narrowing gives an int congruent to its argument modulo 2^32, and leaves ints alone. |
| Decimal.JavaDiv | Core/src/org/sleuthkit/autopsy/contentviewers/textcontentviewer/StringsContentPanel.java:282 | Long division by a positive divisor truncates toward zero, on both sides of zero. |
| Decimal.ParseLongOfToString | Core/src/org/sleuthkit/autopsy/logicalimager/dsp/AddLogicalImageTask.java:442-445 | `Long.parseLong` reads back every long that `Long.toString` printed. |
| Decimal.ParseIntegerOfToString | Core/src/org/sleuthkit/autopsy/logicalimager/dsp/AddLogicalImageTask.java:442-445 | Decimal parsing with bounds reads back every printed value within the bounds. |
| Decimal.ValueOfDigits | Core/src/org/sleuthkit/autopsy/logicalimager/dsp/AddLogicalImageTask.java:442-445 | The digits printed for a natural number denote that number. |
| Decimal.LongToString | Core/src/org/sleuthkit/autopsy/logicalimager/dsp/AddLogicalImageTask.java:442-445 | The text starts with `-` exactly for a negative number, and the rest is digits. |
| Decimal.ParseInteger | Core/src/org/sleuthkit/autopsy/contentviewers/textcontentviewer/StringsContentPanel.java:284-287 | An accepted text is an optional sign and digits, and its value lies within the bounds. |
| Decimal.ParseLong | Core/src/org/sleuthkit/autopsy/logicalimager/dsp/AddLogicalImageTask.java:442-445 | `Long.parseLong` gives a long; a run of digits within range reads as its value, and one past the range is rejected. |
| Decimal.ParseInt | Core/src/org/sleuthkit/autopsy/contentviewers/textcontentviewer/StringsContentPanel.java:284-287 | `Integer.parseInt` gives an int; a run of digits within range reads as its value, and one past the range is rejected. |
| Text.SplitCount | Core/src/org/sleuthkit/autopsy/logicalimager/dsp/AddLogicalImageTask.java:338 | `split(sep, -1)` gives one more field than there are separators, with trailing empty fields counted. |
| Text.Split | Core/src/org/sleuthkit/autopsy/logicalimager/dsp/AddLogicalImageTask.java:338 | `split(sep, -1)` gives at least one field, and a line without the separator is one field, itself. |
| Text.SplitFieldsFree | Core/src/org/sleuthkit/autopsy/logicalimager/dsp/AddLogicalImageTask.java:416 | No field of the split contains the separator. |
| Text.JoinSplit | Core/src/org/sleuthkit/autopsy/logicalimager/dsp/AddLogicalImageTask.java:416 | Joining the split fields with the separator gives back the line. |
| Text.SplitJoin | Core/src/org/sleuthkit/autopsy/logicalimager/dsp/AddLogicalImageTask.java:338 | Splitting the join of separator-free fields gives back the fields. |
| Text.EscapeQuotes | Core/src/org/sleuthkit/autopsy/logicalimager/dsp/AddLogicalImageTask.java:360 | Escaping lengthens a string by exactly its number of quotes. |
| Text.UnescapeEscape | Core/src/org/sleuthkit/autopsy/logicalimager/dsp/AddLogicalImageTask.java:365 | The SQL reading of an escaped string is the string itself, and every quote in the escape is doubled. |
| Manifest.ParseRow | Core/src/org/sleuthkit/autopsy/logicalimager/dsp/AddLogicalImageTask.java:416-420 | A line is accepted exactly when it holds 13 tabs, and its row's fields are the split. A rejected line reports the field count the split gave, which is never 14. |
| Manifest.ParseFormat | Core/src/org/sleuthkit/autopsy/logicalimager/dsp/AddLogicalImageTask.java:338-349 | A row with tab-free fields, written as a line, reads back as the same row. |
| Manifest.FormatParse | Core/src/org/sleuthkit/autopsy/logicalimager/dsp/AddLogicalImageTask.java:416-434 | An accepted line is exactly the line its row writes, and its fields are tab-free. |
| Manifest.ImportParentPath | Core/src/org/sleuthkit/autopsy/logicalimager/dsp/AddLogicalImageTask.java:435 | The imported parent path begins with `root/`. |
| Manifest.LookupParentPath | Core/src/org/sleuthkit/autopsy/logicalimager/dsp/AddLogicalImageTask.java:362-363 | The lookup parent path begins with a slash. |
| Manifest.ParentPathsDiffer | Core/src/org/sleuthkit/autopsy/logicalimager/dsp/AddLogicalImageTask.java:362-363 | The lookup path is the import path with a leading slash, so the two never coincide. |
| Query.ReadEscaped | Core/src/org/sleuthkit/autopsy/logicalimager/dsp/AddLogicalImageTask.java:359-365 | An escaped value followed by a closing quote reads back, as an SQL literal, as that value followed by the rest of the text. |
| Query.EscapeQuoteFree | Core/src/org/sleuthkit/autopsy/logicalimager/dsp/AddLogicalImageTask.java:360 | A value without quotes is its own escape. |
| Query.LocalQuery | Core/src/org/sleuthkit/autopsy/logicalimager/dsp/AddLogicalImageTask.java:362-365 | In local mode the database compares exactly the row's file name and the slash-prefixed lookup parent path, whatever quotes they hold. |
| Query.VhdQuery | Core/src/org/sleuthkit/autopsy/logicalimager/dsp/AddLogicalImageTask.java:354-360 | In VHD mode the database compares exactly the object id, the metadata address and the file name, provided the metadata address holds no quote. |
| LocalImport.ToLocalFile | Core/src/org/sleuthkit/autopsy/logicalimager/dsp/AddLogicalImageTask.java:421-446 | A row becomes an `addLocalFile` call exactly when all four timestamps parse as longs. |
| LocalImport.ToLocalFileOfRow | Core/src/org/sleuthkit/autopsy/logicalimager/dsp/AddLogicalImageTask.java:428-446 | The file written as a manifest row reads back unchanged. The timestamps come from their own columns (ctime 13, crtime 10, atime 12, mtime 11), the path is `dest/extracted` and the parent is `root/<image>/<parent>`. |
| LocalImport.FirstStop | Core/src/org/sleuthkit/autopsy/logicalimager/dsp/AddLogicalImageTask.java:411-449 | The first row from a given one on that does not go in: none exactly when every row goes in, and otherwise a row all of whose predecessors went in. |
| LocalImport.Import | Core/src/org/sleuthkit/autopsy/logicalimager/dsp/AddLogicalImageTask.java:398-459 | Each exit follows from its cause. A failing begin or data-source creation raises the generic error, the former before any transaction exists. A manifest that cannot be opened, or whose header cannot be read, leaves the transaction open and empty. Otherwise the first row that does not go in decides the result as `StopAt` says. When every row goes in, a read failing at the end of the file leaves every file staged in an open transaction, a failing commit rolls back, and otherwise the rows' files are committed in order, the source is reported and no error is raised. Conversely, the source is reported exactly when the transaction commits, a committed import has no error, and an open transaction goes with a read error. |
| LocalImport.StageRows | Core/src/org/sleuthkit/autopsy/logicalimager/dsp/AddLogicalImageTask.java:411-449 | Every row is staged, in order, exactly when every row goes in. Otherwise the loop stops at the first row that does not go in (`FirstStop`), with exactly `StopAt`'s result for that row. |
| LocalImport.StopAt | Core/src/org/sleuthkit/autopsy/logicalimager/dsp/AddLogicalImageTask.java:412-446 | The result at a row that does not go in, from the cause, in the order the loop checks them. A failed read of its line leaves the transaction open with the earlier rows staged. A cancellation seen at the row rolls back without an error. A wrong-width row rolls back and names its line, its width and 14. A bad timestamp or a failing `addLocalFile` rolls back with the generic error. No stop reports the data source. |
| Tagging.LastOwnerSpec | Core/src/org/sleuthkit/autopsy/logicalimager/dsp/AddLogicalImageTask.java:308-318 | A path belongs to entry i exactly when entry i lists it and no later entry does. |
| Tagging.ImagePathsToObjId | Core/src/org/sleuthkit/autopsy/logicalimager/dsp/AddLogicalImageTask.java:308-318 | The inverted map has exactly the listed paths as keys, each mapped to its last owner's object id; it is the owner map the tagging pass is given. |
| Tagging.AddHits | Core/src/org/sleuthkit/autopsy/logicalimager/dsp/AddLogicalImageTask.java:370-372 | Afterwards the database holds what it held plus one hit per matched file. The batch only grows, and nothing changes when every hit already exists. |
| Tagging.AddHitsFresh | Core/src/org/sleuthkit/autopsy/logicalimager/dsp/AddLogicalImageTask.java:385-396 | The batch stays free of duplicates and of hits that already existed, and the database is the old one plus the batch. |
| Tagging.QueryFor | Core/src/org/sleuthkit/autopsy/logicalimager/dsp/AddLogicalImageTask.java:351-366 | Local mode always builds the parent-path condition. VHD mode succeeds exactly when `dest/<image>` is a key of the inverted map, and otherwise fails naming that path. |
| Tagging.FirstCreateFailure | Core/src/org/sleuthkit/autopsy/logicalimager/dsp/AddLogicalImageTask.java:385-396 | The position reported is the first matched file whose hit the blackboard fails on; none is reported exactly when every hit can be created. |
| Tagging.RowStep | Core/src/org/sleuthkit/autopsy/logicalimager/dsp/AddLogicalImageTask.java:334-383 | A failed read stops the row; otherwise a wrong-width line stops it with its line number, its width and 9. A completed row carries columns 4 and 5 of the line and exactly the files the lookup returned, none of whose hits fails. A failing hit stops the pass with an artifact error. |
| Tagging.Tag | Core/src/org/sleuthkit/autopsy/logicalimager/dsp/AddLogicalImageTask.java:324-383 | The whole pass: the database gains only hits the rows ask for, with no hit twice, and all of them when the batch is posted. A posted pass has no error; a pass that stops without an error was cancelled. A manifest that cannot be opened changes nothing. |
| Tagging.TagFromPosted | Core/src/org/sleuthkit/autopsy/logicalimager/dsp/AddLogicalImageTask.java:334-381 | The batch is posted exactly when no row failed and cancellation was never seen. A cancellation returns with no error and nothing posted. |
| Tagging.TagFromFresh | Core/src/org/sleuthkit/autopsy/logicalimager/dsp/AddLogicalImageTask.java:334-374 | The no-duplicate invariant holds through the whole pass. |
| Tagging.TagFromGrows | Core/src/org/sleuthkit/autopsy/logicalimager/dsp/AddLogicalImageTask.java:370-372 | The pass only appends to the batch. |
| Tagging.TagFromHits | Core/src/org/sleuthkit/autopsy/logicalimager/dsp/AddLogicalImageTask.java:334-381 | Every hit left in the database was there before or was asked for by a row. A completed pass leaves exactly the old hits plus every requested hit. |
| Tagging.TagFromNothingNew | Core/src/org/sleuthkit/autopsy/logicalimager/dsp/AddLogicalImageTask.java:391 | When every requested hit already exists, the pass creates nothing. |
| Tagging.TagFromSameOutcome | Core/src/org/sleuthkit/autopsy/logicalimager/dsp/AddLogicalImageTask.java:334-374 | Whether the pass posts, and which error it raises, does not depend on the hits already in the database. |
| Tagging.TagIdempotent | Core/src/org/sleuthkit/autopsy/logicalimager/dsp/AddLogicalImageTask.java:324-396 | A second pass over the database a completed pass left creates no artifact and leaves the database unchanged. |
| Tagging.WrongWidthReportsNine | Core/src/org/sleuthkit/autopsy/logicalimager/dsp/AddLogicalImageTask.java:338-341 | A wrong-width first row stops the pass with line 2 and its width. The message states 9 as the expected width, which differs from the 14 the width check demands. |
| Tagging.CancelledBeforeFirstRow | Core/src/org/sleuthkit/autopsy/logicalimager/dsp/AddLogicalImageTask.java:335-337 | Cancellation seen at the first row returns with nothing created, nothing posted and no error. |
| LogicalImageTask.VhdNames | Core/src/org/sleuthkit/autopsy/logicalimager/dsp/AddLogicalImageTask.java:160-172 | The names kept are exactly the listed names ending in `.vhd`. |
| LogicalImageTask.FirstCanonicalFailure | Core/src/org/sleuthkit/autopsy/logicalimager/dsp/AddLogicalImageTask.java:161-171 | There is no failure exactly when every `.vhd` name has a canonical path. Otherwise the name reported is the first failing one in listing order. |
| LogicalImageTask.Run | Core/src/org/sleuthkit/autopsy/logicalimager/dsp/AddLogicalImageTask.java:117-260 | Every exit of `run` is fixed by the environment. A missing SearchResults.txt, a report that cannot be added, and the first `.vhd` name without a canonical path are critical, each with its exact outcome, and nothing is ingested; a missing users.txt is no error. VHD mode is chosen exactly when a `.vhd` name is listed. After that `IngestSpec` holds: the import result is the one `LocalImport.Import` fixes, the tagging result is the tagging pass, and the outcome follows from them as the `IngestAndTag` row says. |
| LogicalImageTask.IngestAndTag | Core/src/org/sleuthkit/autopsy/logicalimager/dsp/AddLogicalImageTask.java:174-260 | Without a VHD, a missing `root` directory is critical, and the import result meets the import's own contract against the run's environment, which fixes it from its causes; a failed import is critical with its error. In VHD mode, a missing current case is critical and a critical sub-task result is forwarded. Otherwise the tagging result is exactly the tagging pass over the manifest, in the mode chosen and with the path-to-object-id map of the image paths. A failed pass is non-critical with the copy error and the tagging error only. A completed local run reports the copy error only, plus the local source exactly when the import committed; a completed VHD run forwards the sub-task's result. |
| LogicalImageTask.IngestLocal | Core/src/org/sleuthkit/autopsy/logicalimager/dsp/AddLogicalImageTask.java:178-259 | The run without a VHD meets the same promise as `IngestAndTag` in local mode. |
| LogicalImageTask.IngestVhd | Core/src/org/sleuthkit/autopsy/logicalimager/dsp/AddLogicalImageTask.java:200-259 | The run in VHD mode meets the same promise as `IngestAndTag` in VHD mode. |
| LogicalImageTask.LocalRunCommitted | Core/src/org/sleuthkit/autopsy/logicalimager/dsp/AddLogicalImageTask.java:243-259 | A local run whose import commits reports NO_ERRORS with the copy error only and the local-files source, or, when the tagging pass fails, NONCRITICAL_ERRORS without a source. |
| LogicalImageTask.LocalRunWrongWidth | Core/src/org/sleuthkit/autopsy/logicalimager/dsp/AddLogicalImageTask.java:190-198 | A local run whose first failing row has the wrong width is critical with that row's line, its width and 14, rolls the import back and tags nothing. |
| LogicalImageTask.LocalRunCancelled | Core/src/org/sleuthkit/autopsy/logicalimager/dsp/AddLogicalImageTask.java:243-249 | A local run cancelled during the import is rolled back without an error. When the tagging pass can open the manifest and read it up to its first row, it stops at that row, and the callback gets NO_ERRORS, the copy error only and no data source. |
| LogicalImageTask.LocalRunCancelledAfterDeletion | Core/src/org/sleuthkit/autopsy/logicalimager/dsp/AddLogicalImageTask.java:248-258 | The same cancelled local run, when the tagging pass cannot open the manifest because the destination was deleted: the import is rolled back without an error, tagging fails to open, and the callback gets NONCRITICAL_ERRORS with the copy error and the tagging failure, and no data source. |
| LogicalImageTask.LocalRunUnreadable | Core/src/org/sleuthkit/autopsy/logicalimager/dsp/AddLogicalImageTask.java:402-409 | A local run whose manifest cannot be opened or whose header cannot be read leaves the import's transaction open and empty, and is critical with the read error. |
| LogicalImageTask.CancelTask | Core/src/org/sleuthkit/autopsy/logicalimager/dsp/AddLogicalImageTask.java:292-306 | Cancelling interrupts the sub-task once it exists. It deletes the destination exactly when VHD mode was not chosen and tagging has not begun. |
| LogicalImageTask.CancelDeletesDestination | Core/src/org/sleuthkit/autopsy/logicalimager/dsp/AddLogicalImageTask.java:77 | A cancellation deletes the destination exactly when it arrives while preparing or during a local import, never from tagging on or during a VHD ingest. |
| LogicalImageTask.RunEndsTagging | Core/src/org/sleuthkit/autopsy/logicalimager/dsp/AddLogicalImageTask.java:247 | A run that reached tagging ends with the tagging-stage flags, so a late cancellation keeps the destination. |
| StringsPager.Ulp | Core/src/org/sleuthkit/autopsy/contentviewers/textcontentviewer/StringsContentPanel.java:395 | Float spacing is 1 below 2^24 and never exceeds the value above it. |
| StringsPager.ToFloat | Core/src/org/sleuthkit/autopsy/contentviewers/textcontentviewer/StringsContentPanel.java:395 | Widening to float is exact below 2^24 and otherwise within half a spacing. |
| StringsPager.RoundToInt | Core/src/org/sleuthkit/autopsy/contentviewers/textcontentviewer/StringsContentPanel.java:395 | `Math.round(float)` of a whole value is the value, saturated at the largest int. |
| StringsPager.TotalPages | Core/src/org/sleuthkit/autopsy/contentviewers/textcontentviewer/StringsContentPanel.java:395 | The page count is always an int. Up to 2^38 bytes it is the least number of 16384-byte pages that hold the content, and at least 1 (an empty content has one page). |
| StringsPager.TotalPagesFallsShort | Core/src/org/sleuthkit/autopsy/contentviewers/textcontentviewer/StringsContentPanel.java:395 | A concrete size just past 2^38 bytes gets one page fewer than it needs. |
| StringsPager.TotalPagesWraps | Core/src/org/sleuthkit/autopsy/contentviewers/textcontentviewer/StringsContentPanel.java:395 | From 2^45 - 2^20 + 1 bytes on, the page count is the smallest int. |
| StringsPager.TotalPagesLastBeforeWrap | Core/src/org/sleuthkit/autopsy/contentviewers/textcontentviewer/StringsContentPanel.java:395 | One byte less, the page count is still 2^31 - 127. |
| StringsPager.ResetDisplay | Core/src/org/sleuthkit/autopsy/contentviewers/textcontentviewer/StringsContentPanel.java:83-94 | The reset gives page 1 at offset 0, no content, and both buttons disabled. |
| StringsPager.SetDataView | Core/src/org/sleuthkit/autopsy/contentviewers/textcontentviewer/StringsContentPanel.java:347-403 | A null content changes nothing. Otherwise next is enabled exactly when bytes lie past this page, and previous exactly when the offset is not 0. The total shown is the page count. The shared offset is never changed. |
| StringsPager.SetStringView | Core/src/org/sleuthkit/autopsy/contentviewers/textcontentviewer/StringsContentPanel.java:405-425 | A string view is a single page 1 of 1, with no content and both buttons disabled. |
| StringsPager.GoToPageAccepts | Core/src/org/sleuthkit/autopsy/contentviewers/textcontentviewer/StringsContentPanel.java:279-302 | Go-to-page moves exactly when there is content and the text is an int from 1 to the page count. It then lands on that page at the offset of its number. With content, any refusal names the page count. |
| StringsPager.GoToPage | Core/src/org/sleuthkit/autopsy/contentviewers/textcontentviewer/StringsContentPanel.java:279-302 | Without content go-to-page dereferences null. A move lands on a page from 1 to the page count, in step with its offset, on the same content; with content, a refusal names the page count. |
| StringsPager.GoToPageRejectsText | Core/src/org/sleuthkit/autopsy/contentviewers/textcontentviewer/StringsContentPanel.java:283-297 | Text that is not an int is refused with the page count, even when the page count is the largest int. |
| StringsPager.GoToPageAfterStringView | Core/src/org/sleuthkit/autopsy/contentviewers/textcontentviewer/StringsContentPanel.java:405-425 | After a string view there is no content, and go-to-page fails on it. |
| StringsPager.StepsKeepInvariant | Core/src/org/sleuthkit/autopsy/contentviewers/textcontentviewer/StringsContentPanel.java:304-318 | Next and previous keep offset = (page-1)*16384, moving the page by one. Stepping back onto offset 0 shows page 1. |
| StringsPager.Next | Core/src/org/sleuthkit/autopsy/contentviewers/textcontentviewer/StringsContentPanel.java:312-318 | The offset moves one page on and the content stays. Next stays enabled exactly while a byte lies past the new page, and previous becomes enabled. From a page in step, the new page is in step and one higher. |
| StringsPager.Prev | Core/src/org/sleuthkit/autopsy/contentviewers/textcontentviewer/StringsContentPanel.java:304-310 | The offset moves one page back and the content stays. Previous stays enabled exactly while the new page does not start the content, and next is enabled when the old page lay within it. From a page in step, the new page is in step. |
| StringsPager.RedrawKeepsInvariant | Core/src/org/sleuthkit/autopsy/contentviewers/textcontentviewer/StringsContentPanel.java:347-403 | Redrawing the current page keeps the page and the invariant. |
| StringsPager.ResetThenViewKeepsInvariant | Core/src/org/sleuthkit/autopsy/contentviewers/textcontentviewer/StringsContentPanel.java:83-94 | A new content shown after a reset starts on page 1 in step with its offset, with previous disabled. |
| StringsPager.ViewAtZeroWithoutReset | Core/src/org/sleuthkit/autopsy/contentviewers/textcontentviewer/StringsContentPanel.java:388-393 | Without a reset, a view at offset 0 relabels the page as 1 but keeps the shared offset. The next press then shows the third page labelled as page 2. |
| StringsPager.ButtonsFollowPage | Core/src/org/sleuthkit/autopsy/contentviewers/textcontentviewer/StringsContentPanel.java:382-393 | On a page in step with its offset, next is enabled exactly before the last page and previous exactly after the first. |
| ImagerPanel.RunEnd | Core/src/org/sleuthkit/autopsy/casemodule/LogicalImagerPanel.java:65 | The run of characters `.` matches ends at the first line terminator. |
| ImagerPanel.GreedyEnd | Core/src/org/sleuthkit/autopsy/casemodule/LogicalImagerPanel.java:65 | Backtracking gives the last host end after which the date part follows, and none exists when it fails. |
| ImagerPanel.FindFrom | Core/src/org/sleuthkit/autopsy/casemodule/LogicalImagerPanel.java:378-379 | `find()` reports a match at the leftmost start where the pattern matches, with the longest host group there. It reports none exactly when there is no match. |
| ImagerPanel.Find | Core/src/org/sleuthkit/autopsy/casemodule/LogicalImagerPanel.java:378-379 | `find()` on a fresh matcher reports the leftmost match with the longest host there, and nothing when the pattern occurs nowhere. |
| ImagerPanel.ReadFolderName | Core/src/org/sleuthkit/autopsy/casemodule/LogicalImagerPanel.java:378-389 | A name is read exactly when the pattern is found in it. Its host is then non-empty and its date groups are digits of the right widths. |
| ImagerPanel.GroupsWellFormed | Core/src/org/sleuthkit/autopsy/casemodule/LogicalImagerPanel.java:381-389 | The groups of any match give a non-empty host and a well-formed date. |
| ImagerPanel.ExtractDate | Core/src/org/sleuthkit/autopsy/casemodule/LogicalImagerPanel.java:382-389 | The date column is 19 characters: `yyyy/mm/dd HH:MM:SS`, separators in place. |
| ImagerPanel.FolderNameRoundTrip | Core/src/org/sleuthkit/autopsy/casemodule/LogicalImagerPanel.java:378-389 | A folder named by the imager reads back as its host and date for any non-empty host without line breaks, even one with underscores, digits or the prefix. |
| ImagerPanel.FindIs | Core/src/org/sleuthkit/autopsy/casemodule/LogicalImagerPanel.java:378-379 | A match that is leftmost, with the longest host there, is what `find()` reports. |
| ImagerPanel.ColumnName | Core/src/org/sleuthkit/autopsy/casemodule/LogicalImagerPanel.java:523-536 | Only columns 0 and 1 have a name. |
| ImagerPanel.SetValueAt | Core/src/org/sleuthkit/autopsy/casemodule/LogicalImagerPanel.java:563-581 | Setting succeeds exactly for columns 0 to 2 and appends to that column whatever the row index. Other columns fail naming the column. |
| ImagerPanel.GetValueAt | Core/src/org/sleuthkit/autopsy/casemodule/LogicalImagerPanel.java:539-555 | Reading succeeds exactly for a row within the column's list and gives that element. Other columns fail. |
| ImagerPanel.SetThenGet | Core/src/org/sleuthkit/autopsy/casemodule/LogicalImagerPanel.java:539-581 | A set value reads back at the end of its column; earlier entries stay, whichever row index was passed. |
| ImagerPanel.AddRow | Core/src/org/sleuthkit/autopsy/casemodule/LogicalImagerPanel.java:390-392 | One row's three sets append to the three columns. They keep the columns aligned, add one to the row count, and make the new row readable. |
| ImagerPanel.ImageRowsSound | Core/src/org/sleuthkit/autopsy/casemodule/LogicalImagerPanel.java:374-396 | Every listed row is the row of an acquisition folder: a directory holding `sparse_image.vhd` whose name the pattern is found in. |
| ImagerPanel.ImageRowsComplete | Core/src/org/sleuthkit/autopsy/casemodule/LogicalImagerPanel.java:374-396 | Every acquisition folder of the listing gives a row. |
| ImagerPanel.RowsTableHolds | Core/src/org/sleuthkit/autopsy/casemodule/LogicalImagerPanel.java:374-396 | Filling the table row by row leaves exactly the acquisition folders' rows in it, column by column. |
| ImagerPanel.CollectRows | Core/src/org/sleuthkit/autopsy/casemodule/LogicalImagerPanel.java:374-396 | The loop leaves exactly the acquisition folders' rows in the table, in listing order. |
| ImagerPanel.DriveListSelect | Core/src/org/sleuthkit/autopsy/casemodule/LogicalImagerPanel.java:360-411 | No selection, or an unreadable root, leaves the panel as it was. A selection shorter than three characters throws. Otherwise the table holds exactly the drive's acquisition rows, and the first row is chosen (or nothing, with the no-images message). |
| ImagerPanel.ImageTableSelect | Core/src/org/sleuthkit/autopsy/casemodule/LogicalImagerPanel.java:343-354 | Index -1 clears the choice. Any other index chooses that row's folder, or throws when it is out of range. |
| ImagerPanel.FirstRowSelected | Core/src/org/sleuthkit/autopsy/casemodule/LogicalImagerPanel.java:403-409 | Selecting row 0 of a non-empty table chooses its first folder. |
| ImagerPanel.Reset | Core/src/org/sleuthkit/autopsy/casemodule/LogicalImagerPanel.java:463-469 | A reset leaves nothing chosen and an empty table. |
| ImagerPanel.Browse | Core/src/org/sleuthkit/autopsy/casemodule/LogicalImagerPanel.java:314-341 | A browsed path is chosen exactly when the dialog was approved, the pattern is found in the whole path, and the folder holds `sparse_image.vhd`. The table is untouched. |
| ImagerPanel.NoChoiceNotValid | Core/src/org/sleuthkit/autopsy/casemodule/LogicalImagerPanel.java:476-478 | After a browse whose path the pattern is not found in, the panel is not valid whatever exists, and the message names the path. |
| ImagerPanel.SelectionValidates | Core/src/org/sleuthkit/autopsy/casemodule/LogicalImagerPanel.java:343-354 | After a row is selected the wizard may go on exactly when that row's folder exists, and after the selection is cleared it may not. |
| ImagerPanel.HumanReadableByteCount | Core/src/org/sleuthkit/autopsy/casemodule/LogicalImagerPanel.java:260-264 | The exact text branch applies exactly below one unit (1000 or 1024), and that text ends in ` B`. |
| ImagerPanel.ByteCountReadsBack | Core/src/org/sleuthkit/autopsy/casemodule/LogicalImagerPanel.java:261-264 | Below one unit, the text is the decimal count followed by ` B`, and the count parses back. |
| ReportSettings.EnabledMember | Core/src/org/sleuthkit/autopsy/report/TableReportSettings.java:48-59 | A key is kept exactly when some entry maps it to true. |
| ReportSettings.KeptFrom | Core/src/org/sleuthkit/autopsy/report/TableReportSettings.java:48-52 | Every kept key is the key of some entry. |
| ReportSettings.EnabledDistinct | Core/src/org/sleuthkit/autopsy/report/TableReportSettings.java:46-60 | Given a map's distinct keys, no key is kept twice. |
| ReportSettings.EnabledAppend | Core/src/org/sleuthkit/autopsy/report/TableReportSettings.java:48-52 | Entries visited one after another are kept in that order. |
| ReportSettings.NothingSelected | Core/src/org/sleuthkit/autopsy/report/TableReportSettings.java:46-60 | A map whose entries are all false keeps nothing. |
| ReportSettings.Collect | Core/src/org/sleuthkit/autopsy/report/TableReportSettings.java:48-52 | The loop fails exactly when some value is a null Boolean. Otherwise it keeps exactly the keys mapped to true, in iteration order. |
| ReportSettings.FromSelections | Core/src/org/sleuthkit/autopsy/report/TableReportSettings.java:46-60 | The constructor succeeds exactly when neither map holds a null. The artifact types and the tag names are then each map's true keys. |
| ReportSettings.FromLists | Core/src/org/sleuthkit/autopsy/report/TableReportSettings.java:62-73 | The getters return the two lists the list constructor was given. |

## Left out

- **File system.** Copying, deleting, listing, canonical paths, existence checks and drive scanning enter as fields of `Environment`, as `Option` listings, or as the `exists_` function `ValidatePanel` is given.
- **Case database and blackboard.** These are abstract state. A transaction is `Tx`. Artifacts are a set of (file, set name, rule name) hits plus the batch. `findAllFilesWhere` is a lookup function from condition text, and posting cannot fail visibly because its exception is only logged.
- **Concurrency.** The VHD sub-task thread, the one-second sleep and interrupt loop and the volatile flag are left out. The sub-task is one `SubTaskReport`. Cancellation is one point (`CancelPoint`) at which the flag is first seen. Since the flag is never cleared, a cancellation seen by the import is seen again at the first tagged row.
- **The parsed JSON object.** A `Json` object is its members in document order, repeats included. `Get` reads the last value under a key and `EntrySet` visits each key once with that value, as the parsed object does; the position a repeated key takes in the iteration order is not promised.
- **The classes behind calls.** `AddMultipleImageTask`, `LocalFileImporter`, `LogicalImagerRule.Builder` and the Gson text parser are not part of this model. The rule record is the list of values handed to the builder, and the deserializer starts from a `Json` tree with integer numbers only.
- **Rule matching.** No code here evaluates a rule against a file, so none is modelled.
- **Floating-point formatting.** `HumanReadableByteCount` returns None for the branch at and above one unit (logarithm, power, `%.1f`).
- **Text extraction.** The strings of a content (`StringExtract`) are not modelled. The pager sees only the content's size.
- **Widget wiring.** Labels, colours, the scan button, list models, focus and dialogs are left out. `Panel.message` names only the message chosen.
- **Other panels.** The communications filters panel, the general preferences panel, the HTML panel and the text-translator interface have no behaviour in this core.
- **The constructors and getters of the rule set and the configuration.** These are datatype constructors and field selection; `find` is pure and cannot change either.
- `Text.PathJoin` joins with the Windows separator and does no normalisation of `.`, `..` or repeated separators.
- StringsPager.Next: the long offset is not wrapped at 2^63, because a page count of 2^31 pages stays far below it.
- StringsPager.TotalPages: sizes are taken as non-negative, as content sizes are.
- The pager's page and the offset are one pager's fields, not fields shared by every viewer instance.
- Query.VhdQuery: promises the read-back only for a metadata address without quotes. The source does not escape that field, so a quote in it changes the condition.
- Decimal.ParseInteger: accepts only ASCII digits, whereas `Long.parseLong` also accepts other Unicode decimal digits.
- LocalImport.Import: a failing rollback is only logged by the code, so the model does not distinguish it from a successful one.
- LogicalImageTask.Run: the progress-monitor texts and log records are not modelled.

## Where the code departs from its stated intent

The model follows the code in each of these cases.

- **Cancelling a local import deletes the destination, yet `run` goes on to tagging.** The import rolls back and returns normally (AddLogicalImageTask.java:412-415). `run` then starts the tagging pass on the manifest inside the destination (AddLogicalImageTask.java:248). Meanwhile `cancelTask` deletes the destination, because tagging had not started when it ran (AddLogicalImageTask.java:300-304, `CancelDeletesDestination`). What the callback gets depends on which comes first. If tagging can still open the manifest, it sees the flag at its first row and returns, and the callback gets NO_ERRORS and no data source (`LogicalImageTask.LocalRunCancelled`). Once the deletion has removed the manifest, the open fails and the callback gets NONCRITICAL_ERRORS with the tagging failure (AddLogicalImageTask.java:255-258, `LogicalImageTask.LocalRunCancelledAfterDeletion`). The model takes that order as an input, through the tagging oracle's open failure.
- **Cancelling during tagging returns before the batch is posted** (AddLogicalImageTask.java:335-337). Artifacts created for earlier rows are not posted. The same happens when a later row fails (`Tagging.TagFromPosted`).
- **The tagging field-count message states 9 as the expected width, but the width check demands 14** (AddLogicalImageTask.java:339-340, `Tagging.WrongWidthReportsNine`). The import's message states 14.
- **A copy failure is only recorded, and it is lost whenever the sub-task's result is forwarded.** A successful or critical sub-task result is forwarded with the sub-task's own messages, not `run`'s error list. On the no-current-case and tagging-failure exits the copy error still reaches the callback.
- **A manifest that cannot be opened or read during the import leaves the transaction open.** The `IOException` is not among the exceptions the import's handler catches, so the transaction is neither committed nor rolled back (`LocalImport.Import`, `LogicalImageTask.LocalRunUnreadable`).
- **The metadata address is put into the VHD condition without escaping**, unlike the file name and the parent path.
- **The "Missing rule-set" error is unreachable.** `get("rule-sets")` is dereferenced before the null check, so a missing key fails with a null dereference (`ConfigProperties.NeverMissingRuleSet`, `MissingRuleSetsRejected`). A missing `set-name` or `rules` in a rule set fails the same way.
- **Rule fields carry over from one rule to the next in a `rules` array.** The builder values are declared once, outside the loop. As a result the full-paths check can reject a rule because of its predecessor's fields (`RuleValues.PredecessorCausesRejection`).
- **The page count is computed through `float`.** `Math.round` of a long resolves to `Math.round(float)`. Past 2^38 bytes the count falls short of the pages needed, and from 2^45 - 2^20 + 1 bytes on it wraps to the smallest int (`StringsPager.TotalPagesFallsShort`, `TotalPagesWraps`).
- **Offset 0 without a reset leaves the pager out of step.** `setDataView(content, 0)` resets the page label to 1 but not the shared offset. A caller that skips `resetDisplay` breaks offset = (page-1)*16384 (`StringsPager.ViewAtZeroWithoutReset`).
- **The browse check searches the whole chosen path for the folder-name pattern.** A folder inside a matching folder is therefore accepted when it holds `sparse_image.vhd` (`ImagerPanel.Browse`).

=== FILE: config_deserializer.dfy ===
/**
 * The logical-imager configuration deserializer: a JSON tree becomes a
 * configuration of rule sets, or the whole call fails. Within one `rules`
 * array the builder values are a single running state, so every rule starts
 * from the values its predecessor ended with.
 */
module ConfigDeserializer {
  import opened Wrappers
  import opened Json
  import opened ImagerConfig

  datatype ConfigError =
    | MissingRuleSet           // the "Missing rule-set" message; the code never reaches it
    | UnsupportedKey(key: string)
    | FullPathsRule            // "A rule with full-paths cannot have other rule definitions"
    | Fault(fault: JsonFault)  // a runtime exception from Gson or a null dereference

  function Lift<T>(r: Result<T, JsonFault>): (l: Result<T, ConfigError>)
    ensures r.Success? <==> l.Success?
    ensures r.Success? ==> l.value == r.value
    ensures r.Failure? ==> l == Failure(Fault(r.error))
  {
    match r
    case Success(v) => Success(v)
    case Failure(e) => Failure(Fault(e))
  }

  const RuleKeys: set<string> := {
    "shouldAlert", "shouldSave", "name", "description", "extensions",
    "folder-names", "file-names", "full-paths", "size-range", "date-range"
  }
  const SizeRangeKeys: set<string> := {"min", "max"}
  const DateRangeKeys: set<string> := {"min", "max", "min-days"}

  predicate KeysIn(members: seq<Member>, allowed: set<string>) {
    forall i :: 0 <= i < |members| ==> members[i].key in allowed
  }

  /** A rule-level member whose key, and whose range keys, all belong to the schema. */
  predicate MemberInSchema(m: Member) {
    && m.key in RuleKeys
    && (m.key == "size-range" && m.value.JObject? ==> KeysIn(m.value.members, SizeRangeKeys))
    && (m.key == "date-range" && m.value.JObject? ==> KeysIn(m.value.members, DateRangeKeys))
  }

  /** `key` is a key the schema rejects, at the rule level or inside a range object. */
  predicate OffSchemaKey(members: seq<Member>, key: string) {
    exists i :: 0 <= i < |members| &&
      ((members[i].key == key && key !in RuleKeys)
       || (members[i].key == "size-range" && members[i].value.JObject?
           && key in Keys(members[i].value.members) && key !in SizeRangeKeys)
       || (members[i].key == "date-range" && members[i].value.JObject?
           && key in Keys(members[i].value.members) && key !in DateRangeKeys))
  }

  /** The entries of a `size-range` object, in order. */
  function ApplySizeRange(st: Rule, members: seq<Member>): (r: Result<Rule, ConfigError>)
    ensures r.Success? ==> KeysIn(members, SizeRangeKeys)
    ensures r.Failure? && r.error.UnsupportedKey? ==>
      r.error.key in Keys(members) && r.error.key !in SizeRangeKeys
    decreases |members|
  {
    if |members| == 0 then Success(st)
    else
      var m := members[0];
      assert Keys(members) == [m.key] + Keys(members[1..]);
      var next :-
        if m.key == "min" then
          var v :- Lift(AsInt(m.value)); Success(st.(minFileSize := Some(v)))
        else if m.key == "max" then
          var v :- Lift(AsInt(m.value)); Success(st.(maxFileSize := Some(v)))
        else Failure(UnsupportedKey(m.key));
      ApplySizeRange(next, members[1..])
  }

  /** The entries of a `date-range` object, in order. */
  function ApplyDateRange(st: Rule, members: seq<Member>): (r: Result<Rule, ConfigError>)
    ensures r.Success? ==> KeysIn(members, DateRangeKeys)
    ensures r.Failure? && r.error.UnsupportedKey? ==>
      r.error.key in Keys(members) && r.error.key !in DateRangeKeys
    decreases |members|
  {
    if |members| == 0 then Success(st)
    else
      var m := members[0];
      assert Keys(members) == [m.key] + Keys(members[1..]);
      var next :-
        if m.key == "min" then
          var v :- Lift(AsInt(m.value)); Success(st.(minDate := Some(v)))
        else if m.key == "max" then
          var v :- Lift(AsInt(m.value)); Success(st.(maxDate := Some(v)))
        else if m.key == "min-days" then
          var v :- Lift(AsInt(m.value)); Success(st.(minDays := Some(v)))
        else Failure(UnsupportedKey(m.key));
      ApplyDateRange(next, members[1..])
  }

  function StringList(j: Json): Result<seq<string>, ConfigError> {
    var items :- Lift(AsArray(j));
    Lift(AsStringList(items))
  }

  /** The `case` labels of the rule-level switch. */
  datatype Slot =
    | AlertSlot | SaveSlot | NameSlot | DescriptionSlot
    | ExtensionsSlot | FolderNamesSlot | FileNamesSlot | FullPathsSlot
    | SizeRangeSlot | DateRangeSlot

  /** Which `case` a rule-level key selects; None is the `default` branch. */
  function SlotOf(key: string): (s: Option<Slot>)
    ensures s.Some? <==> key in RuleKeys
    ensures s == Some(SizeRangeSlot) <==> key == "size-range"
    ensures s == Some(DateRangeSlot) <==> key == "date-range"
  {
    if key == "shouldAlert" then Some(AlertSlot)
    else if key == "shouldSave" then Some(SaveSlot)
    else if key == "name" then Some(NameSlot)
    else if key == "description" then Some(DescriptionSlot)
    else if key == "extensions" then Some(ExtensionsSlot)
    else if key == "folder-names" then Some(FolderNamesSlot)
    else if key == "file-names" then Some(FileNamesSlot)
    else if key == "full-paths" then Some(FullPathsSlot)
    else if key == "size-range" then Some(SizeRangeSlot)
    else if key == "date-range" then Some(DateRangeSlot)
    else None
  }

  /** The body of one `case`: read the value the way the case does and store it. */
  function ApplySlot(st: Rule, slot: Slot, v: Json): Result<Rule, ConfigError> {
    match slot
    case AlertSlot => var b :- Lift(AsBoolean(v)); Success(st.(shouldAlert := b))
    case SaveSlot => var b :- Lift(AsBoolean(v)); Success(st.(shouldSave := b))
    case NameSlot => var s :- Lift(AsString(v)); Success(st.(name := Some(s)))
    case DescriptionSlot => var s :- Lift(AsString(v)); Success(st.(description := Some(s)))
    case ExtensionsSlot => var l :- StringList(v); Success(st.(extensions := Some(l)))
    case FolderNamesSlot => var l :- StringList(v); Success(st.(paths := Some(l)))
    case FileNamesSlot => var l :- StringList(v); Success(st.(filenames := Some(l)))
    case FullPathsSlot => var l :- StringList(v); Success(st.(fullPaths := Some(l)))
    case SizeRangeSlot => var members :- Lift(AsObject(v)); ApplySizeRange(st, EntrySet(members))
    case DateRangeSlot => var members :- Lift(AsObject(v)); ApplyDateRange(st, EntrySet(members))
  }

  /** The entry set has the keys of the object it comes from. */
  lemma EntrySetKeys(members: seq<Member>, allowed: set<string>)
    ensures KeysIn(EntrySet(members), allowed) ==> KeysIn(members, allowed)
    ensures forall k :: k in Keys(EntrySet(members)) <==> k in Keys(members)
  {
    var es := EntrySet(members);
    EntrySetSpec(members);
    KeysHasKey(members);
    KeysHasKey(es);
    if KeysIn(es, allowed) {
      forall i | 0 <= i < |members|
        ensures members[i].key in allowed
      {
        assert HasKey(members, members[i].key);
        var j :| 0 <= j < |es| && es[j].key == members[i].key;
      }
    }
  }

  lemma RangeEntryKeys(v: Json)
    ensures v.JObject? ==>
      && (KeysIn(EntrySet(v.members), SizeRangeKeys) ==> KeysIn(v.members, SizeRangeKeys))
      && (KeysIn(EntrySet(v.members), DateRangeKeys) ==> KeysIn(v.members, DateRangeKeys))
      && forall k :: k in Keys(EntrySet(v.members)) <==> k in Keys(v.members)
  {
    if v.JObject? {
      EntrySetKeys(v.members, SizeRangeKeys);
      EntrySetKeys(v.members, DateRangeKeys);
    }
  }

  /** One entry of a rule object: the `switch (key1)` of the rules loop. */
  function ApplyMember(st: Rule, m: Member): (r: Result<Rule, ConfigError>)
    ensures r.Success? ==> MemberInSchema(m)
    ensures r.Failure? && r.error.UnsupportedKey? ==> OffSchemaKey([m], r.error.key)
  {
    assert [m][0] == m;
    RangeEntryKeys(m.value);
    match SlotOf(m.key)
    case None => Failure(UnsupportedKey(m.key))
    case Some(slot) => ApplySlot(st, slot, m.value)
  }

  /** All entries of a rule object, in order, threading the running state. */
  function ApplyMembers(st: Rule, members: seq<Member>): (r: Result<Rule, ConfigError>)
    ensures r.Success? ==> forall i :: 0 <= i < |members| ==> MemberInSchema(members[i])
    ensures r.Failure? && r.error.UnsupportedKey? ==> OffSchemaKey(members, r.error.key)
    decreases |members|
  {
    if |members| == 0 then Success(st)
    else
      var next :- ApplyMember(st, members[0]);
      var r := ApplyMembers(next, members[1..]);
      if r.Success? then
        assert forall i :: 1 <= i < |members| ==> members[i] == members[1..][i - 1];
        r
      else if r.error.UnsupportedKey? then
        assert OffSchemaKey(members, r.error.key) by {
          var i :| 0 <= i < |members[1..]| && (
            (members[1..][i].key == r.error.key && r.error.key !in RuleKeys)
            || (members[1..][i].key == "size-range" && members[1..][i].value.JObject?
                && r.error.key in Keys(members[1..][i].value.members) && r.error.key !in SizeRangeKeys)
            || (members[1..][i].key == "date-range" && members[1..][i].value.JObject?
                && r.error.key in Keys(members[1..][i].value.members) && r.error.key !in DateRangeKeys));
          assert members[i + 1] == members[1..][i];
        }
        r
      else r
  }

  /** One element of a `rules` array: its entry set, then the full-paths exclusivity check. */
  function ParseRule(st: Rule, elem: Json): (r: Result<Rule, ConfigError>)
    ensures r.Success? ==> !FullPathsConflict(r.value)
    ensures r.Success? ==> elem.JObject? && ApplyMembers(st, EntrySet(elem.members)) == r
  {
    var members :- Lift(AsObject(elem));
    var next :- ApplyMembers(st, EntrySet(members));
    if FullPathsConflict(next) then Failure(FullPathsRule) else Success(next)
  }

  /** `parseRules` continued from state `st`: one rule per element, document order. */
  function ParseRulesFrom(st: Rule, elems: seq<Json>): (r: Result<seq<Rule>, ConfigError>)
    ensures r.Success? ==> |r.value| == |elems|
    ensures r.Success? ==> forall k :: 0 <= k < |elems| ==> !FullPathsConflict(r.value[k])
    decreases |elems|
  {
    if |elems| == 0 then Success([])
    else
      var first :- ParseRule(st, elems[0]);
      var rest :- ParseRulesFrom(first, elems[1..]);
      Success([first] + rest)
  }

  /** `parseRules(array)`: the running state starts from the defaults for every array. */
  function ParseRules(elems: seq<Json>): Result<seq<Rule>, ConfigError> {
    ParseRulesFrom(DefaultRule, elems)
  }

  /** Calling a method on what `get` returned: a null raises NullPointerException. */
  function Deref(v: Option<Json>): (r: Result<Json, ConfigError>)
    ensures r.Success? <==> v.Some?
    ensures r.Success? ==> r.value == v.value
    ensures r.Failure? ==> r.error == Fault(NullDereference)
  {
    match v
    case Some(j) => Success(j)
    case None => Failure(Fault(NullDereference))
  }

  /** One element of `rule-sets`: `set-name` then `rules`, both required. */
  function ParseRuleSet(elem: Json): (r: Result<RuleSet, ConfigError>)
    ensures r.Success? ==> elem.JObject? && HasKey(elem.members, "set-name") && HasKey(elem.members, "rules")
    ensures r.Success? ==> Lift(AsString(Get(elem.members, "set-name").value)) == Success(r.value.setName)
    ensures r.Success? ==>
      Get(elem.members, "rules").value.JArray? &&
      ParseRules(Get(elem.members, "rules").value.items) == Success(r.value.rules)
  {
    var members :- Lift(AsObject(elem));
    RuleSetOf(Get(members, "set-name"), Get(members, "rules"))
  }

  /**
   * A rule set from the two values it is read from; nothing else in the
   * object matters. A missing `set-name`, or a missing `rules` after a
   * readable name, is a null dereference.
   */
  function RuleSetOf(nameGet: Option<Json>, rulesGet: Option<Json>): (r: Result<RuleSet, ConfigError>)
    ensures nameGet.None? ==> r == Failure(Fault(NullDereference))
    ensures nameGet.Some? && AsString(nameGet.value).Success? && rulesGet.None? ==> r == Failure(Fault(NullDereference))
    ensures r.Success? ==>
      && nameGet.Some? && AsString(nameGet.value) == Success(r.value.setName)
      && rulesGet.Some? && rulesGet.value.JArray? && ParseRules(rulesGet.value.items) == Success(r.value.rules)
  {
    var nameElem :- Deref(nameGet);
    var setName :- Lift(AsString(nameElem));
    var rulesElem :- Deref(rulesGet);
    var items :- Lift(AsArray(rulesElem));
    var rules :- ParseRules(items);
    Success(RuleSet(setName, rules))
  }

  function ParseRuleSets(elems: seq<Json>): (r: Result<seq<RuleSet>, ConfigError>)
    ensures r.Success? ==> |r.value| == |elems|
    ensures r.Success? ==> forall i :: 0 <= i < |elems| ==> ParseRuleSet(elems[i]) == Success(r.value[i])
  {
    if |elems| == 0 then Success([])
    else
      var first :- ParseRuleSet(elems[0]);
      var rest :- ParseRuleSets(elems[1..]);
      assert forall i :: 1 <= i < |elems| ==> elems[i] == elems[1..][i - 1];
      Success([first] + rest)
  }

  /**
   * `finalize-image-writer` when present, false otherwise; a JSON boolean
   * stored under the key is the flag, and only a value that is present can
   * fail to read.
   */
  function FinalizeFlag(members: seq<Member>): (r: Result<bool, ConfigError>)
    ensures !HasKey(members, "finalize-image-writer") ==> r == Success(false)
    ensures Get(members, "finalize-image-writer").Some? && Get(members, "finalize-image-writer").value.JBool? ==>
      r == Success(Get(members, "finalize-image-writer").value.b)
    ensures r.Failure? ==> HasKey(members, "finalize-image-writer") && r.error.Fault?
  {
    match Get(members, "finalize-image-writer")
    case Some(v) => Lift(AsBoolean(v))
    case None => Success(false)
  }

  /** `deserialize`: the whole document, or the first error. */
  function Deserialize(doc: Json): (r: Result<Config, ConfigError>)
    ensures r.Success? ==> doc.JObject? && HasKey(doc.members, "rule-sets")
    ensures r.Success? ==> FinalizeFlag(doc.members) == Success(r.value.finalizeImageWriter)
    ensures r.Success? ==>
      Get(doc.members, "rule-sets").value.JArray? &&
      ParseRuleSets(Get(doc.members, "rule-sets").value.items) == Success(r.value.ruleSets)
  {
    var members :- Lift(AsObject(doc));
    ConfigOf(members, Get(members, "rule-sets"))
  }

  /**
   * The configuration from the flag's entries and the `rule-sets` value: the
   * flag is read first, then a missing `rule-sets` is a null dereference.
   */
  function ConfigOf(members: seq<Member>, setsGet: Option<Json>): (r: Result<Config, ConfigError>)
    ensures FinalizeFlag(members).Failure? ==> r == Failure(FinalizeFlag(members).error)
    ensures FinalizeFlag(members).Success? && setsGet.None? ==> r == Failure(Fault(NullDereference))
    ensures r.Success? ==>
      && FinalizeFlag(members) == Success(r.value.finalizeImageWriter)
      && setsGet.Some? && setsGet.value.JArray? && ParseRuleSets(setsGet.value.items) == Success(r.value.ruleSets)
  {
    var flag :- FinalizeFlag(members);
    var setsElem :- Deref(setsGet);
    var items :- Lift(AsArray(setsElem));
    var sets :- ParseRuleSets(items);
    Success(Config(flag, sets))
  }
}

=== FILE: config_properties.dfy ===
/**
 * What the configuration deserializer guarantees, stated over whole documents:
 * how values carry over between the rules of one array, where defaults come
 * from, which keys are ignored, and which documents fail.
 */
module ConfigProperties {
  import opened Wrappers
  import opened Json
  import opened ImagerConfig
  import opened ConfigDeserializer

  /** The builder fields of a rule, one per value handed to the rule builder. */
  datatype Field =
    | AlertField | SaveField | NameField | DescriptionField
    | ExtensionsField | FolderNamesField | FullPathsField | FileNamesField
    | MinSizeField | MaxSizeField | MinDaysField | MinDateField | MaxDateField

  datatype FieldValue = Flag(b: bool) | Text(t: Option<string>) | Names(l: Option<seq<string>>) | Bound(v: Option<int>)

  function FieldOf(r: Rule, f: Field): FieldValue {
    match f
    case AlertField => Flag(r.shouldAlert)
    case SaveField => Flag(r.shouldSave)
    case NameField => Text(r.name)
    case DescriptionField => Text(r.description)
    case ExtensionsField => Names(r.extensions)
    case FolderNamesField => Names(r.paths)
    case FullPathsField => Names(r.fullPaths)
    case FileNamesField => Names(r.filenames)
    case MinSizeField => Bound(r.minFileSize)
    case MaxSizeField => Bound(r.maxFileSize)
    case MinDaysField => Bound(r.minDays)
    case MinDateField => Bound(r.minDate)
    case MaxDateField => Bound(r.maxDate)
  }

  predicate RangeTouches(members: seq<Member>, f: Field, isSize: bool) {
    if isSize then
      (f == MinSizeField && "min" in Keys(members)) || (f == MaxSizeField && "max" in Keys(members))
    else
      (f == MinDateField && "min" in Keys(members)) || (f == MaxDateField && "max" in Keys(members))
      || (f == MinDaysField && "min-days" in Keys(members))
  }

  /** Whether the `case` for `slot`, given value `v`, writes field `f`. */
  predicate SlotTouches(slot: Slot, v: Json, f: Field) {
    match slot
    case AlertSlot => f == AlertField
    case SaveSlot => f == SaveField
    case NameSlot => f == NameField
    case DescriptionSlot => f == DescriptionField
    case ExtensionsSlot => f == ExtensionsField
    case FolderNamesSlot => f == FolderNamesField
    case FileNamesSlot => f == FileNamesField
    case FullPathsSlot => f == FullPathsField
    case SizeRangeSlot => v.JObject? && RangeTouches(v.members, f, true)
    case DateRangeSlot => v.JObject? && RangeTouches(v.members, f, false)
  }

  /** Whether a rule-object entry writes field `f`. */
  predicate Touches(m: Member, f: Field) {
    match SlotOf(m.key)
    case None => false
    case Some(slot) => SlotTouches(slot, m.value, f)
  }

  predicate TouchedBy(members: seq<Member>, f: Field) {
    exists i :: 0 <= i < |members| && Touches(members[i], f)
  }

  /** The entry sets of the elements' rule objects, one after the other, in document order. */
  function Flatten(elems: seq<Json>): seq<Member> {
    if |elems| == 0 then []
    else (if elems[0].JObject? then EntrySet(elems[0].members) else []) + Flatten(elems[1..])
  }

  /** An entry set touches only the fields its object's members touch. */
  lemma TouchedByEntrySet(members: seq<Member>, f: Field)
    requires !TouchedBy(members, f)
    ensures !TouchedBy(EntrySet(members), f)
  {
    var es := EntrySet(members);
    EntrySetSpec(members);
    forall i | 0 <= i < |es|
      ensures !Touches(es[i], f)
    {
      assert es[i] in members;
    }
  }

  lemma {:induction false} SizeRangeFrame(st: Rule, members: seq<Member>, f: Field)
    requires ApplySizeRange(st, members).Success?
    requires !RangeTouches(members, f, true)
    ensures FieldOf(ApplySizeRange(st, members).value, f) == FieldOf(st, f)
    decreases |members|
  {
    if |members| > 0 {
      assert Keys(members) == [members[0].key] + Keys(members[1..]);
      var m := members[0];
      var next := if m.key == "min" then st.(minFileSize := Some(AsInt(m.value).value))
                  else st.(maxFileSize := Some(AsInt(m.value).value));
      SizeRangeFrame(next, members[1..], f);
    }
  }

  lemma {:induction false} DateRangeFrame(st: Rule, members: seq<Member>, f: Field)
    requires ApplyDateRange(st, members).Success?
    requires !RangeTouches(members, f, false)
    ensures FieldOf(ApplyDateRange(st, members).value, f) == FieldOf(st, f)
    decreases |members|
  {
    if |members| > 0 {
      assert Keys(members) == [members[0].key] + Keys(members[1..]);
      var m := members[0];
      var next := if m.key == "min" then st.(minDate := Some(AsInt(m.value).value))
                  else if m.key == "max" then st.(maxDate := Some(AsInt(m.value).value))
                  else st.(minDays := Some(AsInt(m.value).value));
      DateRangeFrame(next, members[1..], f);
    }
  }

  /** An entry changes no field it does not name. */
  lemma MemberFrame(st: Rule, m: Member, f: Field)
    requires ApplyMember(st, m).Success?
    requires !Touches(m, f)
    ensures FieldOf(ApplyMember(st, m).value, f) == FieldOf(st, f)
  {
    SlotFrame(st, SlotOf(m.key).value, m.value, f);
  }

  lemma SlotFrame(st: Rule, slot: Slot, v: Json, f: Field)
    requires ApplySlot(st, slot, v).Success?
    requires !SlotTouches(slot, v, f)
    ensures FieldOf(ApplySlot(st, slot, v).value, f) == FieldOf(st, f)
  {
    RangeEntryKeys(v);
    if slot == SizeRangeSlot {
      SizeRangeFrame(st, EntrySet(v.members), f);
    } else if slot == DateRangeSlot {
      DateRangeFrame(st, EntrySet(v.members), f);
    }
  }

  lemma {:induction false} MembersFrame(st: Rule, members: seq<Member>, f: Field)
    requires ApplyMembers(st, members).Success?
    requires !TouchedBy(members, f)
    ensures FieldOf(ApplyMembers(st, members).value, f) == FieldOf(st, f)
    decreases |members|
  {
    if |members| > 0 {
      assert !Touches(members[0], f);
      MemberFrame(st, members[0], f);
      var next := ApplyMember(st, members[0]).value;
      forall i | 0 <= i < |members[1..]|
        ensures !Touches(members[1..][i], f)
      {
        assert members[1..][i] == members[i + 1];
      }
      MembersFrame(next, members[1..], f);
    }
  }

  /** Reading two entry lists one after the other is reading their concatenation. */
  lemma {:induction false} MembersAppend(st: Rule, a: seq<Member>, b: seq<Member>)
    ensures ApplyMembers(st, a + b) ==
      (match ApplyMembers(st, a)
       case Success(mid) => ApplyMembers(mid, b)
       case Failure(e) => Failure(e))
    decreases |a|
  {
    if |a| == 0 {
      assert a + b == b;
    } else {
      assert (a + b)[0] == a[0];
      assert (a + b)[1..] == a[1..] + b;
      var first := ApplyMember(st, a[0]);
      if first.Success? {
        MembersAppend(first.value, a[1..], b);
      }
    }
  }

  /**
   * Carry-over, stated without the running state: rule `k` of an array is what
   * reading every entry of elements 0..k, in document order, from the starting
   * state produces. A value set by an earlier rule therefore persists until an
   * entry overwrites it.
   */
  lemma {:induction false} RulesAreCumulative(st: Rule, elems: seq<Json>)
    requires ParseRulesFrom(st, elems).Success?
    ensures var rules := ParseRulesFrom(st, elems).value;
      forall k :: 0 <= k < |elems| ==> ApplyMembers(st, Flatten(elems[..k + 1])) == Success(rules[k])
    decreases |elems|
  {
    if |elems| > 0 {
      var rules := ParseRulesFrom(st, elems).value;
      var first := rules[0];
      assert ParseRule(st, elems[0]) == Success(first);
      assert ParseRulesFrom(first, elems[1..]) == Success(rules[1..]);
      RulesAreCumulative(first, elems[1..]);
      forall k | 0 <= k < |elems|
        ensures ApplyMembers(st, Flatten(elems[..k + 1])) == Success(rules[k])
      {
        assert elems[..k + 1][0] == elems[0];
        assert elems[..k + 1][1..] == elems[1..][..k];
        assert Flatten(elems[..k + 1]) == EntrySet(elems[0].members) + Flatten(elems[1..][..k]);
        MembersAppend(st, EntrySet(elems[0].members), Flatten(elems[1..][..k]));
        if k == 0 {
          assert Flatten(elems[1..][..0]) == [];
        } else {
          assert rules[1..][k - 1] == rules[k];
          assert elems[1..][..k] == elems[1..][..(k - 1) + 1];
        }
      }
    }
  }

  /** The state rule `k` starts from: its predecessor, or the defaults for the first rule. */
  function Predecessor(rules: seq<Rule>, k: nat): Rule
    requires k < |rules|
  {
    if k == 0 then DefaultRule else rules[k - 1]
  }

  /**
   * A field that rule `k`'s object does not name keeps the value rule `k-1`
   * ended with (the default for the first rule of the array).
   */
  lemma RuleFieldCarriesOver(elems: seq<Json>, k: nat, f: Field)
    requires ParseRules(elems).Success?
    requires k < |elems|
    requires elems[k].JObject? && !TouchedBy(elems[k].members, f)
    ensures FieldOf(ParseRules(elems).value[k], f) == FieldOf(Predecessor(ParseRules(elems).value, k), f)
  {
    var rules := ParseRules(elems).value;
    RulesFromPredecessor(DefaultRule, elems, k);
    TouchedByEntrySet(elems[k].members, f);
    MembersFrame(Predecessor(rules, k), EntrySet(elems[k].members), f);
  }

  /** An accepted array's first rule is read over `st`, and the rest over the first. */
  lemma RulesFromFirst(st: Rule, elems: seq<Json>)
    requires ParseRulesFrom(st, elems).Success? && |elems| > 0
    ensures var rules := ParseRulesFrom(st, elems).value;
      && elems[0].JObject? && ApplyMembers(st, EntrySet(elems[0].members)) == Success(rules[0])
      && ParseRulesFrom(rules[0], elems[1..]) == Success(rules[1..])
  {
    assert ParseRule(st, elems[0]) == Success(ParseRulesFrom(st, elems).value[0]);
  }

  /** Rule `k` is its object's entries read over its predecessor's final state. */
  lemma {:induction false} RulesFromPredecessor(st: Rule, elems: seq<Json>, k: nat)
    requires ParseRulesFrom(st, elems).Success?
    requires k < |elems|
    ensures var rules := ParseRulesFrom(st, elems).value;
      elems[k].JObject? && ApplyMembers(if k == 0 then st else rules[k - 1], EntrySet(elems[k].members)) == Success(rules[k])
    decreases k
  {
    RulesFromFirst(st, elems);
    if k > 0 {
      RuleAfterPredecessor(st, elems, k);
    }
  }

  /** Past the first, rule `k` is read over rule `k - 1`. */
  lemma {:induction false} RuleAfterPredecessor(st: Rule, elems: seq<Json>, k: nat)
    requires ParseRulesFrom(st, elems).Success?
    requires 0 < k < |elems|
    ensures var rules := ParseRulesFrom(st, elems).value;
      elems[k].JObject? && ApplyMembers(rules[k - 1], EntrySet(elems[k].members)) == Success(rules[k])
    decreases k
  {
    var rules := ParseRulesFrom(st, elems).value;
    RulesFromFirst(st, elems);
    var tail := elems[1..];
    if k == 1 {
      RulesFromFirst(rules[0], tail);
      assert tail[0] == elems[1];
    } else {
      RuleAfterPredecessor(rules[0], tail, k - 1);
      assert tail[k - 1] == elems[k];
    }
  }

  /**
   * Defaults: a field no object among rules 0..k names holds its default in
   * rule k — alert on, save off, every other field null.
   */
  lemma {:induction false} RuleFieldDefault(elems: seq<Json>, k: nat, f: Field)
    requires ParseRules(elems).Success?
    requires k < |elems|
    requires forall j :: 0 <= j <= k ==> elems[j].JObject? && !TouchedBy(elems[j].members, f)
    ensures FieldOf(ParseRules(elems).value[k], f) == FieldOf(DefaultRule, f)
    ensures f == AlertField ==> ParseRules(elems).value[k].shouldAlert
    ensures f == SaveField ==> !ParseRules(elems).value[k].shouldSave
    decreases k
  {
    RuleFieldCarriesOver(elems, k, f);
    if k > 0 {
      RuleFieldDefault(elems, k - 1, f);
    }
  }

  /**
   * A key outside the rule schema fails the rule with that key, wherever it
   * stands, once the entries before it were accepted.
   */
  lemma UnknownRuleKeyRejected(st: Rule, ok: seq<Member>, key: string, v: Json, rest: seq<Member>)
    requires ApplyMembers(st, ok).Success?
    requires key !in RuleKeys
    ensures ApplyMembers(st, ok + [Member(key, v)] + rest) == Failure(UnsupportedKey(key))
  {
    assert ok + [Member(key, v)] + rest == ok + ([Member(key, v)] + rest);
    MembersAppend(st, ok, [Member(key, v)] + rest);
  }

  /**
   * The same for a whole `rules` array: a rule object whose entry set holds an
   * unknown key after accepted entries fails the array with that key.
   */
  lemma UnknownRuleKeyRejectsRules(st: Rule, members: seq<Member>, ok: seq<Member>, key: string, v: Json,
                                   rest: seq<Member>, later: seq<Json>)
    requires EntrySet(members) == ok + [Member(key, v)] + rest
    requires ApplyMembers(st, ok).Success?
    requires key !in RuleKeys
    ensures ParseRulesFrom(st, [JObject(members)] + later) == Failure(UnsupportedKey(key))
  {
    UnknownRuleKeyRejected(st, ok, key, v, rest);
    assert ([JObject(members)] + later)[0] == JObject(members);
  }

  /** A `size-range` key other than `min`/`max` fails with that key, wherever it stands. */
  lemma {:induction false} UnknownSizeKeyRejected(st: Rule, ok: seq<Member>, key: string, v: Json, rest: seq<Member>)
    requires ApplySizeRange(st, ok).Success?
    requires key !in SizeRangeKeys
    ensures ApplySizeRange(st, ok + [Member(key, v)] + rest) == Failure(UnsupportedKey(key))
    decreases |ok|
  {
    var all := ok + [Member(key, v)] + rest;
    if |ok| == 0 {
      assert all[0] == Member(key, v);
    } else {
      var m := ok[0];
      assert all[0] == m;
      assert all[1..] == ok[1..] + [Member(key, v)] + rest;
      var next := if m.key == "min" then st.(minFileSize := Some(AsInt(m.value).value))
                  else st.(maxFileSize := Some(AsInt(m.value).value));
      UnknownSizeKeyRejected(next, ok[1..], key, v, rest);
    }
  }

  /** A `date-range` key other than `min`/`max`/`min-days` fails with that key, wherever it stands. */
  lemma {:induction false} UnknownDateKeyRejected(st: Rule, ok: seq<Member>, key: string, v: Json, rest: seq<Member>)
    requires ApplyDateRange(st, ok).Success?
    requires key !in DateRangeKeys
    ensures ApplyDateRange(st, ok + [Member(key, v)] + rest) == Failure(UnsupportedKey(key))
    decreases |ok|
  {
    var all := ok + [Member(key, v)] + rest;
    if |ok| == 0 {
      assert all[0] == Member(key, v);
    } else {
      var m := ok[0];
      assert all[0] == m;
      assert all[1..] == ok[1..] + [Member(key, v)] + rest;
      var next := if m.key == "min" then st.(minDate := Some(AsInt(m.value).value))
                  else if m.key == "max" then st.(maxDate := Some(AsInt(m.value).value))
                  else st.(minDays := Some(AsInt(m.value).value));
      UnknownDateKeyRejected(next, ok[1..], key, v, rest);
    }
  }

  /** A range object holding an off-schema key makes its rule entry fail with that key. */
  lemma UnknownRangeKeyRejectsEntry(st: Rule, isSize: bool, members: seq<Member>, ok: seq<Member>, key: string,
                                    v: Json, rest: seq<Member>)
    requires EntrySet(members) == ok + [Member(key, v)] + rest
    requires if isSize then ApplySizeRange(st, ok).Success? && key !in SizeRangeKeys
             else ApplyDateRange(st, ok).Success? && key !in DateRangeKeys
    ensures ApplyMember(st, Member(if isSize then "size-range" else "date-range", JObject(members)))
      == Failure(UnsupportedKey(key))
  {
    if isSize {
      SizeRangeMember(st, members);
      UnknownSizeKeyRejected(st, ok, key, v, rest);
    } else {
      DateRangeMember(st, members);
      UnknownDateKeyRejected(st, ok, key, v, rest);
    }
  }

  /** A `size-range` object is read through its entry set. */
  lemma SizeRangeMember(st: Rule, members: seq<Member>)
    ensures ApplyMember(st, Member("size-range", JObject(members))) == ApplySizeRange(st, EntrySet(members))
  {
    assert SlotOf("size-range") == Some(SizeRangeSlot);
  }

  /** A `date-range` object is read through its entry set. */
  lemma DateRangeMember(st: Rule, members: seq<Member>)
    ensures ApplyMember(st, Member("date-range", JObject(members))) == ApplyDateRange(st, EntrySet(members))
  {
    assert SlotOf("date-range") == Some(DateRangeSlot);
  }

  /** The "Missing rule-set" error is never produced, whatever the document. */
  lemma NeverMissingRuleSet(doc: Json)
    ensures Deserialize(doc) != Failure(MissingRuleSet)
  {
    var r := Deserialize(doc);
    if r.Failure? && doc.JObject? && FinalizeFlag(doc.members).Success? && HasKey(doc.members, "rule-sets")
      && Get(doc.members, "rule-sets").value.JArray? {
      NoRuleSetMissingRuleSet(Get(doc.members, "rule-sets").value.items);
    }
  }

  lemma {:induction false} NoRuleSetMissingRuleSet(elems: seq<Json>)
    ensures ParseRuleSets(elems) != Failure(MissingRuleSet)
    decreases |elems|
  {
    if |elems| > 0 {
      NoRuleSetMissingRuleSet(elems[1..]);
      if elems[0].JObject? && HasKey(elems[0].members, "rules") && Get(elems[0].members, "rules").value.JArray? {
        NoRuleMissingRuleSet(DefaultRule, Get(elems[0].members, "rules").value.items);
      }
    }
  }

  lemma {:induction false} NoRuleMissingRuleSet(st: Rule, elems: seq<Json>)
    ensures ParseRulesFrom(st, elems) != Failure(MissingRuleSet)
    decreases |elems|
  {
    if |elems| > 0 && elems[0].JObject? {
      NoMemberMissingRuleSet(st, EntrySet(elems[0].members));
      var first := ParseRule(st, elems[0]);
      if first.Success? {
        NoRuleMissingRuleSet(first.value, elems[1..]);
      }
    }
  }

  lemma {:induction false} NoMemberMissingRuleSet(st: Rule, members: seq<Member>)
    ensures ApplyMembers(st, members) != Failure(MissingRuleSet)
    decreases |members|
  {
    if |members| > 0 {
      var m := members[0];
      if m.key == "size-range" && m.value.JObject? {
        NoSizeMissingRuleSet(st, EntrySet(m.value.members));
      } else if m.key == "date-range" && m.value.JObject? {
        NoDateMissingRuleSet(st, EntrySet(m.value.members));
      }
      var next := ApplyMember(st, m);
      if next.Success? {
        NoMemberMissingRuleSet(next.value, members[1..]);
      }
    }
  }

  lemma {:induction false} NoSizeMissingRuleSet(st: Rule, members: seq<Member>)
    ensures ApplySizeRange(st, members) != Failure(MissingRuleSet)
    decreases |members|
  {
    if |members| > 0 {
      var m := members[0];
      if m.key == "min" && AsInt(m.value).Success? {
        NoSizeMissingRuleSet(st.(minFileSize := Some(AsInt(m.value).value)), members[1..]);
      } else if m.key == "max" && AsInt(m.value).Success? {
        NoSizeMissingRuleSet(st.(maxFileSize := Some(AsInt(m.value).value)), members[1..]);
      }
    }
  }

  lemma {:induction false} NoDateMissingRuleSet(st: Rule, members: seq<Member>)
    ensures ApplyDateRange(st, members) != Failure(MissingRuleSet)
    decreases |members|
  {
    if |members| > 0 {
      var m := members[0];
      if m.key == "min" && AsInt(m.value).Success? {
        NoDateMissingRuleSet(st.(minDate := Some(AsInt(m.value).value)), members[1..]);
      } else if m.key == "max" && AsInt(m.value).Success? {
        NoDateMissingRuleSet(st.(maxDate := Some(AsInt(m.value).value)), members[1..]);
      } else if m.key == "min-days" && AsInt(m.value).Success? {
        NoDateMissingRuleSet(st.(minDays := Some(AsInt(m.value).value)), members[1..]);
      }
    }
  }

  /**
   * A document without `rule-sets` is rejected, by the null dereference unless
   * reading `finalize-image-writer` failed first.
   */
  lemma MissingRuleSetsRejected(members: seq<Member>)
    requires !HasKey(members, "rule-sets")
    ensures Deserialize(JObject(members)).Failure?
    ensures FinalizeFlag(members).Success? ==> Deserialize(JObject(members)) == Failure(Fault(NullDereference))
  {
  }

  /** An extra top-level key other than the two the code reads changes nothing, wherever it stands. */
  lemma ExtraTopLevelKeyIgnored(before: seq<Member>, extra: Member, after: seq<Member>)
    requires extra.key != "finalize-image-writer" && extra.key != "rule-sets"
    ensures Deserialize(JObject(before + [extra] + after)) == Deserialize(JObject(before + after))
  {
    GetInsert(before, extra, after, "finalize-image-writer");
    GetInsert(before, extra, after, "rule-sets");
    assert FinalizeFlag(before + [extra] + after) == FinalizeFlag(before + after);
  }

  /** An extra rule-set key other than `set-name` and `rules` changes nothing, wherever it stands. */
  lemma ExtraRuleSetKeyIgnored(before: seq<Member>, extra: Member, after: seq<Member>)
    requires extra.key != "set-name" && extra.key != "rules"
    ensures ParseRuleSet(JObject(before + [extra] + after)) == ParseRuleSet(JObject(before + after))
  {
    GetInsert(before, extra, after, "set-name");
    GetInsert(before, extra, after, "rules");
  }

  /** A repeated top-level key is read with the value parsed last. */
  lemma RepeatedFlagLastWins()
    ensures FinalizeFlag([Member("finalize-image-writer", JBool(true)), Member("finalize-image-writer", JBool(false))])
      == Success(false)
  {
  }

  /**
   * A repeated rule key is seen once, with its last value: an object value
   * that `getAsBoolean` would reject is overwritten before the loop runs.
   */
  lemma RepeatedRuleKeyLastWins()
    ensures ParseRules([JObject([Member("shouldSave", JObject([])), Member("shouldSave", JBool(true))])])
      == Success([DefaultRule.(shouldSave := true)])
  {
    var ms := [Member("shouldSave", JObject([])), Member("shouldSave", JBool(true))];
    assert ms[1..] == [Member("shouldSave", JBool(true))];
    assert Without(ms[1..], "shouldSave") == [];
    assert EntrySet(ms) == [Member("shouldSave", JBool(true))];
    assert ApplyMember(DefaultRule, Member("shouldSave", JBool(true))) == Success(DefaultRule.(shouldSave := true));
    assert ApplyMembers(DefaultRule, [Member("shouldSave", JBool(true))]) == Success(DefaultRule.(shouldSave := true));
    assert !FullPathsConflict(DefaultRule.(shouldSave := true));
    assert ParseRule(DefaultRule, JObject(ms)) == Success(DefaultRule.(shouldSave := true));
    assert [JObject(ms)][1..] == [];
    assert ParseRulesFrom(DefaultRule.(shouldSave := true), []) == Success([]);
    assert [DefaultRule.(shouldSave := true)] + [] == [DefaultRule.(shouldSave := true)];
  }
}

=== FILE: config_values.dfy ===
/**
 * What an accepted entry of a rule object stores: each `case` of the rule
 * switch reads its value the way Gson does and writes its own builder
 * fields, and the range objects are read key by key, the last value under
 * a repeated key winning.
 */
module ConfigValues {
  import opened Wrappers
  import opened Json
  import opened ImagerConfig
  import opened ConfigDeserializer

  /** The bound a range object gives under `key`: its value read as an int, or `prev` when the key is absent. */
  function RangeBound(ms: seq<Member>, key: string, prev: Option<int>): Option<int> {
    match Get(ms, key)
    case None => prev
    case Some(v) => if AsInt(v).Success? then Some(AsInt(v).value) else prev
  }

  /** The value under `key`, when there is one, reads as an int. */
  predicate ReadsAsInt(ms: seq<Member>, key: string) {
    Get(ms, key).Some? ==> AsInt(Get(ms, key).value).Success?
  }

  /** A `size-range` object the deserializer accepts: only min and max, each an int. */
  predicate SizeRangeAccepted(ms: seq<Member>) {
    KeysIn(ms, SizeRangeKeys) && ReadsAsInt(ms, "min") && ReadsAsInt(ms, "max")
  }

  /** A `date-range` object the deserializer accepts: only min, max and min-days, each an int. */
  predicate DateRangeAccepted(ms: seq<Member>) {
    KeysIn(ms, DateRangeKeys) && ReadsAsInt(ms, "min") && ReadsAsInt(ms, "max") && ReadsAsInt(ms, "min-days")
  }

  /** The size bounds a range object sets over `st`. */
  function SizeBounds(st: Rule, ms: seq<Member>): Rule {
    st.(minFileSize := RangeBound(ms, "min", st.minFileSize), maxFileSize := RangeBound(ms, "max", st.maxFileSize))
  }

  /** The date bounds a range object sets over `st`. */
  function DateBounds(st: Rule, ms: seq<Member>): Rule {
    st.(minDate := RangeBound(ms, "min", st.minDate), maxDate := RangeBound(ms, "max", st.maxDate),
        minDays := RangeBound(ms, "min-days", st.minDays))
  }

  /** Past the first member of a list without repeated keys, `get` reads the rest for every other key. */
  lemma RangeStep(es: seq<Member>)
    requires |es| > 0 && DistinctKeys(es)
    ensures DistinctKeys(es[1..])
    ensures forall key :: key != es[0].key ==> Get(es, key) == Get(es[1..], key)
    ensures Get(es, es[0].key) == Some(es[0].value) && Get(es[1..], es[0].key).None?
  {
    DistinctTail(es);
    DistinctFirst(es);
    GetFromSecond(es);
  }

  /** The key check splits into the first key and the rest. */
  lemma KeysInStep(es: seq<Member>, allowed: set<string>)
    requires |es| > 0
    ensures KeysIn(es, allowed) <==> es[0].key in allowed && KeysIn(es[1..], allowed)
  {
    assert forall i :: 0 <= i < |es[1..]| ==> es[1..][i] == es[i + 1];
  }

  /** Without repeated keys, the size range is read key by key, whatever their order. */
  lemma {:induction false} SizeRangeReads(st: Rule, es: seq<Member>)
    requires DistinctKeys(es)
    ensures ApplySizeRange(st, es).Success? <==> SizeRangeAccepted(es)
    ensures ApplySizeRange(st, es).Success? ==>
      ApplySizeRange(st, es).value == SizeBounds(st, es)
    decreases |es|
  {
    if |es| > 0 {
      var m := es[0];
      RangeStep(es);
      KeysInStep(es, SizeRangeKeys);
      if m.key in SizeRangeKeys && AsInt(m.value).Success? {
        var next := if m.key == "min" then st.(minFileSize := Some(AsInt(m.value).value))
                    else st.(maxFileSize := Some(AsInt(m.value).value));
        SizeRangeReads(next, es[1..]);
        assert ApplySizeRange(st, es) == ApplySizeRange(next, es[1..]);
      }
    }
  }

  /** The state after one accepted date entry. */
  function DateEntry(st: Rule, m: Member): Rule
    requires m.key in DateRangeKeys && AsInt(m.value).Success?
  {
    var v := AsInt(m.value).value;
    if m.key == "min" then st.(minDate := Some(v))
    else if m.key == "max" then st.(maxDate := Some(v))
    else st.(minDays := Some(v))
  }

  /** One accepted first entry: the rest is read from the state it leaves, to the same bounds. */
  lemma DateStep(st: Rule, es: seq<Member>)
    requires |es| > 0 && DistinctKeys(es) && es[0].key in DateRangeKeys && AsInt(es[0].value).Success?
    ensures DistinctKeys(es[1..])
    ensures ApplyDateRange(st, es) == ApplyDateRange(DateEntry(st, es[0]), es[1..])
  {
    DistinctTail(es);
  }

  /** An accepted first entry leaves acceptance to the rest. */
  lemma DateAcceptedStep(es: seq<Member>)
    requires |es| > 0 && DistinctKeys(es) && es[0].key in DateRangeKeys && AsInt(es[0].value).Success?
    ensures DateRangeAccepted(es) <==> DateRangeAccepted(es[1..])
  {
    RangeStep(es);
    KeysInStep(es, DateRangeKeys);
    assert ReadsAsInt(es, es[0].key) && ReadsAsInt(es[1..], es[0].key);
  }

  /** One accepted first entry leaves the rest to set the same bounds. */
  lemma DateBoundsStep(st: Rule, es: seq<Member>)
    requires |es| > 0 && DistinctKeys(es) && es[0].key in DateRangeKeys && AsInt(es[0].value).Success?
    ensures DateBounds(DateEntry(st, es[0]), es[1..]) == DateBounds(st, es)
  {
    RangeStep(es);
    KeysInStep(es, DateRangeKeys);
    var m := es[0];
    var tail := es[1..];
    var v := AsInt(m.value).value;
    if m.key == "min" {
      assert RangeBound(es, "min", st.minDate) == Some(v) == RangeBound(tail, "min", Some(v));
      assert RangeBound(es, "max", st.maxDate) == RangeBound(tail, "max", st.maxDate);
      assert RangeBound(es, "min-days", st.minDays) == RangeBound(tail, "min-days", st.minDays);
    } else if m.key == "max" {
      assert RangeBound(es, "max", st.maxDate) == Some(v) == RangeBound(tail, "max", Some(v));
      assert RangeBound(es, "min", st.minDate) == RangeBound(tail, "min", st.minDate);
      assert RangeBound(es, "min-days", st.minDays) == RangeBound(tail, "min-days", st.minDays);
    } else {
      assert RangeBound(es, "min-days", st.minDays) == Some(v) == RangeBound(tail, "min-days", Some(v));
      assert RangeBound(es, "min", st.minDate) == RangeBound(tail, "min", st.minDate);
      assert RangeBound(es, "max", st.maxDate) == RangeBound(tail, "max", st.maxDate);
    }
  }

  /** Without repeated keys, the date range is read key by key, whatever their order. */
  lemma {:induction false} DateRangeReads(st: Rule, es: seq<Member>)
    requires DistinctKeys(es)
    ensures ApplyDateRange(st, es).Success? <==> DateRangeAccepted(es)
    ensures ApplyDateRange(st, es).Success? ==> ApplyDateRange(st, es).value == DateBounds(st, es)
    decreases |es|
  {
    if |es| > 0 {
      if es[0].key in DateRangeKeys && AsInt(es[0].value).Success? {
        DateStep(st, es);
        DateAcceptedStep(es);
        DateBoundsStep(st, es);
        DateRangeReads(DateEntry(st, es[0]), es[1..]);
      } else {
        RangeStep(es);
        KeysInStep(es, DateRangeKeys);
      }
    }
  }

  /** An object and its entry set have the same keys, and `get` reads them alike. */
  lemma EntrySetReadsAlike(ms: seq<Member>, allowed: set<string>)
    ensures KeysIn(EntrySet(ms), allowed) <==> KeysIn(ms, allowed)
    ensures forall key :: Get(EntrySet(ms), key) == Get(ms, key)
  {
    var es := EntrySet(ms);
    EntrySetKeys(ms, allowed);
    EntrySetSpec(ms);
    if KeysIn(ms, allowed) {
      forall i | 0 <= i < |es|
        ensures es[i].key in allowed
      {
        assert es[i] in ms;
      }
    }
    forall key
      ensures Get(es, key) == Get(ms, key)
    {
      EntrySetGet(ms, key);
    }
  }

  /**
   * A `size-range` object is accepted exactly when it holds only min and
   * max, each an int; then min sets the minimum size and max the maximum
   * (the last value under a repeated key), and an absent key leaves its
   * bound as it was.
   */
  lemma SizeRangeValues(st: Rule, ms: seq<Member>)
    ensures ApplySizeRange(st, EntrySet(ms)).Success? <==> SizeRangeAccepted(ms)
    ensures ApplySizeRange(st, EntrySet(ms)).Success? ==>
      ApplySizeRange(st, EntrySet(ms)).value == SizeBounds(st, ms)
  {
    EntrySetSpec(ms);
    EntrySetReadsAlike(ms, SizeRangeKeys);
    SizeRangeReads(st, EntrySet(ms));
  }

  /**
   * A `date-range` object is accepted exactly when it holds only min, max
   * and min-days, each an int; each then sets its own bound (the last value
   * under a repeated key), and an absent key leaves its bound as it was.
   */
  lemma DateRangeValues(st: Rule, ms: seq<Member>)
    ensures ApplyDateRange(st, EntrySet(ms)).Success? <==> DateRangeAccepted(ms)
    ensures ApplyDateRange(st, EntrySet(ms)).Success? ==> ApplyDateRange(st, EntrySet(ms)).value == DateBounds(st, ms)
  {
    EntrySetSpec(ms);
    EntrySetReadsAlike(ms, DateRangeKeys);
    DateRangeReads(st, EntrySet(ms));
  }

  /**
   * What the flag and text `case`s of the rule switch store, and when they
   * are accepted: the two flags read as booleans, name and description as
   * strings; every other field keeps its value.
   */
  lemma SlotWrites(st: Rule, slot: Slot, v: Json)
    ensures slot == AlertSlot ==>
      (ApplySlot(st, slot, v).Success? <==> AsBoolean(v).Success?)
      && (AsBoolean(v).Success? ==> ApplySlot(st, slot, v).value == st.(shouldAlert := AsBoolean(v).value))
    ensures slot == SaveSlot ==>
      (ApplySlot(st, slot, v).Success? <==> AsBoolean(v).Success?)
      && (AsBoolean(v).Success? ==> ApplySlot(st, slot, v).value == st.(shouldSave := AsBoolean(v).value))
    ensures slot == NameSlot ==>
      (ApplySlot(st, slot, v).Success? <==> AsString(v).Success?)
      && (AsString(v).Success? ==> ApplySlot(st, slot, v).value == st.(name := Some(AsString(v).value)))
    ensures slot == DescriptionSlot ==>
      (ApplySlot(st, slot, v).Success? <==> AsString(v).Success?)
      && (AsString(v).Success? ==> ApplySlot(st, slot, v).value == st.(description := Some(AsString(v).value)))
  {
  }

  /**
   * The four list `case`s accept an array whose every element reads as a
   * string, and store the strings, in order, in their own field; every
   * other field keeps its value.
   */
  lemma ListSlotWrites(st: Rule, slot: Slot, v: Json)
    ensures slot in {ExtensionsSlot, FolderNamesSlot, FileNamesSlot, FullPathsSlot} ==>
      (ApplySlot(st, slot, v).Success? <==> v.JArray? && AsStringList(v.items).Success?)
    ensures v.JArray? && AsStringList(v.items).Success? ==>
      var l := Some(AsStringList(v.items).value);
      && (slot == ExtensionsSlot ==> ApplySlot(st, slot, v).value == st.(extensions := l))
      && (slot == FolderNamesSlot ==> ApplySlot(st, slot, v).value == st.(paths := l))
      && (slot == FileNamesSlot ==> ApplySlot(st, slot, v).value == st.(filenames := l))
      && (slot == FullPathsSlot ==> ApplySlot(st, slot, v).value == st.(fullPaths := l))
  {
  }

  /**
   * The two range `case`s accept an object the range reader accepts and
   * set the bounds it names (`SizeRangeValues`, `DateRangeValues`); every
   * other field keeps its value.
   */
  lemma RangeSlotWrites(st: Rule, slot: Slot, v: Json)
    ensures slot == SizeRangeSlot ==>
      (ApplySlot(st, slot, v).Success? <==> v.JObject? && SizeRangeAccepted(v.members))
      && (v.JObject? && SizeRangeAccepted(v.members) ==> ApplySlot(st, slot, v).value == SizeBounds(st, v.members))
    ensures slot == DateRangeSlot ==>
      (ApplySlot(st, slot, v).Success? <==> v.JObject? && DateRangeAccepted(v.members))
      && (v.JObject? && DateRangeAccepted(v.members) ==> ApplySlot(st, slot, v).value == DateBounds(st, v.members))
  {
    if v.JObject? {
      SizeRangeValues(st, v.members);
      DateRangeValues(st, v.members);
    }
  }
}

=== FILE: decimal.dfy ===
/**
 * Java's fixed-width integers as the code uses them: the int and long ranges,
 * two's-complement narrowing, truncating division, decimal printing
 * (Long.toString) and decimal parsing (Long.parseLong, Integer.parseInt).
 */
module Decimal {
  import opened Wrappers

  const MinInt: int := -0x8000_0000
  const MaxInt: int := 0x7FFF_FFFF
  const MinLong: int := -0x8000_0000_0000_0000
  const MaxLong: int := 0x7FFF_FFFF_FFFF_FFFF

  predicate IsInt(x: int) {
    MinInt <= x <= MaxInt
  }

  predicate IsLong(x: int) {
    MinLong <= x <= MaxLong
  }

  /** Narrowing to 32 bits: Java's `(int)` cast, int overflow and Number.intValue(). */
  function WrapInt(x: int): (r: int)
    ensures IsInt(r)
    ensures (r - x) % 0x1_0000_0000 == 0
    ensures IsInt(x) ==> r == x
  {
    (x - MinInt) % 0x1_0000_0000 + MinInt
  }

  /** Java's integer `/` by a positive divisor: the quotient is truncated toward zero. */
  function JavaDiv(a: int, b: int): (q: int)
    requires b > 0
    ensures a >= 0 ==> 0 <= q && q * b <= a < q * b + b
    ensures a < 0 ==> q <= 0 && q * b - b < a <= q * b
  {
    if a >= 0 then
      DivBounds(a, b);
      a / b
    else
      DivBounds(-a, b);
      -((-a) / b)
  }

  /** Euclidean division of a natural number: the quotient times the divisor is within one divisor below. */
  lemma DivBounds(a: nat, b: int)
    requires b > 0
    ensures 0 <= a / b && (a / b) * b <= a < (a / b) * b + b
  {
    assert a == (a / b) * b + a % b;
  }

  predicate IsDigit(c: char) {
    '0' <= c <= '9'
  }

  predicate AllDigits(s: string) {
    forall i :: 0 <= i < |s| ==> IsDigit(s[i])
  }

  function DigitValue(c: char): nat
    requires IsDigit(c)
  {
    c as int - '0' as int
  }

  function DigitChar(d: nat): (c: char)
    requires d < 10
    ensures IsDigit(c) && DigitValue(c) == d
  {
    ('0' as int + d) as char
  }

  /** The decimal digits of `n`, most significant first, without leading zeros. */
  function Digits(n: nat): (s: string)
    ensures |s| > 0 && AllDigits(s)
    ensures |s| > 1 ==> s[0] != '0'
    decreases n
  {
    if n < 10 then [DigitChar(n)] else Digits(n / 10) + [DigitChar(n % 10)]
  }

  /** The number a string of decimal digits denotes. */
  function ValueOf(s: string): nat
    requires AllDigits(s)
  {
    if |s| == 0 then 0 else ValueOf(s[..|s| - 1]) * 10 + DigitValue(s[|s| - 1])
  }

  /** Printing a natural number and reading it back gives the number. */
  lemma {:induction false} ValueOfDigits(n: nat)
    ensures ValueOf(Digits(n)) == n
    decreases n
  {
    if n >= 10 {
      ValueOfDigits(n / 10);
      var s := Digits(n);
      assert s[..|s| - 1] == Digits(n / 10);
    }
  }

  /** Java's decimal rendering of a long, as `Long.toString` and `"" + n` produce it. */
  function LongToString(n: int): (s: string)
    ensures |s| > 0
    ensures s[0] == '-' <==> n < 0
    ensures n >= 0 ==> AllDigits(s)
    ensures n < 0 ==> AllDigits(s[1..])
  {
    if n < 0 then "-" + Digits(-n) else Digits(n)
  }

  /**
   * Java's radix-10 parse with bounds `lo..hi`: an optional `-` or `+`, then at
   * least one digit, and the value must fit. None stands for NumberFormatException.
   */
  function ParseInteger(s: string, lo: int, hi: int): (r: Option<int>)
    ensures r.Some? ==> lo <= r.value <= hi
    ensures r.Some? ==> |s| > 0 && (AllDigits(s) || (|s| > 1 && (s[0] == '-' || s[0] == '+') && AllDigits(s[1..])))
  {
    if |s| == 0 then None
    else
      var body := if s[0] == '-' || s[0] == '+' then s[1..] else s;
      if |body| == 0 || !AllDigits(body) then None
      else
        var v: int := if s[0] == '-' then 0 - ValueOf(body) else ValueOf(body);
        if lo <= v <= hi then Some(v) else None
  }

  /** Long.parseLong(s): a long, and a plain run of digits within range reads as its value. */
  function ParseLong(s: string): (r: Option<int>)
    ensures r.Some? ==> IsLong(r.value)
    ensures |s| > 0 && AllDigits(s) && ValueOf(s) <= MaxLong ==> r == Some(ValueOf(s))
    ensures |s| > 0 && AllDigits(s) && ValueOf(s) > MaxLong ==> r.None?
  {
    ParseInteger(s, MinLong, MaxLong)
  }

  /** Integer.parseInt(s): an int, and a plain run of digits within range reads as its value. */
  function ParseInt(s: string): (r: Option<int>)
    ensures r.Some? ==> IsInt(r.value)
    ensures |s| > 0 && AllDigits(s) && ValueOf(s) <= MaxInt ==> r == Some(ValueOf(s))
    ensures |s| > 0 && AllDigits(s) && ValueOf(s) > MaxInt ==> r.None?
  {
    ParseInteger(s, MinInt, MaxInt)
  }

  /** Every value in range survives printing and parsing. */
  lemma ParseIntegerOfToString(n: int, lo: int, hi: int)
    requires lo <= n <= hi
    ensures ParseInteger(LongToString(n), lo, hi) == Some(n)
  {
    if n < 0 {
      ValueOfDigits(-n);
      assert LongToString(n)[1..] == Digits(-n);
    } else {
      ValueOfDigits(n);
    }
  }

  /** Long.parseLong(Long.toString(n)) == n for every long. */
  lemma ParseLongOfToString(n: int)
    requires IsLong(n)
    ensures ParseLong(LongToString(n)) == Some(n)
  {
    ParseIntegerOfToString(n, MinLong, MaxLong);
  }
}

=== FILE: imager_config.dfy ===
/**
 * The logical-imager configuration: a rule (the values handed to the rule
 * builder), a named rule set with `find`, and the configuration holder with
 * its constructors and setters.
 */
module ImagerConfig {
  import opened Wrappers

  /**
   * A rule as the builder receives it. Every field the deserializer starts as
   * null is an Option; the size and date bounds are Java ints.
   */
  datatype Rule = Rule(
    shouldAlert: bool,
    shouldSave: bool,
    name: Option<string>,
    description: Option<string>,
    extensions: Option<seq<string>>,
    paths: Option<seq<string>>,       // "folder-names"
    fullPaths: Option<seq<string>>,
    filenames: Option<seq<string>>,   // "file-names"
    minFileSize: Option<int>,
    maxFileSize: Option<int>,
    minDays: Option<int>,
    minDate: Option<int>,
    maxDate: Option<int>)

  /** The state a rules array starts from: alert on, save off, everything else null. */
  const DefaultRule: Rule := Rule(true, false, None, None, None, None, None, None, None, None, None, None, None)

  predicate NonEmpty(list: Option<seq<string>>) {
    list.Some? && |list.value| > 0
  }

  /** A rule with full paths may not also name extensions, folders or file names. */
  predicate FullPathsConflict(r: Rule) {
    NonEmpty(r.fullPaths) && (NonEmpty(r.extensions) || NonEmpty(r.paths) || NonEmpty(r.filenames))
  }

  datatype RuleSet = RuleSet(setName: string, rules: seq<Rule>)

  datatype Config = Config(finalizeImageWriter: bool, ruleSets: seq<RuleSet>)

  /** The no-argument constructor. */
  function EmptyConfig(): (c: Config)
    ensures !c.finalizeImageWriter && c.ruleSets == []
  {
    Config(false, [])
  }

  /** `setFinalizeImageWriter`: the flag takes the new value and the rule sets are untouched. */
  function SetFinalizeImageWriter(c: Config, flag: bool): (r: Config)
    ensures r.finalizeImageWriter == flag
    ensures r.ruleSets == c.ruleSets
  {
    c.(finalizeImageWriter := flag)
  }

  /** `setRuleSet`: the rule-set list is replaced and the flag is untouched. */
  function SetRuleSets(c: Config, ruleSets: seq<RuleSet>): (r: Config)
    ensures r.ruleSets == ruleSets
    ensures r.finalizeImageWriter == c.finalizeImageWriter
  {
    c.(ruleSets := ruleSets)
  }

  /** The fault `find` raises: `rule.getName().equals(name)` on a rule whose name is null. */
  datatype FindFault = NullRuleName

  predicate NameMatches(r: Rule, name: Option<string>) {
    r.name.Some? && name == Some(r.name.value)
  }

  /**
   * `find(name)`: the first rule, in list order, whose name equals `name`;
   * None when no rule matches. Reaching a rule with a null name first fails.
   */
  function Find(rs: RuleSet, name: Option<string>): Result<Option<Rule>, FindFault> {
    FindFrom(rs.rules, 0, name)
  }

  /** The loop of `find` resumed at rule `k`: whatever it returns is a rule from `k` on that matches. */
  function FindFrom(rules: seq<Rule>, k: nat, name: Option<string>): (r: Result<Option<Rule>, FindFault>)
    requires k <= |rules|
    ensures r.Success? && r.value.Some? ==> NameMatches(r.value.value, name) && r.value.value in rules[k..]
    ensures r.Failure? ==> exists i :: k <= i < |rules| && rules[i].name.None?
    decreases |rules| - k
  {
    if k == |rules| then Success(None)
    else if rules[k].name.None? then Failure(NullRuleName)
    else if NameMatches(rules[k], name) then Success(Some(rules[k]))
    else FindFrom(rules, k + 1, name)
  }

  /**
   * What `find` returns, stated without the loop: it returns rule `i` exactly
   * when rule `i` is the first match and every earlier rule has a non-null
   * name; it returns null exactly when every rule has a non-null, different
   * name; it fails exactly when a null-named rule precedes every match.
   */
  lemma {:induction false} FindSpec(rs: RuleSet, name: Option<string>)
    ensures var r := Find(rs, name);
      && (r.Success? && r.value.Some? <==>
            exists i :: 0 <= i < |rs.rules| && NameMatches(rs.rules[i], name) && AllNamedBefore(rs.rules, i, name))
      && (r.Success? && r.value.Some? ==>
            exists i :: 0 <= i < |rs.rules| && r.value.value == rs.rules[i] && NameMatches(rs.rules[i], name)
              && AllNamedBefore(rs.rules, i, name))
      && (r == Success(None) <==> AllNamedBefore(rs.rules, |rs.rules|, name))
      && (r.Failure? <==>
            exists i :: 0 <= i < |rs.rules| && rs.rules[i].name.None? && AllNamedBefore(rs.rules, i, name))
  {
    FindFromSpec(rs.rules, 0, name);
  }

  /** Every rule before `i` has a non-null name different from `name`. */
  predicate AllNamedBefore(rules: seq<Rule>, i: nat, name: Option<string>)
    requires i <= |rules|
  {
    forall k :: 0 <= k < i ==> rules[k].name.Some? && !NameMatches(rules[k], name)
  }

  lemma {:induction false} FindFromSpec(rules: seq<Rule>, k: nat, name: Option<string>)
    requires k <= |rules|
    requires AllNamedBefore(rules, k, name)
    ensures var r := FindFrom(rules, k, name);
      && (r.Success? && r.value.Some? <==>
            exists i :: k <= i < |rules| && NameMatches(rules[i], name) && AllNamedBefore(rules, i, name))
      && (r.Success? && r.value.Some? ==>
            exists i :: k <= i < |rules| && r.value.value == rules[i] && NameMatches(rules[i], name)
              && AllNamedBefore(rules, i, name))
      && (r == Success(None) <==> AllNamedBefore(rules, |rules|, name))
      && (r.Failure? <==>
            exists i :: k <= i < |rules| && rules[i].name.None? && AllNamedBefore(rules, i, name))
    decreases |rules| - k
  {
    if k < |rules| {
      if rules[k].name.None? {
        assert !AllNamedBefore(rules, |rules|, name);
        forall i | k < i <= |rules|
          ensures !AllNamedBefore(rules, i, name)
        {
          assert !(rules[k].name.Some?);
        }
      } else if NameMatches(rules[k], name) {
        assert !AllNamedBefore(rules, |rules|, name);
        forall i | k < i <= |rules|
          ensures !AllNamedBefore(rules, i, name)
        {
          assert NameMatches(rules[k], name);
        }
      } else {
        assert AllNamedBefore(rules, k + 1, name);
        FindFromSpec(rules, k + 1, name);
      }
    }
  }
}

=== FILE: imager_panel.dfy ===
/**
 * The panel that picks a logical-imager acquisition to ingest. An
 * acquisition folder is named `Logical_Imager_<host>_<yyyymmdd>_<HH>_<MM>_<SS>`
 * and holds `sparse_image.vhd`; the panel lists the matching folders of a
 * drive in a table of host names and extraction dates, or takes a folder
 * chosen by browsing, and lets the wizard go on once a chosen folder exists.
 */
module ImagerPanel {
  import opened Wrappers
  import opened Decimal

  /** The literal start of the folder-name pattern. */
  const FolderPrefix: string := "Logical_Imager_"

  /** `_` + 8 digits + three times (`_` + 2 digits): the date part of the pattern. */
  const StampLength: nat := 18

  /** The characters `.` does not match (no DOTALL flag). */
  predicate IsLineTerminator(c: char) {
    c == '\n' || c == '\r' || c == '\U{0085}' || c == '\U{2028}' || c == '\U{2029}'
  }

  /** `\d{n}` at `i`: ASCII digits only, as Java's default `\d` is. */
  predicate DigitsAt(s: string, i: nat, n: nat) {
    i + n <= |s| && forall k :: i <= k < i + n ==> IsDigit(s[k])
  }

  /** `_(\d{4})(\d{2})(\d{2})_(\d{2})_(\d{2})_(\d{2})` starting at `e`. */
  predicate StampAt(s: string, e: nat) {
    && e + StampLength <= |s|
    && s[e] == '_' && DigitsAt(s, e + 1, 8)
    && s[e + 9] == '_' && DigitsAt(s, e + 10, 2)
    && s[e + 12] == '_' && DigitsAt(s, e + 13, 2)
    && s[e + 15] == '_' && DigitsAt(s, e + 16, 2)
  }

  predicate PrefixAt(s: string, start: nat) {
    start + |FolderPrefix| <= |s| && s[start..start + |FolderPrefix|] == FolderPrefix
  }

  /** `(.+)` over `s[a..e]`: at least one character, none a line terminator. */
  predicate HostSpan(s: string, a: nat, e: nat) {
    a < e <= |s| && forall k :: a <= k < e ==> !IsLineTerminator(s[k])
  }

  /** The pattern matches `s` from `start` with group 1 ending at `e`. */
  predicate MatchAt(s: string, start: nat, e: nat) {
    PrefixAt(s, start) && HostSpan(s, start + |FolderPrefix|, e) && StampAt(s, e)
  }

  /** A match: where it starts and where the host group ends. */
  datatype Span = Span(start: nat, hostEnd: nat)

  /** The end of the run of non-terminators from `k`. */
  function RunEnd(s: string, k: nat): (r: nat)
    requires k <= |s|
    ensures k <= r <= |s|
    ensures forall j :: k <= j < r ==> !IsLineTerminator(s[j])
    ensures r < |s| ==> IsLineTerminator(s[r])
    decreases |s| - k
  {
    if k == |s| || IsLineTerminator(s[k]) then k else RunEnd(s, k + 1)
  }

  /** Backtracking of the greedy `.+`: the last end, from `e` down, where the date part follows. */
  function GreedyEnd(s: string, start: nat, e: nat): (g: Option<nat>)
    ensures g.Some? ==> start + |FolderPrefix| < g.value <= e && StampAt(s, g.value)
    ensures g.Some? ==> forall k :: g.value < k <= e ==> !StampAt(s, k)
    ensures g.None? ==> forall k :: start + |FolderPrefix| < k <= e ==> !StampAt(s, k)
    decreases e
  {
    if e <= start + |FolderPrefix| then None
    else if StampAt(s, e) then Some(e)
    else GreedyEnd(s, start, e - 1)
  }

  /**
   * `Matcher.find()` from `start`: the leftmost start where the pattern
   * matches, and there the longest host group.
   */
  function FindFrom(s: string, start: nat): (m: Option<Span>)
    ensures m.Some? ==> start <= m.value.start && MatchAt(s, m.value.start, m.value.hostEnd)
    ensures m.Some? ==> forall st, e :: start <= st < m.value.start ==> !MatchAt(s, st, e)
    ensures m.Some? ==> forall e :: m.value.hostEnd < e ==> !MatchAt(s, m.value.start, e)
    ensures m.None? ==> forall st, e :: start <= st ==> !MatchAt(s, st, e)
    decreases |s| - start
  {
    if start + |FolderPrefix| > |s| then None
    else
      var g := if PrefixAt(s, start) then GreedyEnd(s, start, RunEnd(s, start + |FolderPrefix|)) else None;
      if g.Some? then Some(Span(start, g.value))
      else FindFrom(s, start + 1)
  }

  /**
   * `Matcher.find()` on a fresh matcher: the leftmost match in the whole
   * name, with the longest host group there; None when the pattern is
   * found nowhere.
   */
  function Find(s: string): (m: Option<Span>)
    ensures m.Some? ==> MatchAt(s, m.value.start, m.value.hostEnd)
    ensures m.Some? ==> forall st: nat, e: nat :: st < m.value.start ==> !MatchAt(s, st, e)
    ensures m.Some? ==> forall e: nat :: m.value.hostEnd < e ==> !MatchAt(s, m.value.start, e)
    ensures m.None? ==> forall st: nat, e: nat :: !MatchAt(s, st, e)
  {
    FindFrom(s, 0)
  }

  /** The date and time groups 2 to 7. */
  datatype Stamp = Stamp(year: string, month: string, day: string, hour: string, minute: string, second: string)

  predicate WellFormed(t: Stamp) {
    && |t.year| == 4 && |t.month| == 2 && |t.day| == 2
    && |t.hour| == 2 && |t.minute| == 2 && |t.second| == 2
    && AllDigits(t.year) && AllDigits(t.month) && AllDigits(t.day)
    && AllDigits(t.hour) && AllDigits(t.minute) && AllDigits(t.second)
  }

  /** What a match found: group 1 and groups 2 to 7. */
  datatype Acquisition = Acquisition(hostname: string, stamp: Stamp)

  function Groups(s: string, m: Span): Acquisition
    requires MatchAt(s, m.start, m.hostEnd)
  {
    var e := m.hostEnd;
    Acquisition(s[m.start + |FolderPrefix|..e],
      Stamp(s[e + 1..e + 5], s[e + 5..e + 7], s[e + 7..e + 9], s[e + 10..e + 12], s[e + 13..e + 15], s[e + 16..e + 18]))
  }

  /** The folder name's acquisition, if the pattern is found in it. */
  function ReadFolderName(s: string): (a: Option<Acquisition>)
    ensures a.Some? <==> exists st, e :: MatchAt(s, st, e)
    ensures a.Some? ==> WellFormed(a.value.stamp) && |a.value.hostname| > 0
  {
    var m := Find(s);
    if m.None? then None
    else
      GroupsWellFormed(s, m.value);
      Some(Groups(s, m.value))
  }

  lemma GroupsWellFormed(s: string, m: Span)
    requires MatchAt(s, m.start, m.hostEnd)
    ensures WellFormed(Groups(s, m).stamp) && |Groups(s, m).hostname| > 0
  {
    var e := m.hostEnd;
    DigitsSlice(s, e + 1, 4);
    DigitsSlice(s, e + 5, 2);
    DigitsSlice(s, e + 7, 2);
    DigitsSlice(s, e + 10, 2);
    DigitsSlice(s, e + 13, 2);
    DigitsSlice(s, e + 16, 2);
  }

  lemma DigitsSlice(s: string, i: nat, n: nat)
    requires DigitsAt(s, i, n)
    ensures |s[i..i + n]| == n && AllDigits(s[i..i + n])
  {
    var t := s[i..i + n];
    assert forall k :: 0 <= k < n ==> t[k] == s[i + k];
  }

  /** The date part as the imager writes it after the host name. */
  function StampText(t: Stamp): string {
    "_" + t.year + t.month + t.day + "_" + t.hour + "_" + t.minute + "_" + t.second
  }

  /** The name the imager gives an acquisition folder. */
  function FolderName(a: Acquisition): string {
    FolderPrefix + a.hostname + StampText(a.stamp)
  }

  /** The date column of the table: `yyyy/mm/dd HH:MM:SS`. */
  function ExtractDate(t: Stamp): (d: string)
    ensures WellFormed(t) ==> |d| == 19 && d[4] == '/' && d[7] == '/' && d[10] == ' ' && d[13] == ':' && d[16] == ':'
  {
    t.year + "/" + t.month + "/" + t.day + " " + t.hour + ":" + t.minute + ":" + t.second
  }

  /** The date part sits where the imager puts it. */
  lemma StampTextAt(p: string, t: Stamp)
    requires WellFormed(t)
    ensures var s := p + StampText(t);
      && |s| == |p| + StampLength && StampAt(s, |p|)
      && s[|p| + 1..|p| + 5] == t.year && s[|p| + 5..|p| + 7] == t.month && s[|p| + 7..|p| + 9] == t.day
      && s[|p| + 10..|p| + 12] == t.hour && s[|p| + 13..|p| + 15] == t.minute && s[|p| + 16..|p| + 18] == t.second
      && forall k :: |p| <= k < |s| ==> !IsLineTerminator(s[k])
  {
    var s := p + StampText(t);
    var n := |p|;
    assert s[n..] == StampText(t);
    assert s[n + 1..n + 5] == t.year;
    assert s[n + 5..n + 7] == t.month;
    assert s[n + 7..n + 9] == t.day;
    assert s[n + 10..n + 12] == t.hour;
    assert s[n + 13..n + 15] == t.minute;
    assert s[n + 16..n + 18] == t.second;
  }

  /**
   * A folder the imager named reads back as its host and date, whatever the
   * host holds (underscores, digits, even the prefix again), provided it is
   * not empty and has no line break.
   */
  lemma FolderNameRoundTrip(a: Acquisition)
    requires |a.hostname| > 0 && WellFormed(a.stamp)
    requires forall i :: 0 <= i < |a.hostname| ==> !IsLineTerminator(a.hostname[i])
    ensures ReadFolderName(FolderName(a)) == Some(a)
  {
    var p := FolderPrefix + a.hostname;
    var s := p + StampText(a.stamp);
    assert FolderName(a) == s;
    var e := |p|;
    StampTextAt(p, a.stamp);
    PrefixHost(a.hostname, StampText(a.stamp));
    assert MatchAt(s, 0, e);
    assert forall e': nat :: e < e' ==> !StampAt(s, e');
    FindIs(s, 0, e);
    assert Groups(s, Span(0, e)).stamp == a.stamp;
  }

  /** The prefix and the host sit where the imager puts them. */
  lemma PrefixHost(h: string, rest: string)
    requires |h| > 0
    requires forall i :: 0 <= i < |h| ==> !IsLineTerminator(h[i])
    ensures var s := FolderPrefix + h + rest;
      && PrefixAt(s, 0)
      && HostSpan(s, |FolderPrefix|, |FolderPrefix| + |h|)
      && s[|FolderPrefix|..|FolderPrefix| + |h|] == h
  {
    var s := FolderPrefix + h + rest;
    assert s[..|FolderPrefix|] == FolderPrefix;
    assert s[|FolderPrefix|..|FolderPrefix| + |h|] == h;
    assert forall k :: |FolderPrefix| <= k < |FolderPrefix| + |h| ==> s[k] == h[k - |FolderPrefix|];
  }

  /** A match from `st` that is leftmost and, there, ends its host last is what find reports. */
  lemma FindIs(s: string, st: nat, e: nat)
    requires MatchAt(s, st, e)
    requires forall st': nat, e': nat :: st' < st ==> !MatchAt(s, st', e')
    requires forall e': nat :: e < e' ==> !MatchAt(s, st, e')
    ensures Find(s) == Some(Span(st, e))
  {
    var m := Find(s);
    assert m.Some?;
    assert m.value.start == st;
    assert m.value.hostEnd == e;
  }

  /** The table of acquisitions: three parallel columns, the third not shown. */
  datatype Table = Table(hostnames: seq<string>, extractDates: seq<string>, imageDirPaths: seq<string>)

  const EmptyTable := Table([], [], [])

  datatype TableError =
    | InvalidColumn(column: int)  // UnsupportedOperationException
    | RowOutOfRange(row: int)     // IndexOutOfBoundsException from the list

  /** `getRowCount`: the number of host names. */
  function RowCount(t: Table): nat {
    |t.hostnames|
  }

  /** `getColumnCount`: only the host and date columns are shown. */
  const ColumnCount: nat := 2

  /** `getColumnName`: None for every column but the two shown. */
  function ColumnName(column: int): (n: Option<string>)
    ensures n.Some? <==> 0 <= column < ColumnCount
  {
    if column == 0 then Some("Hostname")
    else if column == 1 then Some("Extracted Date")
    else None
  }

  /** `isCellEditable`: no cell is. */
  predicate IsCellEditable(t: Table, row: int, column: int) {
    false
  }

  function Column(t: Table, column: int): seq<string>
    requires 0 <= column <= 2
  {
    if column == 0 then t.hostnames else if column == 1 then t.extractDates else t.imageDirPaths
  }

  /**
   * `setValueAt`: appends to the column's list, whatever the row index says;
   * columns other than 0, 1 and 2 throw.
   */
  function SetValueAt(t: Table, value: string, row: int, column: int): (r: Result<Table, TableError>)
    ensures r.Success? <==> 0 <= column <= 2
    ensures r.Failure? ==> r.error == InvalidColumn(column)
    ensures r.Success? ==> forall c :: 0 <= c <= 2 ==>
      Column(r.value, c) == if c == column then Column(t, c) + [value] else Column(t, c)
  {
    if column == 0 then Success(t.(hostnames := t.hostnames + [value]))
    else if column == 1 then Success(t.(extractDates := t.extractDates + [value]))
    else if column == 2 then Success(t.(imageDirPaths := t.imageDirPaths + [value]))
    else Failure(InvalidColumn(column))
  }

  /** `getValueAt`: the list's element; a row past the list or below 0 throws. */
  function GetValueAt(t: Table, row: int, column: int): (r: Result<string, TableError>)
    ensures 0 <= column <= 2 ==> (r.Success? <==> 0 <= row < |Column(t, column)|)
    ensures r.Success? ==> 0 <= column <= 2 && 0 <= row < |Column(t, column)| && r.value == Column(t, column)[row]
    ensures !(0 <= column <= 2) ==> r == Failure(InvalidColumn(column))
  {
    if !(0 <= column <= 2) then Failure(InvalidColumn(column))
    else
      var col := Column(t, column);
      if 0 <= row < |col| then Success(col[row]) else Failure(RowOutOfRange(row))
  }

  /**
   * What is set can be read back at the end of its column, and what was
   * there stays; the row index passed does not matter.
   */
  lemma SetThenGet(t: Table, value: string, row: int, other: int, column: int, k: int)
    requires 0 <= column <= 2
    ensures var r := SetValueAt(t, value, row, column).value;
      && GetValueAt(r, |Column(t, column)|, column) == Success(value)
      && (0 <= k < |Column(t, column)| ==> GetValueAt(r, k, column) == GetValueAt(t, k, column))
      && SetValueAt(t, value, other, column) == SetValueAt(t, value, row, column)
  {
  }

  /** The three columns hold the same number of entries. */
  predicate Aligned(t: Table) {
    |t.hostnames| == |t.extractDates| == |t.imageDirPaths|
  }

  /** The three `setValueAt` calls of one row. */
  function AddRow(t: Table, row: int, host: string, date: string, path: string): (r: Table)
    ensures r == Table(t.hostnames + [host], t.extractDates + [date], t.imageDirPaths + [path])
    ensures Aligned(t) ==> Aligned(r) && RowCount(r) == RowCount(t) + 1
    ensures GetValueAt(r, RowCount(t), 0) == Success(host)
    ensures Aligned(t) ==> GetValueAt(r, RowCount(t), 1) == Success(date) && GetValueAt(r, RowCount(t), 2) == Success(path)
  {
    var a := SetValueAt(t, host, row, 0).value;
    var b := SetValueAt(a, date, row, 1).value;
    SetValueAt(b, path, row, 2).value
  }

  /** One entry of a drive's root listing. */
  datatype DirEntry = DirEntry(name: string, isDirectory: bool, hasSparseImage: bool)

  /** A listed row: host name, extraction date and the folder's path. */
  datatype ImageRow = ImageRow(hostname: string, extractDate: string, path: string)

  /** A directory holding `sparse_image.vhd` whose name the pattern is found in. */
  predicate IsAcquisition(e: DirEntry) {
    e.isDirectory && e.hasSparseImage && ReadFolderName(e.name).Some?
  }

  /** The row an acquisition folder gives: its host, its date, and the drive joined with its name. */
  function RowOf(drive: string, e: DirEntry): ImageRow
    requires IsAcquisition(e)
  {
    var a := ReadFolderName(e.name).value;
    ImageRow(a.hostname, ExtractDate(a.stamp), drive + e.name)
  }

  /** The rows a drive's listing gives, in listing order. */
  function ImageRows(drive: string, entries: seq<DirEntry>): (rows: seq<ImageRow>)
    ensures |rows| <= |entries|
  {
    if |entries| == 0 then []
    else
      var e := entries[|entries| - 1];
      var init := ImageRows(drive, entries[..|entries| - 1]);
      if IsAcquisition(e) then
        var a := ReadFolderName(e.name).value;
        init + [ImageRow(a.hostname, ExtractDate(a.stamp), drive + e.name)]
      else init
  }

  /** Row i comes from an acquisition folder of the listing. */
  ghost predicate FromAcquisition(drive: string, entries: seq<DirEntry>, row: ImageRow) {
    exists j :: 0 <= j < |entries| && IsAcquisition(entries[j]) && row == RowOf(drive, entries[j])
  }

  /** The rows of a listing are the rows of all but its last entry, then the last entry's row if it is an acquisition. */
  lemma ImageRowsSnoc(drive: string, entries: seq<DirEntry>) returns (extra: seq<ImageRow>)
    requires |entries| > 0
    ensures var n := |entries| - 1;
      && ImageRows(drive, entries) == ImageRows(drive, entries[..n]) + extra
      && (if IsAcquisition(entries[n]) then extra == [RowOf(drive, entries[n])] else extra == [])
  {
    var n := |entries| - 1;
    extra := if IsAcquisition(entries[n]) then [RowOf(drive, entries[n])] else [];
  }

  /** Every row is the row of an acquisition folder of the listing. */
  lemma {:induction false} ImageRowsSound(drive: string, entries: seq<DirEntry>)
    ensures forall i :: 0 <= i < |ImageRows(drive, entries)| ==> FromAcquisition(drive, entries, ImageRows(drive, entries)[i])
  {
    if |entries| > 0 {
      var n := |entries| - 1;
      var init := entries[..n];
      ImageRowsSound(drive, init);
      var extra := ImageRowsSnoc(drive, entries);
      var rows := ImageRows(drive, entries);
      var prev := ImageRows(drive, init);
      forall i | 0 <= i < |rows|
        ensures FromAcquisition(drive, entries, rows[i])
      {
        if i < |prev| {
          assert rows[i] == prev[i];
          var j :| 0 <= j < |init| && IsAcquisition(init[j]) && prev[i] == RowOf(drive, init[j]);
          assert entries[j] == init[j];
        } else {
          assert rows[i] == extra[0];
        }
      }
    }
  }

  /** Every acquisition folder of the listing gives a row. */
  lemma {:induction false} ImageRowsComplete(drive: string, entries: seq<DirEntry>)
    ensures forall j :: 0 <= j < |entries| && IsAcquisition(entries[j]) ==> RowOf(drive, entries[j]) in ImageRows(drive, entries)
  {
    if |entries| > 0 {
      var n := |entries| - 1;
      var init := entries[..n];
      ImageRowsComplete(drive, init);
      var extra := ImageRowsSnoc(drive, entries);
      var rows := ImageRows(drive, entries);
      var prev := ImageRows(drive, init);
      forall j | 0 <= j < |entries| && IsAcquisition(entries[j])
        ensures RowOf(drive, entries[j]) in rows
      {
        var row := RowOf(drive, entries[j]);
        if j < n {
          assert entries[j] == init[j];
          assert row in prev;
          var k :| 0 <= k < |prev| && prev[k] == row;
          assert rows[k] == row;
        } else {
          assert rows[|rows| - 1] == row;
        }
      }
    }
  }

  /** The table holds exactly the rows, column by column. */
  predicate Holds(t: Table, rows: seq<ImageRow>) {
    && |t.hostnames| == |rows| && |t.extractDates| == |rows| && |t.imageDirPaths| == |rows|
    && forall i :: 0 <= i < |rows| ==>
         t.hostnames[i] == rows[i].hostname && t.extractDates[i] == rows[i].extractDate && t.imageDirPaths[i] == rows[i].path
  }

  /** The messages the panel shows. */
  datatype Message =
    | ClickScanOrBrowse
    | NoImageSelected
    | SelectedImage(path: string)
    | DriveHasNoImages
    | NoSparseImage(path: string)
    | FormatInvalid(path: string)

  /** The panel: the chosen folder, the table and the message. */
  datatype Panel = Panel(chosen: Option<string>, table: Table, message: Message)

  /** `reset`: nothing chosen, an empty table. */
  function Reset(): (p: Panel)
    ensures p.chosen.None? && RowCount(p.table) == 0
  {
    Panel(None, EmptyTable, ClickScanOrBrowse)
  }

  /** `imageTableSelect`: choose the selected row's folder, or nothing. */
  function ImageTableSelect(p: Panel, index: int): (r: Result<Panel, TableError>)
    ensures index == -1 ==> r == Success(p.(chosen := None, message := NoImageSelected))
    ensures index != -1 ==>
      (r.Success? <==> 0 <= index < |p.table.imageDirPaths|)
    ensures index != -1 && r.Success? ==> r.value.chosen == Some(p.table.imageDirPaths[index])
  {
    if index == -1 then Success(p.(chosen := None, message := NoImageSelected))
    else
      var path :- GetValueAt(p.table, index, 2);
      Success(p.(chosen := Some(path), message := SelectedImage(path)))
  }

  /** `substring(0, 3)` of a selection shorter than three characters. */
  datatype SelectError = SelectionTooShort

  /**
   * `driveListSelect`: the drive is the first three characters of the
   * selection; every directory of its root that holds `sparse_image.vhd` and
   * whose name the pattern is found in becomes a row, in listing order; the
   * first row is then selected, or nothing is chosen when there is none. A
   * missing selection or an unreadable root leaves the panel as it was.
   */
  method DriveListSelect(p: Panel, selected: Option<string>, listing: Option<seq<DirEntry>>)
    returns (r: Result<Panel, SelectError>)
    ensures selected.None? ==> r == Success(p)
    ensures selected.Some? && |selected.value| < 3 ==> r == Failure(SelectionTooShort)
    ensures selected.Some? && |selected.value| >= 3 && listing.None? ==> r == Success(p)
    ensures selected.Some? && |selected.value| >= 3 && listing.Some? ==>
      var rows := ImageRows(selected.value[..3], listing.value);
      && r.Success? && Holds(r.value.table, rows)
      && (|rows| > 0 ==> r.value.chosen == Some(rows[0].path))
      && (|rows| == 0 ==> r.value.chosen.None? && r.value.message == DriveHasNoImages)
  {
    if selected.None? {
      return Success(p);
    }
    if |selected.value| < 3 {
      return Failure(SelectionTooShort);
    }
    var drive := selected.value[..3];
    if listing.None? {
      return Success(p);
    }
    var table := CollectRows(drive, listing.value);
    if RowCount(table) > 0 {
      var path := table.imageDirPaths[0];
      return Success(Panel(Some(path), table, SelectedImage(path)));
    }
    return Success(Panel(None, table, DriveHasNoImages));
  }

  /** The table the rows of a listing fill, one `AddRow` per acquisition folder. */
  function RowsTable(drive: string, entries: seq<DirEntry>): Table {
    if |entries| == 0 then EmptyTable
    else
      var e := entries[|entries| - 1];
      var init := RowsTable(drive, entries[..|entries| - 1]);
      if IsAcquisition(e) then
        var a := ReadFolderName(e.name).value;
        AddRow(init, RowCount(init), a.hostname, ExtractDate(a.stamp), drive + e.name)
      else init
  }

  /** Filling the table row by row leaves exactly the listed rows in it. */
  lemma {:induction false} RowsTableHolds(drive: string, entries: seq<DirEntry>)
    ensures Holds(RowsTable(drive, entries), ImageRows(drive, entries))
  {
    if |entries| > 0 {
      RowsTableHolds(drive, entries[..|entries| - 1]);
    }
  }

  /** The loop of `driveListSelect`: one row per acquisition folder, in listing order. */
  method CollectRows(drive: string, entries: seq<DirEntry>) returns (table: Table)
    ensures Holds(table, ImageRows(drive, entries))
  {
    table := EmptyTable;
    var row := 0;
    var i := 0;
    while i < |entries|
      invariant 0 <= i <= |entries|
      invariant table == RowsTable(drive, entries[..i])
      invariant row == RowCount(table)
    {
      var e := entries[i];
      assert entries[..i + 1][..i] == entries[..i];
      if e.isDirectory && e.hasSparseImage {
        var a := ReadFolderName(e.name);
        if a.Some? {
          table := AddRow(table, row, a.value.hostname, ExtractDate(a.value.stamp), drive + e.name);
          row := row + 1;
        }
      }
      i := i + 1;
    }
    assert entries[..i] == entries;
    RowsTableHolds(drive, entries);
  }

  /** The first-row selection `driveListSelect` makes is `imageTableSelect` of row 0. */
  lemma FirstRowSelected(p: Panel, t: Table)
    requires |t.imageDirPaths| > 0
    ensures ImageTableSelect(p.(table := t), 0) ==
      Success(Panel(Some(t.imageDirPaths[0]), t, SelectedImage(t.imageDirPaths[0])))
  {
  }

  /**
   * The browse button: the whole chosen path is searched for the pattern
   * (so a matching parent folder is enough); the folder must hold
   * `sparse_image.vhd`. A cancelled dialog chooses nothing.
   */
  function Browse(p: Panel, approved: Option<string>, hasSparseImage: bool): (r: Panel)
    ensures r.chosen.Some? <==> approved.Some? && ReadFolderName(approved.value).Some? && hasSparseImage
    ensures r.chosen.Some? ==> r.chosen == approved
    ensures r.table == p.table
  {
    match approved
    case None => p.(chosen := None, message := NoImageSelected)
    case Some(path) =>
      if ReadFolderName(path).None? then p.(chosen := None, message := FormatInvalid(path))
      else if !hasSparseImage then p.(chosen := None, message := NoSparseImage(path))
      else p.(chosen := Some(path), message := SelectedImage(path))
  }

  /** `validatePanel`: a folder is chosen and it exists. */
  predicate ValidatePanel(p: Panel, exists_: string -> bool) {
    p.chosen.Some? && exists_(p.chosen.value)
  }

  /**
   * After a row of the table is selected the wizard may go on exactly when
   * that row's folder exists; after the selection is cleared it may not.
   */
  lemma SelectionValidates(p: Panel, index: int, exists_: string -> bool)
    requires index == -1 || 0 <= index < |p.table.imageDirPaths|
    ensures ImageTableSelect(p, index).Success?
    ensures index == -1 ==> !ValidatePanel(ImageTableSelect(p, index).value, exists_)
    ensures index != -1 ==>
      (ValidatePanel(ImageTableSelect(p, index).value, exists_) <==> exists_(p.table.imageDirPaths[index]))
  {
  }

  /**
   * The wizard cannot go on after a browse whose path the pattern is not
   * found in, or after a drive without acquisitions, whatever the file
   * system holds.
   */
  lemma NoChoiceNotValid(p: Panel, path: string, hasSparseImage: bool, exists_: string -> bool)
    requires ReadFolderName(path).None?
    ensures !ValidatePanel(Browse(p, Some(path), hasSparseImage), exists_)
    ensures Browse(p, Some(path), hasSparseImage).message == FormatInvalid(path)
  {
  }

  /** `humanReadableByteCount` below one unit: the count and ` B`; None stands for the floating-point branch. */
  function HumanReadableByteCount(bytes: int, si: bool): (r: Option<string>)
    ensures r.Some? <==> bytes < (if si then 1000 else 1024)
    ensures r.Some? ==> |r.value| >= 3 && r.value[|r.value| - 2..] == " B"
  {
    var unit := if si then 1000 else 1024;
    if bytes < unit then Some(LongToString(bytes) + " B") else None
  }

  /** The count reads back from the text below one unit. */
  lemma ByteCountReadsBack(bytes: int, si: bool)
    requires IsLong(bytes) && bytes < (if si then 1000 else 1024)
    ensures var r := HumanReadableByteCount(bytes, si).value;
      ParseLong(r[..|r| - 2]) == Some(bytes)
  {
    var r := HumanReadableByteCount(bytes, si).value;
    assert r[..|r| - 2] == LongToString(bytes);
    ParseLongOfToString(bytes);
  }
}

=== FILE: json.dfy ===
/**
 * The JSON tree the configuration deserializer receives, and the Gson accessors
 * it calls on it (`get`, `getAsJsonObject`, `getAsJsonArray`, `getAsBoolean`,
 * `getAsString`, `getAsInt`). Numbers are integer literals.
 */
module Json {
  import opened Wrappers
  import Decimal

  datatype Json =
    | JNull
    | JBool(b: bool)
    | JNumber(n: int)
    | JString(s: string)
    | JArray(items: seq<Json>)
    | JObject(members: seq<Member>)

  /** One key/value entry of an object, in document order. */
  datatype Member = Member(key: string, value: Json)

  /** The runtime exceptions a Gson accessor (or a null dereference) can raise. */
  datatype JsonFault =
    | NullDereference       // NullPointerException: `get` returned null
    | IllegalState          // IllegalStateException: wrong element kind
    | UnsupportedOperation  // UnsupportedOperationException: JsonNull or JsonObject as a primitive
    | NumberFormat          // NumberFormatException from Integer.parseInt

  function Keys(members: seq<Member>): seq<string> {
    seq(|members|, i requires 0 <= i < |members| => members[i].key)
  }

  predicate HasKey(members: seq<Member>, key: string) {
    exists i :: 0 <= i < |members| && members[i].key == key
  }

  lemma KeysHasKey(members: seq<Member>)
    ensures forall k :: k in Keys(members) <==> HasKey(members, k)
  {
    forall k | HasKey(members, k)
      ensures k in Keys(members)
    {
      var i :| 0 <= i < |members| && members[i].key == k;
      assert Keys(members)[i] == k;
    }
  }

  /**
   * `JsonObject.get(key)`: the value stored under `key`, or null. Gson's
   * parser stores a repeated key once, holding the value parsed last, so the
   * last member with the key is the one read.
   */
  function Get(members: seq<Member>, key: string): (r: Option<Json>)
    ensures r.None? <==> !HasKey(members, key)
    decreases |members|
  {
    if |members| == 0 then None
    else if members[|members| - 1].key == key then Some(members[|members| - 1].value)
    else
      var init := members[..|members| - 1];
      assert HasKey(members, key) ==> HasKey(init, key) by {
        if HasKey(members, key) {
          var i :| 0 <= i < |members| && members[i].key == key;
          assert init[i] == members[i];
        }
      }
      assert HasKey(init, key) ==> HasKey(members, key) by {
        if HasKey(init, key) {
          var i :| 0 <= i < |init| && init[i].key == key;
          assert init[i] == members[i];
        }
      }
      Get(init, key)
  }

  /** No member after position `i` has the key. */
  predicate LastWith(members: seq<Member>, key: string, i: nat) {
    forall j :: i < j < |members| ==> members[j].key != key
  }

  /** What `get` finds is the last member stored under the key. */
  lemma {:induction false} GetFindsLast(members: seq<Member>, key: string)
    requires Get(members, key).Some?
    ensures exists i :: 0 <= i < |members| && members[i] == Member(key, Get(members, key).value) && LastWith(members, key, i)
    decreases |members|
  {
    var n := |members| - 1;
    if members[n].key == key {
      assert members[n] == Member(key, Get(members, key).value) && LastWith(members, key, n);
    } else {
      var init := members[..n];
      GetFindsLast(init, key);
      var i :| 0 <= i < |init| && init[i] == Member(key, Get(init, key).value) && LastWith(init, key, i);
      assert members[i] == init[i];
      assert LastWith(members, key, i) by {
        forall j | i < j < |members|
          ensures members[j].key != key
        {
          if j < n {
            assert members[j] == init[j];
          }
        }
      }
    }
  }

  predicate DistinctKeys(members: seq<Member>) {
    forall i, j :: 0 <= i < j < |members| ==> members[i].key != members[j].key
  }

  /** The members without any entry under `key`, in order. */
  function Without(members: seq<Member>, key: string): (r: seq<Member>)
    ensures |r| <= |members|
    decreases |members|
  {
    if |members| == 0 then []
    else
      var last := members[|members| - 1];
      var rest := Without(members[..|members| - 1], key);
      if last.key == key then rest else rest + [last]
  }

  /** Removing `key` keeps the other members, their keys and their lookups. */
  lemma {:induction false} WithoutSpec(members: seq<Member>, key: string)
    ensures forall m :: m in Without(members, key) ==> m in members && m.key != key
    ensures forall k :: HasKey(Without(members, key), k) <==> HasKey(members, k) && k != key
    ensures forall k :: k != key ==> Get(Without(members, key), k) == Get(members, k)
    decreases |members|
  {
    if |members| > 0 {
      var init := members[..|members| - 1];
      var last := members[|members| - 1];
      var rest := Without(init, key);
      var r := Without(members, key);
      WithoutSpec(init, key);
      assert forall m :: m in init ==> m in members;
      HasKeySnoc(members);
      if last.key != key {
        assert r == rest + [last];
        assert r[..|r| - 1] == rest;
        HasKeySnoc(r);
      }
    }
  }

  /** A key is in a non-empty list when it is in all but the last member, or is the last one's. */
  lemma HasKeySnoc(members: seq<Member>)
    requires |members| > 0
    ensures forall k :: HasKey(members, k) <==> HasKey(members[..|members| - 1], k) || members[|members| - 1].key == k
  {
    var init := members[..|members| - 1];
    forall k | HasKey(members, k) && members[|members| - 1].key != k
      ensures HasKey(init, k)
    {
      var i :| 0 <= i < |members| && members[i].key == k;
      assert init[i] == members[i];
    }
    forall k | HasKey(init, k)
      ensures HasKey(members, k)
    {
      var i :| 0 <= i < |init| && init[i].key == k;
      assert members[i] == init[i];
    }
  }

  /** `es` is Gson's entry set of the members. */
  ghost predicate EntrySetOf(es: seq<Member>, members: seq<Member>) {
    && DistinctKeys(es)
    && (forall m :: m in es ==> m in members)
    && (forall k :: HasKey(es, k) <==> HasKey(members, k))
    && (forall i :: 0 <= i < |es| ==> Get(members, es[i].key) == Some(es[i].value))
  }

  /**
   * `entrySet()`: one entry per key, in the order the keys first appear,
   * holding the value `get` returns for that key (EntrySetSpec).
   */
  function EntrySet(members: seq<Member>): (es: seq<Member>)
    ensures |es| <= |members|
    decreases |members|
  {
    if |members| == 0 then []
    else
      var key := members[0].key;
      var rest := EntrySet(Without(members[1..], key));
      [Member(key, Get(members, key).GetOr(JNull))] + rest
  }

  /** The entry set has distinct keys, the object's keys, and the values `get` reads. */
  lemma {:induction false} EntrySetSpec(members: seq<Member>)
    ensures EntrySetOf(EntrySet(members), members)
    decreases |members|
  {
    if |members| > 0 {
      var key := members[0].key;
      EntrySetSpec(Without(members[1..], key));
      RestFacts(members, EntrySet(Without(members[1..], key)));
      EntrySetCons(members, EntrySet(Without(members[1..], key)));
    }
  }

  /** The entry set of the other keys holds members of the rest, under the rest's other keys, with its values. */
  lemma RestFacts(members: seq<Member>, rest: seq<Member>)
    requires |members| > 0
    requires EntrySetOf(rest, Without(members[1..], members[0].key))
    ensures DistinctKeys(rest)
    ensures forall m :: m in rest ==> m in members[1..]
    ensures forall k :: HasKey(rest, k) <==> HasKey(members[1..], k) && k != members[0].key
    ensures forall i :: 0 <= i < |rest| ==> rest[i].key != members[0].key && Get(members[1..], rest[i].key) == Some(rest[i].value)
  {
    var key := members[0].key;
    WithoutSpec(members[1..], key);
    forall i | 0 <= i < |rest|
      ensures rest[i].key != key
    {
      assert HasKey(rest, rest[i].key);
    }
  }

  /** The entry of the first key, in front of the entry set of the other keys. */
  lemma EntrySetCons(members: seq<Member>, rest: seq<Member>)
    requires |members| > 0
    requires DistinctKeys(rest)
    requires forall m :: m in rest ==> m in members[1..]
    requires forall k :: HasKey(rest, k) <==> HasKey(members[1..], k) && k != members[0].key
    requires forall i :: 0 <= i < |rest| ==> rest[i].key != members[0].key && Get(members[1..], rest[i].key) == Some(rest[i].value)
    ensures HasKey(members, members[0].key)
    ensures EntrySetOf([Member(members[0].key, Get(members, members[0].key).value)] + rest, members)
  {
    var key := members[0].key;
    assert HasKey(members, key);
    var es := [Member(key, Get(members, key).value)] + rest;
    ConsMembers(members, rest);
    ConsKeys(members, rest);
    ConsValues(members, rest);
    ConsDistinct(es[0], rest);
  }

  lemma ConsMembers(members: seq<Member>, rest: seq<Member>)
    requires |members| > 0 && HasKey(members, members[0].key)
    requires forall m :: m in rest ==> m in members[1..]
    ensures forall m :: m in [Member(members[0].key, Get(members, members[0].key).value)] + rest ==> m in members
  {
    GetFindsLast(members, members[0].key);
    assert forall m :: m in members[1..] ==> m in members;
  }

  lemma ConsKeys(members: seq<Member>, rest: seq<Member>)
    requires |members| > 0 && HasKey(members, members[0].key)
    requires forall k :: HasKey(rest, k) <==> HasKey(members[1..], k) && k != members[0].key
    ensures forall k :: HasKey([Member(members[0].key, Get(members, members[0].key).value)] + rest, k) <==> HasKey(members, k)
  {
    var es := [Member(members[0].key, Get(members, members[0].key).value)] + rest;
    assert es[1..] == rest;
    HasKeyCons(members);
    HasKeyCons(es);
  }

  lemma ConsValues(members: seq<Member>, rest: seq<Member>)
    requires |members| > 0 && HasKey(members, members[0].key)
    requires forall i :: 0 <= i < |rest| ==> rest[i].key != members[0].key && Get(members[1..], rest[i].key) == Some(rest[i].value)
    ensures var es := [Member(members[0].key, Get(members, members[0].key).value)] + rest;
      forall i :: 0 <= i < |es| ==> Get(members, es[i].key) == Some(es[i].value)
  {
    GetFromSecond(members);
    var es := [Member(members[0].key, Get(members, members[0].key).value)] + rest;
    assert forall i :: 1 <= i < |es| ==> es[i] == rest[i - 1];
  }

  lemma ConsDistinct(first: Member, rest: seq<Member>)
    requires DistinctKeys(rest)
    requires forall i :: 0 <= i < |rest| ==> rest[i].key != first.key
    ensures DistinctKeys([first] + rest)
  {
    var es := [first] + rest;
    forall i, j | 0 <= i < j < |es|
      ensures es[i].key != es[j].key
    {
      assert es[j] == rest[j - 1];
      if i > 0 {
        assert es[i] == rest[i - 1];
      }
    }
  }

  /** A key is in a non-empty list when it is the first one or in the rest. */
  lemma HasKeyCons(members: seq<Member>)
    requires |members| > 0
    ensures forall k :: HasKey(members, k) <==> k == members[0].key || HasKey(members[1..], k)
  {
    forall k | HasKey(members, k) && k != members[0].key
      ensures HasKey(members[1..], k)
    {
      var i :| 0 <= i < |members| && members[i].key == k;
      assert members[1..][i - 1] == members[i];
    }
    forall k | HasKey(members[1..], k)
      ensures HasKey(members, k)
    {
      var i :| 0 <= i < |members[1..]| && members[1..][i].key == k;
      assert members[i + 1] == members[1..][i];
    }
  }

  /** Past the first member, `get` of any other key reads the rest of the list. */
  lemma {:induction false} GetFromSecond(members: seq<Member>)
    requires |members| > 0
    ensures forall k :: k != members[0].key ==> Get(members, k) == Get(members[1..], k)
    decreases |members|
  {
    if |members| > 1 {
      var init := members[..|members| - 1];
      GetFromSecond(init);
      assert init[1..] == members[1..][..|members[1..]| - 1];
    }
  }

  /** An object without a repeated key is its own entry set. */
  lemma {:induction false} EntrySetDistinct(members: seq<Member>)
    requires DistinctKeys(members)
    ensures EntrySet(members) == members
    decreases |members|
  {
    if |members| > 0 {
      var key := members[0].key;
      var tail := members[1..];
      assert Without(tail, key) == tail by {
        DistinctTail(members);
        WithoutAbsent(tail, key);
      }
      assert EntrySet(tail) == tail by {
        DistinctTail(members);
        EntrySetDistinct(tail);
      }
      assert Get(members, key) == Some(members[0].value) by {
        DistinctFirst(members);
      }
      assert members == [members[0]] + tail;
    }
  }

  /** Past the first member of a list without repeated keys, no key repeats and the first key is absent. */
  lemma DistinctTail(members: seq<Member>)
    requires |members| > 0 && DistinctKeys(members)
    ensures DistinctKeys(members[1..]) && !HasKey(members[1..], members[0].key)
  {
    assert forall i :: 0 <= i < |members| - 1 ==> members[1..][i] == members[i + 1];
  }

  /** In a list without repeated keys, `get` of the first key reads the first member. */
  lemma DistinctFirst(members: seq<Member>)
    requires |members| > 0 && DistinctKeys(members)
    ensures Get(members, members[0].key) == Some(members[0].value)
  {
    assert HasKey(members, members[0].key);
    GetFindsLast(members, members[0].key);
  }

  /** In a list without repeated keys, `get` reads the one member under the key. */
  lemma GetDistinct(members: seq<Member>, i: nat)
    requires DistinctKeys(members) && i < |members|
    ensures Get(members, members[i].key) == Some(members[i].value)
  {
    var key := members[i].key;
    assert HasKey(members, key);
    GetFindsLast(members, key);
    var j :| 0 <= j < |members| && members[j] == Member(key, Get(members, key).value) && LastWith(members, key, j);
    assert j == i;
  }

  /** The entry set reads every key the way the object does. */
  lemma EntrySetGet(members: seq<Member>, key: string)
    ensures Get(EntrySet(members), key) == Get(members, key)
  {
    var es := EntrySet(members);
    EntrySetSpec(members);
    if HasKey(es, key) {
      var i :| 0 <= i < |es| && es[i].key == key;
      GetDistinct(es, i);
    }
  }

  lemma {:induction false} WithoutAbsent(members: seq<Member>, key: string)
    requires !HasKey(members, key)
    ensures Without(members, key) == members
    decreases |members|
  {
    if |members| > 0 {
      var init := members[..|members| - 1];
      assert forall i :: 0 <= i < |init| ==> init[i] == members[i];
      WithoutAbsent(init, key);
    }
  }

  /** A member inserted under a new key leaves every other lookup unchanged. */
  lemma {:induction false} GetInsert(before: seq<Member>, extra: Member, after: seq<Member>, key: string)
    requires extra.key != key
    ensures Get(before + [extra] + after, key) == Get(before + after, key)
    decreases |after|
  {
    var with := before + [extra] + after;
    var without := before + after;
    if |after| == 0 {
      assert with[..|with| - 1] == before;
      assert without == before;
    } else {
      var n := |after| - 1;
      DropLast(before + [extra], after);
      DropLast(before, after);
      GetInsert(before, extra, after[..n], key);
    }
  }

  /** The last member of a concatenation comes from its non-empty second part. */
  lemma DropLast(a: seq<Member>, b: seq<Member>)
    requires |b| > 0
    ensures (a + b)[|a + b| - 1] == b[|b| - 1]
    ensures (a + b)[..|a + b| - 1] == a + b[..|b| - 1]
  {
  }

  /** `getAsJsonObject()`. */
  function AsObject(j: Json): (r: Result<seq<Member>, JsonFault>)
    ensures r.Success? <==> j.JObject?
  {
    if j.JObject? then Success(j.members) else Failure(IllegalState)
  }

  /** `getAsJsonArray()`. */
  function AsArray(j: Json): (r: Result<seq<Json>, JsonFault>)
    ensures r.Success? <==> j.JArray?
  {
    if j.JArray? then Success(j.items) else Failure(IllegalState)
  }

  /** `Boolean.parseBoolean`: true exactly for "true" in any ASCII letter case. */
  predicate ParseBoolean(s: string) {
    |s| == 4 && s[0] in "tT" && s[1] in "rR" && s[2] in "uU" && s[3] in "eE"
  }

  /**
   * `getAsBoolean()`: a boolean primitive gives itself, any other primitive is
   * read with Boolean.parseBoolean of its text, a one-element array delegates
   * to its element.
   */
  function AsBoolean(j: Json): (r: Result<bool, JsonFault>)
    ensures j.JBool? ==> r == Success(j.b)
    ensures j.JNull? || j.JObject? ==> r == Failure(UnsupportedOperation)
  {
    match j
    case JBool(b) => Success(b)
    case JString(s) => Success(ParseBoolean(s))
    case JNumber(_) => Success(false)
    case JArray(items) => if |items| == 1 then AsBoolean(items[0]) else Failure(IllegalState)
    case JNull => Failure(UnsupportedOperation)
    case JObject(_) => Failure(UnsupportedOperation)
  }

  /** `getAsString()`: the text of a primitive; a one-element array delegates. */
  function AsString(j: Json): (r: Result<string, JsonFault>)
    ensures j.JString? ==> r == Success(j.s)
    ensures j.JNull? || j.JObject? ==> r == Failure(UnsupportedOperation)
  {
    match j
    case JString(s) => Success(s)
    case JBool(b) => Success(if b then "true" else "false")
    case JNumber(n) => Success(Decimal.LongToString(n))
    case JArray(items) => if |items| == 1 then AsString(items[0]) else Failure(IllegalState)
    case JNull => Failure(UnsupportedOperation)
    case JObject(_) => Failure(UnsupportedOperation)
  }

  /**
   * `getAsInt()`: a number gives its low 32 bits (Number.intValue), a string
   * is read with Integer.parseInt, a one-element array delegates.
   */
  function AsInt(j: Json): (r: Result<int, JsonFault>)
    ensures r.Success? ==> Decimal.IsInt(r.value)
    ensures j.JNumber? ==> r == Success(Decimal.WrapInt(j.n))
    ensures j.JNull? || j.JObject? ==> r == Failure(UnsupportedOperation)
  {
    match j
    case JNumber(n) => Success(Decimal.WrapInt(n))
    case JString(s) =>
      (match Decimal.ParseInt(s)
       case Some(v) => Success(v)
       case None => Failure(NumberFormat))
    case JBool(_) => Failure(NumberFormat)
    case JArray(items) => if |items| == 1 then AsInt(items[0]) else Failure(IllegalState)
    case JNull => Failure(UnsupportedOperation)
    case JObject(_) => Failure(UnsupportedOperation)
  }

  /** Reads every element with `getAsString()`, stopping at the first failure. */
  function AsStringList(items: seq<Json>): (r: Result<seq<string>, JsonFault>)
    ensures r.Success? ==> |r.value| == |items|
    ensures r.Success? ==> forall i :: 0 <= i < |items| ==> AsString(items[i]) == Success(r.value[i])
    ensures (forall i :: 0 <= i < |items| ==> items[i].JString?) ==> r.Success?
  {
    if |items| == 0 then Success([])
    else
      match AsString(items[0])
      case Failure(e) => Failure(e)
      case Success(s) =>
        match AsStringList(items[1..])
        case Failure(e) => Failure(e)
        case Success(rest) => Success([s] + rest)
  }
}

=== FILE: local_import.dfy ===
/**
 * `addExtractedFiles`: the import of a logical image that has no VHD. Every
 * manifest row becomes one `addLocalFile` call staged in a case-database
 * transaction; the transaction is committed, and the new local-files data
 * source reported, only when every row went in.
 */
module LocalImport {
  import opened Wrappers
  import opened Text
  import opened Decimal
  import opened Manifest

  /** The arguments of one `addLocalFile` call (the data source is implicit). */
  datatype LocalFile = LocalFile(
    path: string,        // the extracted copy under the destination directory
    name: string,
    parentPath: string,
    ctime: int,
    crtime: int,
    atime: int,
    mtime: int)

  /**
   * The call a row turns into; None when a timestamp is not a decimal long
   * (Long.parseLong throws NumberFormatException).
   */
  function ToLocalFile(dest: string, r: Row): (f: Option<LocalFile>)
    ensures f.Some? <==>
      ParseLong(r.ctime).Some? && ParseLong(r.crtime).Some? && ParseLong(r.atime).Some? && ParseLong(r.mtime).Some?
    ensures f.Some? ==> IsLong(f.value.ctime) && IsLong(f.value.crtime) && IsLong(f.value.atime) && IsLong(f.value.mtime)
  {
    var ctime :- ParseLong(r.ctime);
    var crtime :- ParseLong(r.crtime);
    var atime :- ParseLong(r.atime);
    var mtime :- ParseLong(r.mtime);
    Some(LocalFile(PathJoin(dest, r.extractedPath), r.fileName, ImportParentPath(r), ctime, crtime, atime, mtime))
  }

  /**
   * The manifest row the imager writes for a file extracted to
   * `extractedPath` from `<vhd>/<parent>`; the remaining columns are free.
   */
  function RowFor(f: LocalFile, vhd: string, parent: string, extractedPath: string, other: Row): Row {
    other.(vhdName := vhd, fileName := f.name, parentPath := parent, extractedPath := extractedPath,
           crtime := LongToString(f.crtime), mtime := LongToString(f.mtime),
           atime := LongToString(f.atime), ctime := LongToString(f.ctime))
  }

  /**
   * Reading the row back gives the file: the timestamps land in their own
   * slots (ctime from column 13, crtime from 10, atime from 12, mtime from 11),
   * the path is the extracted copy under the destination and the parent path
   * is `root/<vhd>/<parent>`.
   */
  lemma ToLocalFileOfRow(dest: string, f: LocalFile, vhd: string, parent: string, extractedPath: string, other: Row)
    requires IsLong(f.ctime) && IsLong(f.crtime) && IsLong(f.atime) && IsLong(f.mtime)
    requires f.path == PathJoin(dest, extractedPath)
    requires f.parentPath == "root/" + vhd + "/" + parent
    ensures ToLocalFile(dest, RowFor(f, vhd, parent, extractedPath, other)) == Some(f)
  {
    ParseLongOfToString(f.ctime);
    ParseLongOfToString(f.crtime);
    ParseLongOfToString(f.atime);
    ParseLongOfToString(f.mtime);
  }

  /** The exceptions that leave `addExtractedFiles`. */
  datatype ImportError =
    | NotEnoughFields(line: nat, got: nat, expected: nat)  // IOException on a row of the wrong width
    | AddFilesFailed                                        // TskCoreException "Error adding extracted files"
    | ReadFailed                                            // IOException opening or reading the manifest

  /** The case-database transaction. */
  datatype Tx =
    | NotBegun
    | Open(staged: seq<LocalFile>)
    | Committed(files: seq<LocalFile>)
    | RolledBack

  /**
   * What the case database, the file system and the user do during the
   * import: which calls throw (`readFailsAt` is the line whose `readLine`
   * throws), and the row whose cancellation check first sees the flag.
   */
  datatype ImportOracle = ImportOracle(
    beginFails: bool,
    sourceFails: bool,
    openFails: bool,
    readFailsAt: Option<nat>,
    addFails: set<nat>,
    commitFails: bool,
    cancelAt: Option<nat>)

  datatype ImportResult = ImportResult(tx: Tx, sourceAdded: bool, error: Option<ImportError>)

  /** What happens at data row `i`: its line is read, then the loop body checks in order. */
  datatype RowEvent = ReadError | Cancelled | BadFieldCount(got: nat) | BadNumber | AddFails | Added(file: LocalFile)

  function Event(dest: string, rows: seq<string>, o: ImportOracle, i: nat): RowEvent
    requires i < |rows|
  {
    if o.readFailsAt == Some(LineNumber(i)) then ReadError
    else if o.cancelAt == Some(i) then Cancelled
    else match ParseRow(rows[i])
      case Failure(got) => BadFieldCount(got)
      case Success(r) =>
        match ToLocalFile(dest, r)
        case None => BadNumber
        case Some(f) => if i in o.addFails then AddFails else Added(f)
  }

  /** Every row before `k` went in. */
  predicate AllAdded(dest: string, rows: seq<string>, o: ImportOracle, k: nat)
    requires k <= |rows|
  {
    forall j :: 0 <= j < k ==> Event(dest, rows, o, j).Added?
  }

  /** The files of the rows before `k`, in manifest order. */
  function Staged(dest: string, rows: seq<string>, o: ImportOracle, k: nat): (files: seq<LocalFile>)
    requires k <= |rows| && AllAdded(dest, rows, o, k)
    ensures |files| == k
  {
    seq(k, j requires 0 <= j < k => Event(dest, rows, o, j).file)
  }

  /** A row that goes in extends the rows before it, and its file follows theirs. */
  lemma StagedNext(dest: string, rows: seq<string>, o: ImportOracle, k: nat)
    requires k < |rows| && AllAdded(dest, rows, o, k) && Event(dest, rows, o, k).Added?
    ensures AllAdded(dest, rows, o, k + 1)
    ensures Staged(dest, rows, o, k + 1) == Staged(dest, rows, o, k) + [Event(dest, rows, o, k).file]
  {
    forall j | 0 <= j < k + 1
      ensures Event(dest, rows, o, j).Added?
    {
      if j < k {
        assert Event(dest, rows, o, j).Added?;
      }
    }
    var before := Staged(dest, rows, o, k);
    var after := Staged(dest, rows, o, k + 1);
    forall j | 0 <= j < k + 1
      ensures after[j] == (before + [Event(dest, rows, o, k).file])[j]
    {
      if j < k {
        assert before[j] == Event(dest, rows, o, j).file;
      }
    }
  }

  /**
   * The first row from `j` on that does not go in, or None when every row
   * from `j` on goes in.
   */
  function FirstStop(dest: string, rows: seq<string>, o: ImportOracle, j: nat): (k: Option<nat>)
    requires j <= |rows| && AllAdded(dest, rows, o, j)
    ensures k.None? <==> AllAdded(dest, rows, o, |rows|)
    ensures k.Some? ==> j <= k.value < |rows| && AllAdded(dest, rows, o, k.value) && !Event(dest, rows, o, k.value).Added?
    decreases |rows| - j
  {
    if j == |rows| then None
    else if !Event(dest, rows, o, j).Added? then Some(j)
    else
      StagedNext(dest, rows, o, j);
      FirstStop(dest, rows, o, j + 1)
  }

  /** The transaction and data source exist and the header was read: the loop runs. */
  predicate Staging(o: ImportOracle) {
    !o.beginFails && !o.sourceFails && !o.openFails && o.readFailsAt != Some(HeaderLine)
  }

  /**
   * The reads go wrong after `k` rows went in: opening the manifest or
   * reading its header fails (k = 0), or reading line `LineNumber(k)` does,
   * which is the end of the file when `k` is the number of rows.
   */
  predicate ReadFailsAfter(o: ImportOracle, k: nat) {
    (k == 0 && (o.openFails || o.readFailsAt == Some(HeaderLine))) || o.readFailsAt == Some(LineNumber(k))
  }

  /**
   * The import's promise. The data source is reported exactly when the
   * transaction is committed, and that happens exactly when the transaction
   * and data source were created, the whole manifest was read, every row
   * went in and the commit went through; the committed files are the rows'
   * files in manifest order. A read that throws leaves the transaction open,
   * holding the files of the rows read before it. A row of the wrong width
   * fails with its line number, the width it had and 14, and is the first
   * row that did not go in. Cancellation rolls back and returns without an
   * error.
   */
  ghost predicate ImportSpec(dest: string, lines: seq<string>, o: ImportOracle, res: ImportResult) {
    var rows := DataLines(lines);
    && ImportExits(dest, rows, o, res)
    && (res.sourceAdded <==> res.tx.Committed?)
    && (res.tx.Committed? <==>
          && !o.beginFails && !o.sourceFails && !o.openFails && o.readFailsAt != Some(HeaderLine)
          && AllAdded(dest, rows, o, |rows|) && o.readFailsAt != Some(LineNumber(|rows|)) && !o.commitFails)
    && (res.tx.Committed? ==> res.tx.files == Staged(dest, rows, o, |rows|))
    && (res.tx.NotBegun? <==> o.beginFails)
    && (res.tx.Open? <==> res.error == Some(ReadFailed))
    && (res.tx.Open? ==>
          var k := |res.tx.staged|;
          k <= |rows| && AllAdded(dest, rows, o, k) && res.tx.staged == Staged(dest, rows, o, k) && ReadFailsAfter(o, k))
    && (res.error.Some? && res.error.value.NotEnoughFields? ==>
          var i := res.error.value.line - FirstDataLine;
          && res.error.value.line >= FirstDataLine && i < |rows|
          && res.error.value.expected == FieldCount
          && ParseRow(rows[i]) == Failure(res.error.value.got)
          && AllAdded(dest, rows, o, i))
    && (res.error.None? && !res.tx.Committed? ==>
          res.tx.RolledBack? && exists i :: 0 <= i < |rows| && o.cancelAt == Some(i) && AllAdded(dest, rows, o, i))
  }

  /**
   * Each exit of the import, from its cause: a failing begin or data-source
   * creation raises the generic error; a manifest that cannot be opened or
   * whose header cannot be read leaves the transaction open and empty; the
   * first row that does not go in decides the result (`StopAt`); a read
   * failing at the end of the file leaves every file staged in an open
   * transaction; a failing commit rolls back; otherwise every file is
   * committed, the source reported and no error raised.
   */
  ghost predicate ImportExits(dest: string, rows: seq<string>, o: ImportOracle, res: ImportResult) {
    && (res.tx.Committed? ==> res.error.None?)
    && (o.beginFails ==> res == ImportResult(NotBegun, false, Some(AddFilesFailed)))
    && (!o.beginFails && o.sourceFails ==> res == ImportResult(RolledBack, false, Some(AddFilesFailed)))
    && (!o.beginFails && !o.sourceFails && (o.openFails || o.readFailsAt == Some(HeaderLine)) ==>
          res == ImportResult(Open([]), false, Some(ReadFailed)))
    && (Staging(o) && FirstStop(dest, rows, o, 0).Some? ==>
          res == StopAt(dest, rows, o, FirstStop(dest, rows, o, 0).value))
    && (Staging(o) && AllAdded(dest, rows, o, |rows|) ==>
          if o.readFailsAt == Some(LineNumber(|rows|)) then
            res == ImportResult(Open(Staged(dest, rows, o, |rows|)), false, Some(ReadFailed))
          else if o.commitFails then
            res == ImportResult(RolledBack, false, Some(AddFilesFailed))
          else
            res == ImportResult(Committed(Staged(dest, rows, o, |rows|)), true, None))
  }

  /** `addExtractedFiles`: all or nothing, unless a read throws (ImportSpec). */
  method Import(dest: string, lines: seq<string>, o: ImportOracle) returns (res: ImportResult)
    ensures ImportSpec(dest, lines, o, res)
  {
    if o.beginFails {
      return ImportResult(NotBegun, false, Some(AddFilesFailed));
    }
    if o.sourceFails {
      return ImportResult(RolledBack, false, Some(AddFilesFailed));
    }
    if o.openFails || o.readFailsAt == Some(HeaderLine) {
      return ImportResult(Open([]), false, Some(ReadFailed));
    }
    var rows := DataLines(lines);
    var stop, staged := StageRows(dest, rows, o);
    if stop.Some? {
      return stop.value;
    }
    if o.readFailsAt == Some(LineNumber(|rows|)) {
      return ImportResult(Open(staged), false, Some(ReadFailed));
    }
    if o.commitFails {
      return ImportResult(RolledBack, false, Some(AddFilesFailed));
    }
    return ImportResult(Committed(staged), true, None);
  }

  /**
   * How the loop leaves at a row that does not go in: a read that throws
   * leaves the transaction open with the rows before it staged; otherwise
   * the transaction is rolled back, a row of the wrong width raises its line
   * number, its width and 14, a bad timestamp or a failing `addLocalFile`
   * raises the generic error, and a cancellation returns without one.
   */
  predicate LoopStop(dest: string, rows: seq<string>, o: ImportOracle, res: ImportResult) {
    && !res.sourceAdded
    && (res.tx.Open? || res.tx.RolledBack?)
    && (res.tx.Open? <==> res.error == Some(ReadFailed))
    && (res.tx.Open? ==>
          var k := |res.tx.staged|;
          k < |rows| && AllAdded(dest, rows, o, k) && res.tx.staged == Staged(dest, rows, o, k)
          && o.readFailsAt == Some(LineNumber(k)))
    && (res.error.Some? && res.error.value.NotEnoughFields? ==>
          var i := res.error.value.line - FirstDataLine;
          && res.error.value.line >= FirstDataLine && i < |rows|
          && res.error.value.expected == FieldCount
          && ParseRow(rows[i]) == Failure(res.error.value.got)
          && AllAdded(dest, rows, o, i))
    && (res.error.None? ==> exists i :: 0 <= i < |rows| && o.cancelAt == Some(i) && AllAdded(dest, rows, o, i))
  }

  function StopAt(dest: string, rows: seq<string>, o: ImportOracle, i: nat): (res: ImportResult)
    requires i < |rows| && AllAdded(dest, rows, o, i) && !Event(dest, rows, o, i).Added?
    ensures LoopStop(dest, rows, o, res)
    ensures o.readFailsAt == Some(LineNumber(i)) ==>
      res == ImportResult(Open(Staged(dest, rows, o, i)), false, Some(ReadFailed))
    ensures o.readFailsAt != Some(LineNumber(i)) && o.cancelAt == Some(i) ==>
      res == ImportResult(RolledBack, false, None)
    ensures o.readFailsAt != Some(LineNumber(i)) && o.cancelAt != Some(i) && ParseRow(rows[i]).Failure? ==>
      res == ImportResult(RolledBack, false, Some(NotEnoughFields(LineNumber(i), ParseRow(rows[i]).error, FieldCount)))
    ensures o.readFailsAt != Some(LineNumber(i)) && o.cancelAt != Some(i) && ParseRow(rows[i]).Success? ==>
      res == ImportResult(RolledBack, false, Some(AddFilesFailed))
  {
    match Event(dest, rows, o, i)
    case ReadError => ImportResult(Open(Staged(dest, rows, o, i)), false, Some(ReadFailed))
    case Cancelled => ImportResult(RolledBack, false, None)
    case BadFieldCount(got) => ImportResult(RolledBack, false, Some(NotEnoughFields(LineNumber(i), got, FieldCount)))
    case _ => ImportResult(RolledBack, false, Some(AddFilesFailed))
  }

  /**
   * The loop of `addExtractedFiles`: stages one file per row, in order, until
   * a row does not go in; that row's stop is returned.
   */
  method StageRows(dest: string, rows: seq<string>, o: ImportOracle) returns (stop: Option<ImportResult>, staged: seq<LocalFile>)
    ensures stop.None? <==> AllAdded(dest, rows, o, |rows|)
    ensures stop.None? ==> staged == Staged(dest, rows, o, |rows|)
    ensures stop.Some? ==> LoopStop(dest, rows, o, stop.value)
    ensures stop.Some? <==> FirstStop(dest, rows, o, 0).Some?
    ensures stop.Some? ==> stop.value == StopAt(dest, rows, o, FirstStop(dest, rows, o, 0).value)
  {
    staged := [];
    var i := 0;
    while i < |rows|
      invariant 0 <= i <= |rows|
      invariant AllAdded(dest, rows, o, i)
      invariant staged == Staged(dest, rows, o, i)
      invariant FirstStop(dest, rows, o, 0) == FirstStop(dest, rows, o, i)
    {
      var event := Event(dest, rows, o, i);
      if !event.Added? {
        return Some(StopAt(dest, rows, o, i)), staged;
      }
      StagedNext(dest, rows, o, i);
      staged := staged + [event.file];
      i := i + 1;
    }
    return None, staged;
  }
}

=== FILE: manifest.dfy ===
/**
 * The search-results manifest (SearchResults.txt) written by the logical
 * imager: one header line, then one tab-separated row per extracted file.
 * Both the extracted-file import and the interesting-file tagging read it
 * with `line.split("\t", -1)` and insist on 14 fields.
 */
module Manifest {
  import opened Wrappers
  import opened Text

  /** The number of fields a row must split into. */
  const FieldCount: nat := 14

  /** Line 1 is the header, which both readers skip. */
  const HeaderLine: nat := 1

  /** The first data row is line 2. */
  const FirstDataLine: nat := 2

  /** The fourteen columns of a row, in file order. */
  datatype Row = Row(
    vhdName: string,        // 0: image (or directory) the file came from
    fsOffset: string,       // 1
    metaAddr: string,       // 2: file-system metadata address
    extractStatus: string,  // 3
    ruleSetName: string,    // 4
    ruleName: string,       // 5
    description: string,    // 6
    fileName: string,       // 7
    parentPath: string,     // 8: parent path inside the image
    extractedPath: string,  // 9: extracted copy, relative to the destination
    crtime: string,         // 10
    mtime: string,          // 11
    atime: string,          // 12
    ctime: string)          // 13

  function Fields(r: Row): (f: seq<string>)
    ensures |f| == FieldCount
  {
    [r.vhdName, r.fsOffset, r.metaAddr, r.extractStatus, r.ruleSetName, r.ruleName, r.description,
     r.fileName, r.parentPath, r.extractedPath, r.crtime, r.mtime, r.atime, r.ctime]
  }

  /**
   * Splits one line into a row; when the split does not give exactly 14
   * fields the failure carries the number it did give (trailing empty
   * fields included).
   */
  function ParseRow(line: string): (r: Result<Row, nat>)
    ensures r.Success? <==> Count(line, '\t') == FieldCount - 1
    ensures r.Failure? ==> r.error == Count(line, '\t') + 1 && r.error != FieldCount
    ensures r.Success? ==> Fields(r.value) == Split(line, '\t')
  {
    SplitCount(line, '\t');
    var f := Split(line, '\t');
    if |f| != FieldCount then Failure(|f|)
    else Success(Row(f[0], f[1], f[2], f[3], f[4], f[5], f[6], f[7], f[8], f[9], f[10], f[11], f[12], f[13]))
  }

  /** Writes a row back as one tab-separated line. */
  function FormatRow(r: Row): string {
    Join(Fields(r), '\t')
  }

  predicate TabFree(r: Row) {
    forall i :: 0 <= i < |Fields(r)| ==> '\t' !in Fields(r)[i]
  }

  /** A row whose fields hold no tab reads back from its line unchanged. */
  lemma ParseFormat(r: Row)
    requires TabFree(r)
    ensures ParseRow(FormatRow(r)) == Success(r)
  {
    SplitJoin(Fields(r), '\t');
  }

  /** An accepted line is exactly the line its row writes. */
  lemma FormatParse(line: string)
    requires ParseRow(line).Success?
    ensures FormatRow(ParseRow(line).value) == line
    ensures TabFree(ParseRow(line).value)
  {
    JoinSplit(line, '\t');
    SplitFieldsFree(line, '\t');
  }

  /** The lines after the header (the first `readLine` is discarded). */
  function DataLines(lines: seq<string>): seq<string> {
    if |lines| == 0 then [] else lines[1..]
  }

  /**
   * The line number the readers report for data line `i` (0-based); line
   * `LineNumber(n)` of a manifest with `n` data lines is the end of the file.
   */
  function LineNumber(i: nat): nat {
    i + FirstDataLine
  }

  /** The parent path the import gives a file: `root/<image>/<parent>`. */
  function ImportParentPath(r: Row): (p: string)
    ensures |p| >= 5 && p[..5] == "root/"
  {
    "root/" + r.vhdName + "/" + r.parentPath
  }

  /** The parent path the tagging pass looks a file up by: `/root/<image>/<parent>`. */
  function LookupParentPath(r: Row): (p: string)
    ensures |p| > 0 && p[0] == '/'
  {
    "/root/" + r.vhdName + "/" + r.parentPath
  }

  /** The two parent paths differ exactly by the leading slash. */
  lemma ParentPathsDiffer(r: Row)
    ensures LookupParentPath(r) == "/" + ImportParentPath(r)
    ensures LookupParentPath(r) != ImportParentPath(r)
  {
    assert ImportParentPath(r)[0] == 'r';
  }
}

=== FILE: query.dfy ===
/**
 * The `findAllFilesWhere` conditions the tagging pass builds for a manifest
 * row, and how the database reads the string literals in them back. The file
 * name and the parent path are escaped by doubling every single quote; the
 * metadata address is inserted as it stands.
 */
module Query {
  import opened Wrappers
  import opened Text
  import opened Decimal
  import opened Manifest

  /** One comparison of a condition: its text up to the opening quote, the value, the closing quote. */
  function Literal(prefix: string, value: string): string {
    prefix + value + "'"
  }

  const NamePrefix := "name = '"
  const ParentPrefix := " AND parent_path = '"
  const ObjIdPrefix := "data_source_obj_id = '"
  const MetaPrefix := " AND meta_addr = '"
  const AndNamePrefix := " AND name = '"

  /**
   * Reads an SQL string literal whose opening quote has been consumed: a
   * doubled quote stands for one quote, a single quote closes the literal.
   * Gives the value and the text after the closing quote; None when the
   * literal is never closed.
   */
  function ReadLiteral(s: string): Option<(string, string)>
    decreases |s|
  {
    if |s| == 0 then None
    else if s[0] == '\'' then
      if |s| >= 2 && s[1] == '\'' then
        match ReadLiteral(s[2..])
        case None => None
        case Some(p) => Some(("'" + p.0, p.1))
      else Some(("", s[1..]))
    else
      match ReadLiteral(s[1..])
      case None => None
      case Some(p) => Some(([s[0]] + p.0, p.1))
  }

  /** The text after `prefix`, when `s` starts with it. */
  function After(prefix: string, s: string): (r: Option<string>)
    ensures r.Some? <==> |prefix| <= |s| && s[..|prefix|] == prefix
    ensures r.Some? ==> s == prefix + r.value
  {
    if |prefix| <= |s| && s[..|prefix|] == prefix then Some(s[|prefix|..]) else None
  }

  /** Reads `prefix`, then a literal: the literal's value and the text after it. */
  function ReadField(prefix: string, s: string): Option<(string, string)> {
    var a :- After(prefix, s);
    ReadLiteral(a)
  }

  /** The two values a local-files condition compares against: name and parent path. */
  function ReadLocalQuery(q: string): Option<(string, string)> {
    var name :- ReadField(NamePrefix, q);
    var parent :- ReadField(ParentPrefix, name.1);
    if parent.1 == "" then Some((name.0, parent.0)) else None
  }

  /** The three values a VHD condition compares against: object id, metadata address and name. */
  function ReadVhdQuery(q: string): Option<(string, string, string)> {
    var id :- ReadField(ObjIdPrefix, q);
    var meta :- ReadField(MetaPrefix, id.1);
    var name :- ReadField(AndNamePrefix, meta.1);
    if name.1 == "" then Some((id.0, meta.0, name.0)) else None
  }

  /** An escaped value followed by the closing quote reads back as that value. */
  lemma {:induction false} ReadEscaped(x: string, rest: string)
    requires |rest| == 0 || rest[0] != '\''
    ensures ReadLiteral(EscapeQuotes(x) + "'" + rest) == Some((x, rest))
  {
    if |x| > 0 {
      ReadEscaped(x[1..], rest);
      var tail := EscapeQuotes(x[1..]) + "'" + rest;
      if x[0] == '\'' {
        assert EscapeQuotes(x) + "'" + rest == "''" + tail;
        assert ("''" + tail)[2..] == tail;
      } else {
        assert EscapeQuotes(x) + "'" + rest == [x[0]] + tail;
        assert ([x[0]] + tail)[1..] == tail;
      }
      assert x == [x[0]] + x[1..];
    }
  }

  /** A value without quotes is its own escape. */
  lemma {:induction false} EscapeQuoteFree(x: string)
    requires '\'' !in x
    ensures EscapeQuotes(x) == x
  {
    if |x| > 0 {
      assert x[0] in x;
      assert forall c :: c in x[1..] ==> c in x;
      EscapeQuoteFree(x[1..]);
      assert x == [x[0]] + x[1..];
    }
  }

  lemma NumberQuoteFree(n: int)
    ensures '\'' !in LongToString(n)
  {
    var s := LongToString(n);
    forall i | 0 <= i < |s|
      ensures s[i] != '\''
    {
      if n < 0 && i > 0 {
        assert s[1..][i - 1] == s[i];
      }
    }
  }

  /** A prefix followed by an escaped literal reads back as the literal's value. */
  lemma ReadFieldEscaped(prefix: string, x: string, rest: string)
    requires |rest| == 0 || rest[0] != '\''
    ensures ReadField(prefix, prefix + EscapeQuotes(x) + "'" + rest) == Some((x, rest))
  {
    var a := EscapeQuotes(x) + "'" + rest;
    assert prefix + EscapeQuotes(x) + "'" + rest == prefix + a;
    assert (prefix + a)[..|prefix|] == prefix;
    assert (prefix + a)[|prefix|..] == a;
    ReadEscaped(x, rest);
  }

  /**
   * The local-files condition: match by name and by `/root/<image>/<parent>`.
   * The database compares the file name and the lookup parent path exactly
   * as the row gives them, whatever quotes they hold.
   */
  function LocalQuery(r: Row): (q: string)
    ensures ReadLocalQuery(q) == Some((r.fileName, LookupParentPath(r)))
  {
    var rest1 := Literal(ParentPrefix, EscapeQuotes(LookupParentPath(r)));
    assert rest1 == rest1 + "";
    ReadFieldEscaped(NamePrefix, r.fileName, rest1);
    ReadFieldEscaped(ParentPrefix, LookupParentPath(r), "");
    Literal(NamePrefix, EscapeQuotes(r.fileName)) + rest1
  }

  /** The three fields read one after another make up the VHD condition's reading. */
  lemma ReadVhdQueryOf(q: string, id: string, meta: string, name: string, rest1: string, rest2: string)
    requires ReadField(ObjIdPrefix, q) == Some((id, rest1))
    requires ReadField(MetaPrefix, rest1) == Some((meta, rest2))
    requires ReadField(AndNamePrefix, rest2) == Some((name, ""))
    ensures ReadVhdQuery(q) == Some((id, meta, name))
  {
  }

  /** Three comparisons in a row read back one after another; only the last value is escaped. */
  lemma ReadThreeFields(p1: string, p2: string, p3: string, id: string, meta: string, name: string)
    requires |p2| > 0 && p2[0] != '\'' && |p3| > 0 && p3[0] != '\''
    requires '\'' !in id && '\'' !in meta
    ensures var rest2 := Literal(p3, EscapeQuotes(name));
      var rest1 := Literal(p2, meta) + rest2;
      && ReadField(p1, Literal(p1, id) + Literal(p2, meta) + rest2) == Some((id, rest1))
      && ReadField(p2, rest1) == Some((meta, rest2))
      && ReadField(p3, rest2) == Some((name, ""))
  {
    var rest2 := Literal(p3, EscapeQuotes(name));
    var rest1 := Literal(p2, meta) + rest2;
    EscapeQuoteFree(id);
    EscapeQuoteFree(meta);
    assert rest1[0] == p2[0] && rest2[0] == p3[0];
    assert Literal(p1, id) + Literal(p2, meta) + rest2 == Literal(p1, id) + rest1;
    ReadFieldEscaped(p1, id, rest1);
    ReadFieldEscaped(p2, meta, rest2);
    assert rest2 == rest2 + "";
    ReadFieldEscaped(p3, name, "");
  }

  /**
   * The VHD condition: match by data-source object id, metadata address and
   * name. The database compares the object id, the metadata address and the
   * file name as the row gives them, provided the metadata address holds no
   * quote, since that field is not escaped.
   */
  function VhdQuery(objId: int, r: Row): (q: string)
    ensures '\'' !in r.metaAddr ==> ReadVhdQuery(q) == Some((LongToString(objId), r.metaAddr, r.fileName))
  {
    var id := LongToString(objId);
    var rest2 := Literal(AndNamePrefix, EscapeQuotes(r.fileName));
    var rest1 := Literal(MetaPrefix, r.metaAddr) + rest2;
    var q := Literal(ObjIdPrefix, id) + Literal(MetaPrefix, r.metaAddr) + rest2;
    if '\'' in r.metaAddr then q
    else
      NumberQuoteFree(objId);
      ReadThreeFields(ObjIdPrefix, MetaPrefix, AndNamePrefix, id, r.metaAddr, r.fileName);
      ReadVhdQueryOf(q, id, r.metaAddr, r.fileName, rest1, rest2);
      q
  }
}

=== FILE: report_settings.dfy ===
/**
 * The table-report settings: which artifact types and which tag names a
 * table report includes. Built either from the user's check-box selections
 * (a map from each choice to its Boolean state, in the map's iteration
 * order) or from two ready lists.
 */
module ReportSettings {
  import opened Wrappers

  /** A map's entry set in iteration order; a None value is a null Boolean. */
  type Selections<K> = seq<(K, Option<bool>)>

  /** Unboxing a null Boolean throws NullPointerException. */
  datatype SettingsError = NullSelection

  datatype Settings<A> = Settings(artifactTypes: seq<A>, tagNames: seq<string>)

  /** The keys whose value is true, in iteration order (null values read as not selected). */
  function Enabled<K>(entries: Selections<K>): (keys: seq<K>)
    ensures |keys| <= |entries|
    decreases |entries|
  {
    if |entries| == 0 then []
    else (if entries[0].1 == Some(true) then [entries[0].0] else []) + Enabled(entries[1..])
  }

  predicate HasNull<K>(entries: Selections<K>) {
    exists i :: 0 <= i < |entries| && entries[i].1.None?
  }

  predicate DistinctKeys<K(==)>(entries: Selections<K>) {
    forall i, j :: 0 <= i < j < |entries| ==> entries[i].0 != entries[j].0
  }

  predicate NoDuplicates<T(==)>(s: seq<T>) {
    forall i, j :: 0 <= i < j < |s| ==> s[i] != s[j]
  }

  /** A key is kept exactly when some entry maps it to true. */
  lemma {:induction false} EnabledMember<K>(entries: Selections<K>)
    ensures forall k :: k in Enabled(entries) <==> (k, Some(true)) in entries
    decreases |entries|
  {
    if |entries| > 0 {
      var rest := entries[1..];
      EnabledMember(rest);
      assert forall e :: e in entries <==> e == entries[0] || e in rest;
    }
  }

  lemma KeptFrom<K>(entries: Selections<K>, k: K)
    requires k in Enabled(entries)
    ensures exists i :: 0 <= i < |entries| && entries[i].0 == k
  {
    EnabledMember(entries);
    assert (k, Some(true)) in entries;
    var i :| 0 <= i < |entries| && entries[i] == (k, Some(true));
  }

  /** With the distinct keys of a map, no key is kept twice. */
  lemma {:induction false} EnabledDistinct<K>(entries: Selections<K>)
    requires DistinctKeys(entries)
    ensures NoDuplicates(Enabled(entries))
    decreases |entries|
  {
    if |entries| > 0 {
      var rest := entries[1..];
      assert DistinctKeys(rest) by {
        forall i, j | 0 <= i < j < |rest|
          ensures rest[i].0 != rest[j].0
        {
          assert rest[i] == entries[i + 1] && rest[j] == entries[j + 1];
        }
      }
      EnabledDistinct(rest);
      if entries[0].1 == Some(true) {
        forall k | k in Enabled(rest)
          ensures k != entries[0].0
        {
          KeptFrom(rest, k);
          var i :| 0 <= i < |rest| && rest[i].0 == k;
          assert entries[i + 1] == rest[i];
        }
        var kept := Enabled(entries);
        assert kept == [entries[0].0] + Enabled(rest);
        forall i, j | 0 <= i < j < |kept|
          ensures kept[i] != kept[j]
        {
          assert kept[j] == Enabled(rest)[j - 1];
          if i > 0 {
            assert kept[i] == Enabled(rest)[i - 1];
          } else {
            assert Enabled(rest)[j - 1] in Enabled(rest);
          }
        }
      }
    }
  }

  /** Selections made one after another are kept one after another. */
  lemma {:induction false} EnabledAppend<K>(a: Selections<K>, b: Selections<K>)
    ensures Enabled(a + b) == Enabled(a) + Enabled(b)
    decreases |a|
  {
    if |a| > 0 {
      assert (a + b)[0] == a[0];
      assert (a + b)[1..] == a[1..] + b;
      EnabledAppend(a[1..], b);
    } else {
      assert a + b == b;
    }
  }

  /** Nothing is kept when nothing is selected. */
  lemma {:induction false} NothingSelected<K>(entries: Selections<K>)
    requires forall i :: 0 <= i < |entries| ==> entries[i].1 == Some(false)
    ensures Enabled(entries) == []
    decreases |entries|
  {
    if |entries| > 0 {
      NothingSelected(entries[1..]);
    }
  }

  /**
   * One loop of the selection constructor: walks the entries in order,
   * appending every key whose value is true; a null value throws.
   */
  method Collect<K>(entries: Selections<K>) returns (r: Result<seq<K>, SettingsError>)
    ensures r.Failure? <==> HasNull(entries)
    ensures r.Success? ==> r.value == Enabled(entries)
  {
    var kept: seq<K> := [];
    var i := 0;
    while i < |entries|
      invariant 0 <= i <= |entries|
      invariant forall j :: 0 <= j < i ==> entries[j].1.Some?
      invariant kept + Enabled(entries[i..]) == Enabled(entries)
    {
      if entries[i].1.None? {
        return Failure(NullSelection);
      }
      assert entries[i..] == [entries[i]] + entries[i + 1..];
      if entries[i].1.value {
        kept := kept + [entries[i].0];
      }
      i := i + 1;
    }
    return Success(kept);
  }

  /**
   * The constructor from selection maps: the artifact types and then the tag
   * names whose check box is on; a null state in either map throws.
   */
  method FromSelections<A>(artifactSelections: Selections<A>, tagSelections: Selections<string>)
    returns (r: Result<Settings<A>, SettingsError>)
    ensures r.Success? <==> !HasNull(artifactSelections) && !HasNull(tagSelections)
    ensures r.Success? ==> r.value.artifactTypes == Enabled(artifactSelections)
    ensures r.Success? ==> r.value.tagNames == Enabled(tagSelections)
  {
    var artifacts := Collect(artifactSelections);
    if artifacts.Failure? {
      return Failure(artifacts.error);
    }
    var tags := Collect(tagSelections);
    if tags.Failure? {
      return Failure(tags.error);
    }
    return Success(Settings(artifacts.value, tags.value));
  }

  /** The constructor from lists stores them as they are. */
  function FromLists<A>(artifactTypes: seq<A>, tagNames: seq<string>): (s: Settings<A>)
    ensures GetArtifactSelections(s) == artifactTypes && GetTagSelections(s) == tagNames
  {
    Settings(artifactTypes, tagNames)
  }

  function GetArtifactSelections<A>(s: Settings<A>): seq<A> {
    s.artifactTypes
  }

  function GetTagSelections<A>(s: Settings<A>): seq<string> {
    s.tagNames
  }
}

=== FILE: rule_values.dfy ===
/**
 * What one accepted rule object gives: every builder field is decided by
 * the one entry whose key names it, read the way its `case` reads it, and
 * a field no entry names keeps the value the running state had.
 */
module RuleValues {
  import opened Wrappers
  import opened Json
  import opened ImagerConfig
  import opened ConfigDeserializer
  import opened ConfigValues
  import opened ConfigProperties

  /** The rule key whose `case` writes field `f`. */
  function FieldKey(f: Field): string {
    match f
    case AlertField => "shouldAlert"
    case SaveField => "shouldSave"
    case NameField => "name"
    case DescriptionField => "description"
    case ExtensionsField => "extensions"
    case FolderNamesField => "folder-names"
    case FullPathsField => "full-paths"
    case FileNamesField => "file-names"
    case MinSizeField => "size-range"
    case MaxSizeField => "size-range"
    case MinDaysField => "date-range"
    case MinDateField => "date-range"
    case MaxDateField => "date-range"
  }

  /** Whether `v`, under `FieldKey(f)`, is a value the `case` accepts. */
  predicate Readable(f: Field, v: Json) {
    match f
    case AlertField => AsBoolean(v).Success?
    case SaveField => AsBoolean(v).Success?
    case NameField => AsString(v).Success?
    case DescriptionField => AsString(v).Success?
    case ExtensionsField => v.JArray? && AsStringList(v.items).Success?
    case FolderNamesField => v.JArray? && AsStringList(v.items).Success?
    case FullPathsField => v.JArray? && AsStringList(v.items).Success?
    case FileNamesField => v.JArray? && AsStringList(v.items).Success?
    case MinSizeField => v.JObject? && SizeRangeAccepted(v.members)
    case MaxSizeField => v.JObject? && SizeRangeAccepted(v.members)
    case MinDaysField => v.JObject? && DateRangeAccepted(v.members)
    case MinDateField => v.JObject? && DateRangeAccepted(v.members)
    case MaxDateField => v.JObject? && DateRangeAccepted(v.members)
  }

  /**
   * The value a readable entry `v` under `FieldKey(f)` leaves in field `f`:
   * the boolean, the string or the string list it holds, or for a range the
   * bound under its own key, `st`'s bound when the range object leaves it out.
   */
  function Stored(f: Field, v: Json, st: Rule): FieldValue
    requires Readable(f, v)
  {
    match f
    case AlertField => Flag(AsBoolean(v).value)
    case SaveField => Flag(AsBoolean(v).value)
    case NameField => Text(Some(AsString(v).value))
    case DescriptionField => Text(Some(AsString(v).value))
    case ExtensionsField => Names(Some(AsStringList(v.items).value))
    case FolderNamesField => Names(Some(AsStringList(v.items).value))
    case FullPathsField => Names(Some(AsStringList(v.items).value))
    case FileNamesField => Names(Some(AsStringList(v.items).value))
    case MinSizeField => Bound(RangeBound(v.members, "min", st.minFileSize))
    case MaxSizeField => Bound(RangeBound(v.members, "max", st.maxFileSize))
    case MinDaysField => Bound(RangeBound(v.members, "min-days", st.minDays))
    case MinDateField => Bound(RangeBound(v.members, "min", st.minDate))
    case MaxDateField => Bound(RangeBound(v.members, "max", st.maxDate))
  }

  /** Only the entry under a field's own key can write that field. */
  lemma TouchesOnlyOwnKey(m: Member, f: Field)
    ensures Touches(m, f) ==> m.key == FieldKey(f)
  {
    if Touches(m, f) {
      match SlotOf(m.key).value
      case AlertSlot => assert m.key == "shouldAlert";
      case SaveSlot => assert m.key == "shouldSave";
      case NameSlot => assert m.key == "name";
      case DescriptionSlot => assert m.key == "description";
      case ExtensionsSlot => assert m.key == "extensions";
      case FolderNamesSlot => assert m.key == "folder-names";
      case FileNamesSlot => assert m.key == "file-names";
      case FullPathsSlot => assert m.key == "full-paths";
      case SizeRangeSlot =>
      case DateRangeSlot =>
    }
  }

  /** What `Stored` reads of the state is the field itself. */
  lemma StoredReadsOwnField(f: Field, v: Json, a: Rule, b: Rule)
    requires Readable(f, v) && FieldOf(a, f) == FieldOf(b, f)
    ensures Stored(f, v, a) == Stored(f, v, b)
  {
  }

  /** An accepted entry under a field's key is readable, and leaves `Stored` in the field. */
  lemma EntryStores(st: Rule, m: Member, f: Field)
    requires m.key == FieldKey(f) && ApplyMember(st, m).Success?
    ensures Readable(f, m.value)
    ensures FieldOf(ApplyMember(st, m).value, f) == Stored(f, m.value, st)
  {
    var slot := SlotOf(m.key).value;
    SlotWrites(st, slot, m.value);
    ListSlotWrites(st, slot, m.value);
    RangeSlotWrites(st, slot, m.value);
  }

  /** Entries under other keys than a field's leave that field as it was. */
  lemma OtherKeysKeepField(st: Rule, es: seq<Member>, f: Field)
    requires forall j :: 0 <= j < |es| ==> es[j].key != FieldKey(f)
    requires ApplyMembers(st, es).Success?
    ensures FieldOf(ApplyMembers(st, es).value, f) == FieldOf(st, f)
  {
    forall j | 0 <= j < |es|
      ensures !Touches(es[j], f)
    {
      TouchesOnlyOwnKey(es[j], f);
    }
    MembersFrame(st, es, f);
  }

  /** The entry under a field's key, followed by entries under other keys, leaves `Stored` in the field. */
  lemma EntryThenOthers(st: Rule, m: Member, rest: seq<Member>, f: Field)
    requires m.key == FieldKey(f)
    requires forall j :: 0 <= j < |rest| ==> rest[j].key != FieldKey(f)
    requires ApplyMembers(st, [m] + rest).Success?
    ensures Readable(f, m.value)
    ensures FieldOf(ApplyMembers(st, [m] + rest).value, f) == Stored(f, m.value, st)
  {
    assert ([m] + rest)[0] == m && ([m] + rest)[1..] == rest;
    EntryStores(st, m, f);
    OtherKeysKeepField(ApplyMember(st, m).value, rest, f);
  }

  /** An accepted entry list is accepted up to any point, and reading on from there gives the same rule. */
  lemma MembersSplit(st: Rule, es: seq<Member>, i: nat)
    requires i < |es| && ApplyMembers(st, es).Success?
    ensures ApplyMembers(st, es[..i]).Success?
    ensures ApplyMembers(ApplyMembers(st, es[..i]).value, [es[i]] + es[i + 1..]) == ApplyMembers(st, es)
  {
    assert es == es[..i] + ([es[i]] + es[i + 1..]);
    MembersAppend(st, es[..i], [es[i]] + es[i + 1..]);
  }

  /**
   * In an accepted entry list without repeated keys, the entry under a
   * field's key decides that field: the entries before it leave the field
   * as it was, and the entries after it do not touch it.
   */
  lemma KeyDecidesField(st: Rule, es: seq<Member>, i: nat, f: Field)
    requires DistinctKeys(es) && i < |es| && es[i].key == FieldKey(f)
    requires ApplyMembers(st, es).Success?
    ensures Readable(f, es[i].value)
    ensures FieldOf(ApplyMembers(st, es).value, f) == Stored(f, es[i].value, st)
  {
    var before, rest := es[..i], es[i + 1..];
    MembersSplit(st, es, i);
    OtherKeysKeepField(st, before, f);
    var mid := ApplyMembers(st, before).value;
    assert forall j :: 0 <= j < |rest| ==> rest[j] == es[i + 1 + j];
    EntryThenOthers(mid, es[i], rest, f);
    StoredReadsOwnField(f, es[i].value, mid, st);
  }

  /**
   * The meaning of an accepted rule object read over the running state
   * `st`: a field whose key the object holds takes the value that key's
   * entry stores, `get`'s value under the key; a field whose key it does
   * not hold keeps `st`'s value.
   */
  lemma RuleFields(st: Rule, elem: Json, r: Rule, f: Field)
    requires ParseRule(st, elem) == Success(r)
    ensures elem.JObject?
    ensures HasKey(elem.members, FieldKey(f)) ==>
      && Readable(f, Get(elem.members, FieldKey(f)).value)
      && FieldOf(r, f) == Stored(f, Get(elem.members, FieldKey(f)).value, st)
    ensures !HasKey(elem.members, FieldKey(f)) ==> FieldOf(r, f) == FieldOf(st, f)
  {
    var ms := elem.members;
    var es := EntrySet(ms);
    EntrySetSpec(ms);
    if HasKey(ms, FieldKey(f)) {
      var i :| 0 <= i < |es| && es[i].key == FieldKey(f);
      KeyDecidesField(st, es, i, f);
    } else {
      forall j | 0 <= j < |es|
        ensures es[j].key != FieldKey(f)
      {
        assert HasKey(es, es[j].key);
      }
      OtherKeysKeepField(st, es, f);
    }
  }

  /** An "extensions" entry holding one name stores that one-name list. */
  lemma ExtensionsEntry(st: Rule, t: string)
    ensures ApplyMembers(st, [Member("extensions", JArray([JString(t)]))]) == Success(st.(extensions := Some([t])))
  {
    assert SlotOf("extensions") == Some(ExtensionsSlot);
    ListSlotWrites(st, ExtensionsSlot, JArray([JString(t)]));
    var l := AsStringList([JString(t)]);
    assert l.Success? && |l.value| == 1 && AsString(JString(t)) == Success(l.value[0]);
    assert l.value == [t];
    assert ApplyMember(st, Member("extensions", JArray([JString(t)]))) == Success(st.(extensions := Some([t])));
  }

  /** A "full-paths" entry holding one path stores that one-path list. */
  lemma FullPathsEntry(st: Rule, t: string)
    ensures ApplyMembers(st, [Member("full-paths", JArray([JString(t)]))]) == Success(st.(fullPaths := Some([t])))
  {
    assert SlotOf("full-paths") == Some(FullPathsSlot);
    ListSlotWrites(st, FullPathsSlot, JArray([JString(t)]));
    var l := AsStringList([JString(t)]);
    assert l.Success? && |l.value| == 1 && AsString(JString(t)) == Success(l.value[0]);
    assert l.value == [t];
    assert ApplyMember(st, Member("full-paths", JArray([JString(t)]))) == Success(st.(fullPaths := Some([t])));
  }

  /** A rule accepted on its own is rejected after a predecessor that set extensions. */
  lemma PredecessorCausesRejection()
    ensures var ext := JObject([Member("extensions", JArray([JString("txt")]))]);
      var full := JObject([Member("full-paths", JArray([JString("/x/y.txt")]))]);
      && ParseRules([full]).Success?
      && ParseRules([ext, full]) == Failure(FullPathsRule)
  {
    var ext := JObject([Member("extensions", JArray([JString("txt")]))]);
    var full := JObject([Member("full-paths", JArray([JString("/x/y.txt")]))]);
    var st1 := DefaultRule.(extensions := Some(["txt"]));
    ExtensionsEntry(DefaultRule, "txt");
    FullPathsEntry(st1, "/x/y.txt");
    FullPathsEntry(DefaultRule, "/x/y.txt");
    assert ParseRule(DefaultRule, ext) == Success(st1);
    assert FullPathsConflict(st1.(fullPaths := Some(["/x/y.txt"])));
    assert ParseRule(st1, full) == Failure(FullPathsRule);
    assert [ext, full][1..] == [full];
  }

  /** A rule naming both full paths and extensions is rejected and no rule is produced. */
  lemma FullPathsWithExtensionsRejected()
    ensures ParseRules([JObject([
      Member("full-paths", JArray([JString("/x/y.txt")])),
      Member("extensions", JArray([JString("txt")]))])]) == Failure(FullPathsRule)
  {
    var a := [Member("full-paths", JArray([JString("/x/y.txt")]))];
    var b := [Member("extensions", JArray([JString("txt")]))];
    var st1 := DefaultRule.(fullPaths := Some(["/x/y.txt"]));
    FullPathsEntry(DefaultRule, "/x/y.txt");
    ExtensionsEntry(st1, "txt");
    MembersAppend(DefaultRule, a, b);
    EntrySetDistinct(a + b);
    assert a + b == [Member("full-paths", JArray([JString("/x/y.txt")])), Member("extensions", JArray([JString("txt")]))];
  }
}

=== FILE: strings_pager.dfy ===
/**
 * The pager of the strings content viewer: the content is shown one page of
 * 16384 bytes at a time, with a page number, a page count, next and previous
 * buttons and a go-to-page field. The text extraction itself is not part of
 * this model; what is modelled is the page arithmetic and the button state.
 */
module StringsPager {
  import opened Wrappers
  import opened Decimal

  /** The bytes shown on one page. */
  const PageLength: nat := 16384

  /** The largest content size whose page count is computed exactly (see ToFloat). */
  const ExactLimit: nat := 0x40_0000_0000

  /** The smallest integer that a float does not hold exactly. */
  const FloatExactBound: nat := 0x100_0000

  /**
   * The spacing of floats around `q`: 1 below 2^24, doubling with every
   * further binary digit (a float has a 24-bit significand).
   */
  function Ulp(q: nat): (u: nat)
    ensures u >= 1
    ensures q < FloatExactBound ==> u == 1
    ensures q >= FloatExactBound ==> u <= q
    decreases q
  {
    if q < FloatExactBound then 1 else 2 * Ulp(q / 2)
  }

  /**
   * The widening of a non-negative long to float: round to the nearest
   * multiple of the spacing, ties to the even multiple.
   */
  function ToFloat(q: nat): (f: nat)
    ensures q < FloatExactBound ==> f == q
    ensures 2 * q - Ulp(q) <= 2 * f <= 2 * q + Ulp(q)
  {
    var u := Ulp(q);
    var r := q % u;
    var lo := q - r;
    if 2 * r < u then lo
    else if 2 * r > u then lo + u
    else if (q / u) % 2 == 0 then lo
    else lo + u
  }

  /** `Math.round(float)` of a whole, non-negative float: saturates at the largest int. */
  function RoundToInt(f: nat): (n: int)
    ensures IsInt(n)
    ensures f <= MaxInt ==> n == f
    ensures f > MaxInt ==> n == MaxInt
  {
    if f > MaxInt then MaxInt else f
  }

  /**
   * The page count `Math.round((size - 1) / PAGE_LENGTH) + 1`: long division
   * truncating toward zero (so an empty content has one page), the quotient
   * widened to float by overload resolution, rounded back to int, and one
   * added in int arithmetic. Up to 2^38 bytes this is the number of pages
   * needed to hold the content, and never less than one.
   */
  function TotalPages(size: nat): (t: int)
    ensures IsInt(t)
    ensures size <= ExactLimit ==>
      t >= 1 && size <= t * PageLength && (t == 1 || (t - 1) * PageLength < size)
  {
    var q := JavaDiv(size - 1, PageLength);
    assert q >= 0;
    WrapInt(RoundToInt(ToFloat(q)) + 1)
  }

  /**
   * Past 2^38 bytes the float widening loses the low digits: a content of
   * 2^38 + 2^14 + 1 bytes needs 2^24 + 2 pages but is given 2^24 + 1, so its
   * last bytes lie beyond the last page go-to-page accepts.
   */
  lemma TotalPagesFallsShort()
    ensures var size := 0x40_0000_4001;
      && TotalPages(size) == 0x100_0001
      && TotalPages(size) * PageLength < size
  {
    var size := 0x40_0000_4001;
    var q := 0x100_0001;
    assert JavaDiv(size - 1, PageLength) == q;
    assert Ulp(q / 2) == 1;
    assert Ulp(q) == 2;
    assert ToFloat(q) == 0x100_0000;
  }

  /** Between 2^30 and 2^31 floats are 128 apart. */
  lemma UlpBelow2p31(q: nat)
    requires 0x4000_0000 <= q < 0x8000_0000
    ensures Ulp(q) == 128
  {
    assert q / 64 / 2 == q / 128 && Ulp(q / 128) == 1;
    assert q / 32 / 2 == q / 64 && Ulp(q / 64) == 2;
    assert q / 16 / 2 == q / 32 && Ulp(q / 32) == 4;
    assert q / 8 / 2 == q / 16 && Ulp(q / 16) == 8;
    assert q / 4 / 2 == q / 8 && Ulp(q / 8) == 16;
    assert q / 2 / 2 == q / 4 && Ulp(q / 4) == 32;
    assert Ulp(q / 2) == 64;
  }

  /** Between 2^31 and 2^32 floats are 256 apart. */
  lemma UlpBelow2p32(q: nat)
    requires 0x8000_0000 <= q < 0x1_0000_0000
    ensures Ulp(q) == 256
  {
    UlpBelow2p31(q / 2);
  }

  /**
   * Just before 2^45 bytes the page count is still an int: the quotient
   * 2^31 - 65 rounds down to 2^31 - 128.
   */
  lemma TotalPagesLastBeforeWrap()
    ensures TotalPages(0x1FFF_FFF0_0000) == 0x7FFF_FF81
  {
    var q := 0x7FFF_FFBF;
    assert JavaDiv(0x1FFF_FFF0_0000 - 1, PageLength) == q;
    UlpBelow2p31(q);
    assert ToFloat(q) == 0x7FFF_FF80;
  }

  /**
   * From 2^45 - 2^20 bytes on, the quotient rounds to 2^31 or more, the
   * rounding saturates at the largest int and the `+ 1` wraps: the page count
   * is the smallest int, and go-to-page rejects every page number.
   */
  lemma {:induction false} TotalPagesWraps(size: nat)
    requires 0x1FFF_FFF0_0000 < size
    ensures TotalPages(size) == MinInt
  {
    var q := JavaDiv(size - 1, PageLength);
    assert q >= 0x7FFF_FFC0;
    RoundsPastMaxInt(q);
  }

  /** A quotient of 2^31 - 64 or more widens to a float above the largest int. */
  lemma RoundsPastMaxInt(q: nat)
    requires 0x7FFF_FFC0 <= q
    ensures ToFloat(q) > MaxInt
  {
    if q < 0x8000_0000 {
      RoundsUpTo2p31(q);
    } else if q < 0x1_0000_0000 {
      RoundsAbove2p31(q);
    } else {
      assert 2 * ToFloat(q) >= 2 * q - Ulp(q) >= q;
    }
  }

  /** The last 64 quotients below 2^31 round up to 2^31. */
  lemma RoundsUpTo2p31(q: nat)
    requires 0x7FFF_FFC0 <= q < 0x8000_0000
    ensures ToFloat(q) == 0x8000_0000
  {
    UlpBelow2p31(q);
    var r := q % 128;
    assert q == 0x7FFF_FF80 + r;
    assert 64 <= r;
    assert q / 128 == 0xFF_FFFF;
  }

  /** A quotient from 2^31 to 2^32 stays at 2^31 or above. */
  lemma RoundsAbove2p31(q: nat)
    requires 0x8000_0000 <= q < 0x1_0000_0000
    ensures ToFloat(q) >= 0x8000_0000
  {
    UlpBelow2p32(q);
    assert q - q % 256 == (q / 256) * 256;
    assert q / 256 >= 0x80_0000;
  }

  /** The pager's state: the shared page and offset, the content shown, the controls. */
  datatype Pager = Pager(
    page: int,              // currentPage (an int)
    offset: int,            // currentOffset (a long)
    source: Option<nat>,    // the size of the content shown; None while it is null
    prevEnabled: bool,
    nextEnabled: bool,
    pageLabel: Option<int>, // None while the label is empty
    totalLabel: Option<int>,
    visible: bool)          // the paging controls are shown

  /** The page shown starts at the offset of its number. */
  predicate Inv(p: Pager) {
    p.offset == (p.page - 1) * PageLength
  }

  /** `resetDisplay`: page 1 at offset 0, no content, both buttons disabled, controls hidden. */
  function ResetDisplay(p: Pager): (r: Pager)
    ensures Inv(r) && r.page == 1
    ensures r.source.None? && !r.prevEnabled && !r.nextEnabled && !r.visible
  {
    Pager(1, 0, None, false, false, None, None, false)
  }

  /**
   * `setDataView(Content, offset)`: a null content changes nothing. Otherwise
   * the content is shown from `offset`; next is enabled exactly when a byte
   * lies past this page, previous exactly when the page does not start the
   * content, and a view at offset 0 is page 1. The shared offset is not set
   * here: callers set it before.
   */
  function SetDataView(p: Pager, source: Option<nat>, offset: int): (r: Pager)
    ensures source.None? ==> r == p
    ensures source.Some? ==> r.source == source && r.visible && r.totalLabel == Some(TotalPages(source.value))
    ensures source.Some? ==> (r.nextEnabled <==> offset + PageLength < source.value)
    ensures source.Some? ==> (r.prevEnabled <==> offset != 0)
    ensures r.offset == p.offset
  {
    match source
    case None => p
    case Some(size) =>
      var page := if offset == 0 then 1 else p.page;
      Pager(page, p.offset, source, offset != 0, offset + PageLength < size,
            Some(page), Some(TotalPages(size)), true)
  }

  /** `setDataView(StringContent)`: a single page with no content to page through. */
  function SetStringView(p: Pager): (r: Pager)
    ensures r.source.None? && !r.prevEnabled && !r.nextEnabled && r.visible
    ensures r.page == 1 && r.pageLabel == Some(1) && r.totalLabel == Some(1)
    ensures r.offset == p.offset
  {
    Pager(1, p.offset, None, false, false, Some(1), Some(1), true)
  }

  /**
   * The next-page button: one page on, then the view at the new offset. On
   * content, next stays enabled exactly while a byte lies past the new page,
   * and previous is enabled since the new page does not start the content.
   */
  function Next(p: Pager): (r: Pager)
    ensures r.offset == p.offset + PageLength && r.source == p.source
    ensures p.source.Some? ==> (r.nextEnabled <==> p.offset + 2 * PageLength < p.source.value)
    ensures p.source.Some? && p.offset >= 0 ==> r.prevEnabled
    ensures Inv(p) && MinInt < p.page < MaxInt ==> Inv(r) && r.page == p.page + 1
  {
    var page := WrapInt(p.page + 1);
    var offset := p.offset + PageLength;
    SetDataView(p.(page := page, offset := offset, pageLabel := Some(page)), p.source, offset)
  }

  /**
   * The previous-page button: one page back, then the view at the new
   * offset. On content, previous stays enabled exactly while the new page
   * does not start the content, and next is enabled whenever the old page
   * lay within it.
   */
  function Prev(p: Pager): (r: Pager)
    ensures r.offset == p.offset - PageLength && r.source == p.source
    ensures p.source.Some? ==> (r.prevEnabled <==> p.offset != PageLength)
    ensures p.source.Some? && p.offset < p.source.value ==> r.nextEnabled
    ensures Inv(p) && MinInt < p.page < MaxInt ==> Inv(r)
    ensures Inv(p) && MinInt < p.page < MaxInt && p.page != 2 ==> r.page == p.page - 1
  {
    var page := WrapInt(p.page - 1);
    var offset := p.offset - PageLength;
    SetDataView(p.(page := page, offset := offset, pageLabel := Some(page)), p.source, offset)
  }

  /** Why go-to-page returns without moving. */
  datatype GoToError =
    | NoSource                // the content is null: NullPointerException on its size
    | OutOfRange(maxPage: int) // the warning dialog naming the page count

  /**
   * The go-to-page field: the text is parsed as an int (text that is not one
   * stands for one past the last page); a number from 1 to the page count
   * moves there.
   */
  function GoToPage(p: Pager, text: string): (r: Result<Pager, GoToError>)
    ensures p.source.None? <==> r == Failure(NoSource)
    ensures r.Success? ==> r.value.source == p.source && Inv(r.value)
    ensures r.Success? ==> 1 <= r.value.page <= TotalPages(p.source.value)
    ensures p.source.Some? && r.Failure? ==> r.error == OutOfRange(TotalPages(p.source.value))
  {
    match p.source
    case None => Failure(NoSource)
    case Some(size) =>
      var maxPage := TotalPages(size);
      var n := match ParseInt(text) case Some(v) => v case None => WrapInt(maxPage + 1);
      if n > maxPage || n < 1 then Failure(OutOfRange(maxPage))
      else
        var offset := (n - 1) * PageLength;
        Success(SetDataView(p.(offset := offset, page := n, pageLabel := Some(n)), p.source, offset))
  }

  /**
   * Go-to-page moves exactly when there is content and the text is an int
   * between 1 and the page count; it then shows that page, at the offset of
   * its number. Otherwise the state stays as it was.
   */
  lemma GoToPageAccepts(p: Pager, text: string)
    ensures GoToPage(p, text).Success? <==>
      p.source.Some? && ParseInt(text).Some? && 1 <= ParseInt(text).value <= TotalPages(p.source.value)
    ensures GoToPage(p, text).Success? ==>
      var r := GoToPage(p, text).value;
      && r.page == ParseInt(text).value && r.offset == (r.page - 1) * PageLength
      && r.source == p.source && Inv(r)
    ensures p.source.Some? && GoToPage(p, text).Failure? ==>
      GoToPage(p, text).error == OutOfRange(TotalPages(p.source.value))
  {
    if p.source.Some? && ParseInt(text).None? {
      var maxPage := TotalPages(p.source.value);
      if maxPage == MaxInt {
        assert WrapInt(maxPage + 1) == MinInt;
      }
    }
  }

  /** Text that is not an int is always refused with the page count. */
  lemma GoToPageRejectsText(p: Pager, text: string)
    requires p.source.Some? && ParseInt(text).None?
    ensures GoToPage(p, text) == Failure(OutOfRange(TotalPages(p.source.value)))
  {
    GoToPageAccepts(p, text);
  }

  /** After the string view there is no content: go-to-page dereferences null. */
  lemma GoToPageAfterStringView(p: Pager, text: string)
    ensures GoToPage(SetStringView(p), text) == Failure(NoSource)
  {
  }

  /** Next and previous keep the page and the offset in step, wherever they are pressed. */
  lemma StepsKeepInvariant(p: Pager)
    requires Inv(p) && MinInt < p.page < MaxInt
    ensures Inv(Next(p)) && Next(p).page == p.page + 1
    ensures Inv(Prev(p))
    ensures p.page != 2 ==> Prev(p).page == p.page - 1
    ensures p.page == 2 ==> Prev(p).page == 1 && Prev(p).offset == 0
  {
  }

  /** Redrawing the current page (the script selector does this) keeps the invariant. */
  lemma RedrawKeepsInvariant(p: Pager, size: nat)
    requires Inv(p)
    ensures Inv(SetDataView(p, Some(size), p.offset))
    ensures SetDataView(p, Some(size), p.offset).page == p.page
  {
  }

  /** A new content shown at offset 0 after a reset starts on page 1 in step. */
  lemma ResetThenViewKeepsInvariant(p: Pager, size: nat)
    ensures var r := SetDataView(ResetDisplay(p), Some(size), 0);
      Inv(r) && r.page == 1 && !r.prevEnabled
  {
  }

  /**
   * Without the reset, a view at offset 0 relabels the page as 1 but leaves
   * the shared offset where it was: from page 2, the next press shows the
   * third page as page 2.
   */
  lemma ViewAtZeroWithoutReset(size: nat)
    requires 3 * PageLength < size
    ensures var p := Pager(2, PageLength, Some(size), true, true, Some(2), Some(TotalPages(size)), true);
      var r := SetDataView(p, Some(size), 0);
      && Inv(p) && !Inv(r)
      && Next(r).offset == 2 * PageLength && Next(r).page == 2
  {
  }

  /**
   * On a page in step with its offset, next is enabled exactly before the
   * last page and previous exactly after the first, for contents whose page
   * count is exact.
   */
  lemma ButtonsFollowPage(p: Pager, size: nat)
    requires Inv(p) && p.page >= 1 && size <= ExactLimit
    ensures var r := SetDataView(p, Some(size), p.offset);
      && (r.nextEnabled <==> p.page < TotalPages(size))
      && (r.prevEnabled <==> p.page != 1)
  {
    var t := TotalPages(size);
    if p.page < t {
      assert p.page * PageLength <= (t - 1) * PageLength;
    } else {
      assert p.page * PageLength >= t * PageLength;
    }
  }
}

=== FILE: tagging.dfy ===
/**
 * `addInterestingFiles`: the pass that marks every file the manifest lists as
 * an interesting-file hit of its rule set and rule. Each row is turned into a
 * database condition, the matching files are looked up, a hit artifact is
 * created for every match that does not already have an identical one, and
 * the artifacts created are posted together once the manifest is exhausted.
 */
module Tagging {
  import opened Wrappers
  import opened Text
  import opened Manifest
  import opened Query

  /** One entry of `getImagePaths()`: a data source's object id and its image paths. */
  datatype ImageEntry = ImageEntry(objId: int, names: seq<string>)

  /** The entry that owns `name`: the last one, in iteration order, listing it. */
  function LastOwner(entries: seq<ImageEntry>, name: string): Option<int>
    decreases |entries|
  {
    if |entries| == 0 then None
    else if name in entries[|entries| - 1].names then Some(entries[|entries| - 1].objId)
    else LastOwner(entries[..|entries| - 1], name)
  }

  /**
   * The owner, stated without recursion: `name` belongs to entry `i` exactly
   * when entry `i` lists it and no later entry does.
   */
  lemma {:induction false} LastOwnerSpec(entries: seq<ImageEntry>, name: string)
    ensures LastOwner(entries, name).None? <==> forall i :: 0 <= i < |entries| ==> name !in entries[i].names
    ensures LastOwner(entries, name).Some? ==>
      exists i :: 0 <= i < |entries| && name in entries[i].names && entries[i].objId == LastOwner(entries, name).value
        && forall j :: i < j < |entries| ==> name !in entries[j].names
    decreases |entries|
  {
    if |entries| > 0 {
      var init := entries[..|entries| - 1];
      LastOwnerSpec(init, name);
      assert forall i :: 0 <= i < |init| ==> init[i] == entries[i];
    }
  }

  /** Every path some entry lists. */
  function ListedNames(entries: seq<ImageEntry>): set<string> {
    set e, name | e in entries && name in e.names :: name
  }

  /** Every listed path, mapped to its owner. */
  function OwnerMap(entries: seq<ImageEntry>): map<string, int> {
    map name | name in ListedNames(entries) && LastOwner(entries, name).Some? :: LastOwner(entries, name).value
  }

  /**
   * `imagePathsToDataSourceObjId`: inverts the data-source-to-paths map. A path
   * is a key exactly when some entry lists it, and it maps to the object id
   * of the last entry that does.
   */
  method ImagePathsToObjId(entries: seq<ImageEntry>) returns (m: map<string, int>)
    ensures forall name :: name in m <==> LastOwner(entries, name).Some?
    ensures forall name :: name in m ==> LastOwner(entries, name) == Some(m[name])
    ensures m == OwnerMap(entries)
  {
    m := map[];
    var i := 0;
    while i < |entries|
      invariant 0 <= i <= |entries|
      invariant forall name :: name in m <==> LastOwner(entries[..i], name).Some?
      invariant forall name :: name in m ==> LastOwner(entries[..i], name) == Some(m[name])
    {
      var e := entries[i];
      assert entries[..i + 1][..i] == entries[..i];
      assert entries[..i + 1][i] == e;
      var j := 0;
      while j < |e.names|
        invariant 0 <= j <= |e.names|
        invariant forall name :: name in m <==> (name in e.names[..j] || LastOwner(entries[..i], name).Some?)
        invariant forall name :: name in m ==>
          m[name] == (if name in e.names[..j] then e.objId else LastOwner(entries[..i], name).value)
      {
        assert e.names[..j + 1] == e.names[..j] + [e.names[j]];
        m := m[e.names[j] := e.objId];
        j := j + 1;
      }
      assert e.names[..j] == e.names;
      i := i + 1;
    }
    assert entries[..i] == entries;
    forall name | LastOwner(entries, name).Some?
      ensures name in ListedNames(entries)
    {
      LastOwnerSpec(entries, name);
    }
  }

  /** An interesting-file hit: the file, TSK_SET_NAME and TSK_CATEGORY. */
  datatype Hit = Hit(fileId: int, setName: string, ruleName: string)

  /** The hits in the case database, and the artifacts created by this pass, in creation order. */
  datatype Artifacts = Artifacts(db: set<Hit>, batch: seq<Hit>)

  function FileHits(files: seq<int>, setName: string, ruleName: string): set<Hit> {
    set f | f in files :: Hit(f, setName, ruleName)
  }

  /**
   * `addInterestingFileToArtifacts` for each matched file in turn: a hit is
   * created, and joins the batch, unless an identical one already exists
   * (including one created earlier in this pass).
   */
  function AddHits(a: Artifacts, files: seq<int>, setName: string, ruleName: string): (r: Artifacts)
    ensures r.db == a.db + FileHits(files, setName, ruleName)
    ensures |a.batch| <= |r.batch| && r.batch[..|a.batch|] == a.batch
    ensures FileHits(files, setName, ruleName) <= a.db ==> r == a
    decreases |files|
  {
    if |files| == 0 then a
    else
      var h := Hit(files[0], setName, ruleName);
      var next := if h in a.db then a else Artifacts(a.db + {h}, a.batch + [h]);
      assert FileHits(files, setName, ruleName) == {h} + FileHits(files[1..], setName, ruleName) by {
        assert forall f :: f in files <==> f == files[0] || f in files[1..];
      }
      var r := AddHits(next, files[1..], setName, ruleName);
      assert r.batch[..|a.batch|] == r.batch[..|next.batch|][..|a.batch|];
      r
  }

  predicate NoDuplicates<T(==)>(s: seq<T>) {
    forall i, j :: 0 <= i < j < |s| ==> s[i] != s[j]
  }

  /**
   * The bookkeeping invariant of the pass: the database is what it was plus
   * exactly the batch, and the batch holds no hit twice and none that was
   * already in the database.
   */
  predicate Fresh(db0: set<Hit>, a: Artifacts) {
    && a.db == db0 + (set h | h in a.batch)
    && NoDuplicates(a.batch)
    && forall k :: 0 <= k < |a.batch| ==> a.batch[k] !in db0
  }

  lemma {:induction false} AddHitsFresh(db0: set<Hit>, a: Artifacts, files: seq<int>, setName: string, ruleName: string)
    requires Fresh(db0, a)
    ensures Fresh(db0, AddHits(a, files, setName, ruleName))
    decreases |files|
  {
    if |files| > 0 {
      var h := Hit(files[0], setName, ruleName);
      if h !in a.db {
        var next := Artifacts(a.db + {h}, a.batch + [h]);
        assert (set x | x in next.batch) == (set x | x in a.batch) + {h};
        assert Fresh(db0, next);
        AddHitsFresh(db0, next, files[1..], setName, ruleName);
      } else {
        AddHitsFresh(db0, a, files[1..], setName, ruleName);
      }
    }
  }

  /** Where the rows' files live: the VHD data sources, or the local-files tree. */
  datatype Mode = Vhd(dest: string, objIds: map<string, int>) | Local

  /** The exceptions that leave `addInterestingFiles`. */
  datatype TagError =
    | TagFieldCount(line: nat, got: nat, expected: nat)  // IOException on a row of the wrong width
    | MissingDataSource(path: string)                    // TskCoreException: image path without object id
    | LookupFailed                                       // TskCoreException from the file query
    | ArtifactFailed                                     // TskCoreException checking for or creating a hit
    | OpenFailed                                         // getImagePaths or opening the manifest failed
    | TagReadFailed                                      // IOException from readLine

  /** The width the field-count message of this pass reports as expected. */
  const ReportedWidth: nat := 9

  /**
   * The case database's answer to each condition (None: it throws), whether
   * the pass could start, the line whose `readLine` throws, the hits whose
   * existence check or creation throws, and the row whose cancellation check
   * first sees the flag.
   */
  datatype TagOracle = TagOracle(
    lookup: string -> Option<seq<int>>,
    openFails: bool,
    readFailsAt: Option<nat>,
    createFails: set<Hit>,
    cancelAt: Option<nat>)

  datatype TagResult = TagResult(artifacts: Artifacts, posted: bool, error: Option<TagError>)

  /** The condition for a row: by data source in VHD mode, by parent path otherwise. */
  function QueryFor(mode: Mode, r: Row): (q: Result<string, TagError>)
    ensures mode.Local? ==> q == Success(LocalQuery(r))
    ensures mode.Vhd? ==> (q.Success? <==> PathJoin(mode.dest, r.vhdName) in mode.objIds)
    ensures q.Failure? ==> q.error == MissingDataSource(PathJoin(mode.dest, r.vhdName))
  {
    match mode
    case Local => Success(LocalQuery(r))
    case Vhd(dest, objIds) =>
      var path := PathJoin(dest, r.vhdName);
      if path in objIds then Success(VhdQuery(objIds[path], r)) else Failure(MissingDataSource(path))
  }

  /**
   * What the loop body does with a row: stop with an exception, tag the
   * matched files, or tag the files before the one whose hit fails and stop.
   */
  datatype Step =
    | Stop(error: TagError)
    | Go(files: seq<int>, setName: string, ruleName: string)
    | StopAfter(files: seq<int>, setName: string, ruleName: string, error: TagError)

  /** The position of the first matched file whose hit the blackboard fails on. */
  function FirstCreateFailure(files: seq<int>, setName: string, ruleName: string, fails: set<Hit>): (k: Option<nat>)
    ensures k.None? <==> forall j :: 0 <= j < |files| ==> Hit(files[j], setName, ruleName) !in fails
    ensures k.Some? ==>
      && k.value < |files| && Hit(files[k.value], setName, ruleName) in fails
      && (forall j :: 0 <= j < k.value ==> Hit(files[j], setName, ruleName) !in fails)
    decreases |files|
  {
    if |files| == 0 then None
    else if Hit(files[0], setName, ruleName) in fails then Some(0)
    else
      match FirstCreateFailure(files[1..], setName, ruleName, fails)
      case None => None
      case Some(k) => Some(k + 1)
  }

  /**
   * Read the line, parse it, build the condition, look it up, and create the
   * hits. A row of the wrong width reports its line number, its width and 9;
   * a completed row carries columns 4 and 5 of the line and exactly the files
   * the lookup returned.
   */
  function RowStep(mode: Mode, line: string, lineNumber: nat, o: TagOracle): (step: Step)
    ensures o.readFailsAt == Some(lineNumber) ==> step == Stop(TagReadFailed)
    ensures o.readFailsAt != Some(lineNumber) && Count(line, '\t') != FieldCount - 1 ==>
      step == Stop(TagFieldCount(lineNumber, Count(line, '\t') + 1, ReportedWidth))
    ensures step.Go? ==>
      && ParseRow(line).Success? && |Split(line, '\t')| == FieldCount
      && Split(line, '\t')[4] == step.setName && Split(line, '\t')[5] == step.ruleName
      && QueryFor(mode, ParseRow(line).value).Success?
      && o.lookup(QueryFor(mode, ParseRow(line).value).value) == Some(step.files)
      && (forall j :: 0 <= j < |step.files| ==> Hit(step.files[j], step.setName, step.ruleName) !in o.createFails)
    ensures step.StopAfter? ==> step.error == ArtifactFailed
  {
    if o.readFailsAt == Some(lineNumber) then Stop(TagReadFailed)
    else match ParseRow(line)
    case Failure(got) => Stop(TagFieldCount(lineNumber, got, ReportedWidth))
    case Success(r) =>
      match QueryFor(mode, r)
      case Failure(e) => Stop(e)
      case Success(q) =>
        match o.lookup(q)
        case None => Stop(LookupFailed)
        case Some(files) =>
          match FirstCreateFailure(files, r.ruleSetName, r.ruleName, o.createFails)
          case None => Go(files, r.ruleSetName, r.ruleName)
          case Some(k) => StopAfter(files[..k], r.ruleSetName, r.ruleName, ArtifactFailed)
  }

  /** The step of every data row, in order. */
  function Steps(mode: Mode, rows: seq<string>, o: TagOracle): seq<Step> {
    seq(|rows|, i requires 0 <= i < |rows| => RowStep(mode, rows[i], LineNumber(i), o))
  }

  /** The hits a step asks for. */
  function StepHits(step: Step): set<Hit> {
    match step
    case Stop(_) => {}
    case Go(files, setName, ruleName) => FileHits(files, setName, ruleName)
    case StopAfter(files, setName, ruleName, _) => FileHits(files, setName, ruleName)
  }

  function HitsFrom(steps: seq<Step>, i: nat): set<Hit>
    decreases |steps| - i
  {
    if i >= |steps| then {} else StepHits(steps[i]) + HitsFrom(steps, i + 1)
  }

  /** The loop from data row `i` on; `cancelAt` is the row whose check first sees the flag. */
  function TagFrom(steps: seq<Step>, cancelAt: Option<nat>, i: nat, a: Artifacts): TagResult
    decreases |steps| - i
  {
    if i >= |steps| then TagResult(a, true, None)
    else if cancelAt == Some(i) then TagResult(a, false, None)
    else match steps[i]
      case Stop(e) => TagResult(a, false, Some(e))
      case StopAfter(files, setName, ruleName, e) => TagResult(AddHits(a, files, setName, ruleName), false, Some(e))
      case Go(files, setName, ruleName) => TagFrom(steps, cancelAt, i + 1, AddHits(a, files, setName, ruleName))
  }

  /**
   * The row whose cancellation check fires. A row's line is read before its
   * check, so a read that throws on that very line wins.
   */
  function RowCancel(o: TagOracle): Option<nat> {
    if o.cancelAt.Some? && o.readFailsAt == Some(LineNumber(o.cancelAt.value)) then None else o.cancelAt
  }

  /**
   * The whole pass over a manifest, against the hits already in the
   * database: the header read, the rows, then the read that finds the end of
   * the file. Posting failures are only logged, so reaching the end of the
   * manifest means the batch was posted. Whatever happens, the database
   * gains exactly the batch, with no hit twice, and only hits the rows ask
   * for; a posted pass has created every one of them. A pass stops silently
   * only on cancellation.
   */
  function Tag(mode: Mode, lines: seq<string>, o: TagOracle, db: set<Hit>): (r: TagResult)
    ensures Fresh(db, r.artifacts)
    ensures db <= r.artifacts.db <= db + HitsFrom(Steps(mode, DataLines(lines), o), 0)
    ensures r.posted ==> r.error.None? && r.artifacts.db == db + HitsFrom(Steps(mode, DataLines(lines), o), 0)
    ensures r.error.None? && !r.posted ==> o.cancelAt.Some?
    ensures o.openFails ==> r == TagResult(Artifacts(db, []), false, Some(OpenFailed))
  {
    if o.openFails then TagResult(Artifacts(db, []), false, Some(OpenFailed))
    else if o.readFailsAt == Some(HeaderLine) then TagResult(Artifacts(db, []), false, Some(TagReadFailed))
    else
      var rows := DataLines(lines);
      var steps := Steps(mode, rows, o);
      var a := Artifacts(db, []);
      assert Fresh(db, a);
      TagFromFresh(db, steps, RowCancel(o), 0, a);
      TagFromHits(steps, RowCancel(o), 0, a);
      TagFromPosted(steps, RowCancel(o), 0, a);
      var r := TagFrom(steps, RowCancel(o), 0, a);
      if r.posted && o.readFailsAt == Some(LineNumber(|rows|)) then TagResult(r.artifacts, false, Some(TagReadFailed))
      else r
  }

  /** The cancellation check fires at some row from `i` on. */
  predicate CancelFrom(cancelAt: Option<nat>, i: nat, n: nat) {
    cancelAt.Some? && i <= cancelAt.value < n
  }

  /**
   * The batch is posted exactly when no row failed and the cancellation
   * check never fired; a fired check returns with no error and nothing posted.
   */
  lemma {:induction false} TagFromPosted(steps: seq<Step>, cancelAt: Option<nat>, i: nat, a: Artifacts)
    ensures var r := TagFrom(steps, cancelAt, i, a);
      r.posted <==> r.error.None? && !CancelFrom(cancelAt, i, |steps|)
    decreases |steps| - i
  {
    if i < |steps| && cancelAt != Some(i) && steps[i].Go? {
      TagFromPosted(steps, cancelAt, i + 1, AddHits(a, steps[i].files, steps[i].setName, steps[i].ruleName));
    }
  }

  /** The freshness invariant holds throughout the pass. */
  lemma {:induction false} TagFromFresh(db0: set<Hit>, steps: seq<Step>, cancelAt: Option<nat>, i: nat, a: Artifacts)
    requires Fresh(db0, a)
    ensures Fresh(db0, TagFrom(steps, cancelAt, i, a).artifacts)
    decreases |steps| - i
  {
    if i < |steps| && cancelAt != Some(i) && !steps[i].Stop? {
      var step := steps[i];
      AddHitsFresh(db0, a, step.files, step.setName, step.ruleName);
      if step.Go? {
        TagFromFresh(db0, steps, cancelAt, i + 1, AddHits(a, step.files, step.setName, step.ruleName));
      }
    }
  }

  /** The batch only grows: what the pass created earlier stays at the front. */
  lemma {:induction false} TagFromGrows(steps: seq<Step>, cancelAt: Option<nat>, i: nat, a: Artifacts)
    ensures var r := TagFrom(steps, cancelAt, i, a);
      |a.batch| <= |r.artifacts.batch| && r.artifacts.batch[..|a.batch|] == a.batch
    decreases |steps| - i
  {
    if i < |steps| && cancelAt != Some(i) && steps[i].Go? {
      var step := steps[i];
      var next := AddHits(a, step.files, step.setName, step.ruleName);
      TagFromGrows(steps, cancelAt, i + 1, next);
      var r := TagFrom(steps, cancelAt, i + 1, next);
      assert r.artifacts.batch[..|a.batch|] == r.artifacts.batch[..|next.batch|][..|a.batch|];
    }
  }

  /**
   * Every hit the pass leaves in the database was there before or asked for
   * by a row; a completed pass leaves exactly what was there plus every hit
   * the rows ask for.
   */
  lemma {:induction false} TagFromHits(steps: seq<Step>, cancelAt: Option<nat>, i: nat, a: Artifacts)
    ensures var r := TagFrom(steps, cancelAt, i, a);
      && a.db <= r.artifacts.db <= a.db + HitsFrom(steps, i)
      && (r.posted ==> r.artifacts.db == a.db + HitsFrom(steps, i))
    decreases |steps| - i
  {
    if i < |steps| && cancelAt != Some(i) && steps[i].Go? {
      TagFromHits(steps, cancelAt, i + 1, AddHits(a, steps[i].files, steps[i].setName, steps[i].ruleName));
    }
  }

  /** With every hit the rows ask for already present, the pass creates nothing. */
  lemma {:induction false} TagFromNothingNew(steps: seq<Step>, cancelAt: Option<nat>, i: nat, a: Artifacts)
    requires HitsFrom(steps, i) <= a.db
    ensures TagFrom(steps, cancelAt, i, a).artifacts == a
    decreases |steps| - i
  {
    if i < |steps| && cancelAt != Some(i) && steps[i].Go? {
      TagFromNothingNew(steps, cancelAt, i + 1, a);
    }
  }

  /** Whether the pass fails, and where, does not depend on the database. */
  lemma {:induction false} TagFromSameOutcome(steps: seq<Step>, cancelAt: Option<nat>, i: nat, a: Artifacts, b: Artifacts)
    ensures TagFrom(steps, cancelAt, i, a).posted == TagFrom(steps, cancelAt, i, b).posted
    ensures TagFrom(steps, cancelAt, i, a).error == TagFrom(steps, cancelAt, i, b).error
    decreases |steps| - i
  {
    if i < |steps| && cancelAt != Some(i) && steps[i].Go? {
      var step := steps[i];
      TagFromSameOutcome(steps, cancelAt, i + 1, AddHits(a, step.files, step.setName, step.ruleName),
        AddHits(b, step.files, step.setName, step.ruleName));
    }
  }

  /**
   * Running the pass again over a database a completed pass left behind
   * creates no artifact and leaves the database as it is: the duplicate
   * check makes re-ingesting the same manifest harmless.
   */
  lemma TagIdempotent(mode: Mode, lines: seq<string>, o: TagOracle, db: set<Hit>)
    requires Tag(mode, lines, o, db).posted
    ensures var first := Tag(mode, lines, o, db).artifacts;
      && Tag(mode, lines, o, first.db).artifacts == Artifacts(first.db, [])
      && Tag(mode, lines, o, first.db).posted
  {
    var steps := Steps(mode, DataLines(lines), o);
    var first := Tag(mode, lines, o, db).artifacts;
    TagFromNothingNew(steps, RowCancel(o), 0, Artifacts(first.db, []));
    TagFromSameOutcome(steps, RowCancel(o), 0, Artifacts(db, []), Artifacts(first.db, []));
  }

  /**
   * A row of the wrong width stops the pass with its line number and the
   * width it had, but the message states 9 as the expected width although
   * 14 is what the width check demands.
   */
  lemma WrongWidthReportsNine(mode: Mode, lines: seq<string>, o: TagOracle, db: set<Hit>)
    requires !o.openFails && o.cancelAt.None? && o.readFailsAt.None?
    requires |lines| >= 2 && ParseRow(lines[1]).Failure?
    ensures Tag(mode, lines, o, db).error == Some(TagFieldCount(FirstDataLine, ParseRow(lines[1]).error, ReportedWidth))
    ensures ReportedWidth != FieldCount
  {
  }

  /** Cancellation at the first row returns before anything is created or posted. */
  lemma CancelledBeforeFirstRow(mode: Mode, lines: seq<string>, o: TagOracle, db: set<Hit>)
    requires !o.openFails && o.cancelAt == Some(0) && |lines| >= 2
    requires o.readFailsAt != Some(HeaderLine) && o.readFailsAt != Some(FirstDataLine)
    ensures Tag(mode, lines, o, db) == TagResult(Artifacts(db, []), false, None)
  {
  }
}

=== FILE: task.dfy ===
/**
 * `AddLogicalImageTask.run` and `cancelTask`: copy the image, add the two
 * reports, ingest either the VHD images or the extracted files, tag the
 * interesting files, and report one outcome to the callback. The file system,
 * the case database, the VHD sub-task and the user's cancellation are inputs.
 */
module LogicalImageTask {
  import opened Wrappers
  import opened Text
  import opened Manifest
  import opened LocalImport
  import opened Tagging

  const SearchResultsTxt: string := "SearchResults.txt"
  const UsersTxt: string := "users.txt"
  const VhdExtension: string := ".vhd"

  datatype ResultCode = NoErrors | CriticalErrors | NonCriticalErrors

  datatype DataSource = LocalFilesSource | ImageSource(objId: int)

  /** The messages `run` puts in its error list. */
  datatype Message =
    | CopyFailed
    | CannotFindResults
    | ReportFailed(file: string)
    | CanonicalPathFailed(file: string)
    | NoSparseImage
    | NoCurrentCase
    | ImportFailed(importError: ImportError)
    | TaggingFailed(tagError: TagError)
    | SubTaskMessage(text: string)

  /** The arguments of the one `callback.done` call. */
  datatype Outcome = Outcome(code: ResultCode, errors: seq<Message>, sources: seq<DataSource>)

  /** The VHD sub-task's callback arguments; its messages are its own text. */
  datatype SubTaskReport = SubTaskReport(code: ResultCode, messages: seq<string>, sources: seq<DataSource>)

  /** The sub-task's report as `run` hands it on. */
  function Forward(r: SubTaskReport): Outcome {
    Outcome(r.code, seq(|r.messages|, i requires 0 <= i < |r.messages| => SubTaskMessage(r.messages[i])), r.sources)
  }

  /** Where the user's cancellation is first seen: never, by the ingest, or by the tagging pass at a row. */
  datatype CancelPoint = Never | DuringIngest(row: nat) | DuringTagging(row: nat)

  /** Everything `run` learns from outside. */
  datatype Environment = Environment(
    dest: string,
    copyFails: bool,
    resultsExists: bool,          // SearchResults.txt is in the destination
    resultsReportFails: bool,     // adding it as a report throws
    usersExists: bool,            // users.txt is in the destination
    usersReportFails: bool,       // adding it as a report throws
    listing: seq<string>,         // names in the destination directory
    canonicalFails: set<string>,  // names whose canonical path cannot be computed
    rootIsDirectory: bool,        // `<dest>/root` exists and is a directory
    lines: seq<string>,           // the text of SearchResults.txt
    importFailures: ImportOracle, // its cancelAt is replaced by the cancellation point
    noCurrentCase: bool,          // the VHD sub-task cannot be created
    subTask: SubTaskReport,       // what the VHD sub-task reports through its callback
    imagePaths: seq<ImageEntry>,  // `getImagePaths()` once the images are in
    tagFailures: TagOracle,       // its cancelAt is replaced by the cancellation point
    db: set<Hit>,                 // interesting-file hits already in the case
    cancel: CancelPoint)

  /** The task's two flags that `cancelTask` reads. */
  datatype TaskFlags = TaskFlags(createVhd: bool, addingInterestingFiles: bool)

  datatype RunResult = RunResult(
    outcome: Outcome,
    flags: TaskFlags,
    imported: Option<ImportResult>,
    tagged: Option<TagResult>)

  /** The names ending in `.vhd`, in listing order. */
  function VhdNames(listing: seq<string>): (names: seq<string>)
    ensures forall n :: n in names <==> n in listing && EndsWith(n, VhdExtension)
  {
    if |listing| == 0 then []
    else (if EndsWith(listing[0], VhdExtension) then [listing[0]] else []) + VhdNames(listing[1..])
  }

  /** The first `.vhd` name, in listing order, whose canonical path fails, if any. */
  function FirstCanonicalFailure(names: seq<string>, fails: set<string>): (r: Option<string>)
    ensures r.None? <==> forall i :: 0 <= i < |names| ==> names[i] !in fails
    ensures r.Some? ==> exists i :: 0 <= i < |names| && names[i] == r.value && r.value in fails && NoneFailBefore(names, fails, i)
  {
    if |names| == 0 then None
    else if names[0] in fails then Some(names[0])
    else
      var r := FirstCanonicalFailure(names[1..], fails);
      assert forall i :: 1 <= i < |names| ==> names[i] == names[1..][i - 1];
      if r.Some? then
        assert exists i :: 0 <= i < |names| && names[i] == r.value && r.value in fails && NoneFailBefore(names, fails, i) by {
          var i :| 0 <= i < |names[1..]| && names[1..][i] == r.value && r.value in fails && NoneFailBefore(names[1..], fails, i);
          assert names[i + 1] == r.value;
          assert NoneFailBefore(names, fails, i + 1) by {
            forall j | 0 <= j < i + 1
              ensures names[j] !in fails
            {
              if j > 0 {
                assert names[j] == names[1..][j - 1];
              }
            }
          }
        }
        r
      else r
  }

  /** No name before position `i` fails. */
  predicate NoneFailBefore(names: seq<string>, fails: set<string>, i: nat)
    requires i <= |names|
  {
    forall j :: 0 <= j < i ==> names[j] !in fails
  }

  function CopyErrors(env: Environment): seq<Message> {
    if env.copyFails then [CopyFailed] else []
  }

  function ImportCancel(c: CancelPoint): Option<nat> {
    if c.DuringIngest? then Some(c.row) else None
  }

  /** The flag is never cleared, so a cancellation seen by the ingest is seen at the first tagged row. */
  function TagCancel(c: CancelPoint): Option<nat> {
    match c
    case Never => None
    case DuringIngest(_) => Some(0)
    case DuringTagging(k) => Some(k)
  }

  function ImportOracleOf(env: Environment): ImportOracle {
    env.importFailures.(cancelAt := ImportCancel(env.cancel))
  }

  function TagOracleOf(env: Environment): TagOracle {
    env.tagFailures.(cancelAt := TagCancel(env.cancel))
  }

  /** Where the tagging pass looks files up: the VHD data sources by image path, or the local-files tree. */
  function TagModeOf(env: Environment, vhdMode: bool): Mode {
    if vhdMode then Vhd(env.dest, OwnerMap(env.imagePaths)) else Local
  }

  /** SearchResults.txt, and users.txt when it exists, went into the case report. */
  predicate ReportsAdded(env: Environment) {
    env.resultsExists && !env.resultsReportFails && !(env.usersExists && env.usersReportFails)
  }

  /** Whether the run got past the reports and the VHD listing. */
  predicate Prepared(env: Environment) {
    ReportsAdded(env) && FirstCanonicalFailure(VhdNames(env.listing), env.canonicalFails).None?
  }

  /**
   * `run()`. Exactly one outcome is reported on every path, and the contract
   * gives each exit:
   *  - before the ingest, a missing SearchResults.txt, a report that cannot
   *    be added, and the first `.vhd` name without a canonical path are
   *    critical, and nothing is ingested; a missing users.txt is no error;
   *  - a copy failure is recorded and the run goes on;
   *  - VHD mode exactly when the listing holds a `.vhd` name;
   *  - without a VHD, a missing `root` directory is critical; otherwise the
   *    extracted files are imported, and a failed import is critical;
   *  - in VHD mode, a missing current case is critical, and a critical
   *    sub-task outcome is forwarded as it is;
   *  - otherwise the tagging pass runs over the manifest, in the mode chosen;
   *    its failure is non-critical and reports no data source;
   *  - a completed local run reports no errors beyond the copy failure, and
   *    the local-files data source exactly when the import committed; a
   *    completed VHD run forwards the sub-task's outcome.
   */
  method Run(env: Environment) returns (res: RunResult)
    ensures !env.resultsExists ==>
      res.outcome == Outcome(CriticalErrors, CopyErrors(env) + [CannotFindResults], [])
    ensures env.resultsExists && env.resultsReportFails ==>
      res.outcome == Outcome(CriticalErrors, CopyErrors(env) + [ReportFailed(SearchResultsTxt)], [])
    ensures env.resultsExists && !env.resultsReportFails && env.usersExists && env.usersReportFails ==>
      res.outcome == Outcome(CriticalErrors, CopyErrors(env) + [ReportFailed(UsersTxt)], [])
    ensures ReportsAdded(env) && FirstCanonicalFailure(VhdNames(env.listing), env.canonicalFails).Some? ==>
      res.outcome == Outcome(CriticalErrors,
        CopyErrors(env) + [CanonicalPathFailed(FirstCanonicalFailure(VhdNames(env.listing), env.canonicalFails).value)], [])
    ensures !Prepared(env) ==> res.flags == TaskFlags(false, false) && res.imported.None? && res.tagged.None?
    ensures ReportFailed(UsersTxt) in res.outcome.errors ==> env.usersExists && env.usersReportFails
    ensures res.flags.createVhd <==> Prepared(env) && |VhdNames(env.listing)| > 0
    ensures Prepared(env) && |VhdNames(env.listing)| > 0 ==> IngestSpec(env, res, true)
    ensures Prepared(env) && |VhdNames(env.listing)| == 0 ==> IngestSpec(env, res, false)
  {
    var errors := CopyErrors(env);
    var flags := TaskFlags(false, false);
    if !env.resultsExists {
      return RunResult(Outcome(CriticalErrors, errors + [CannotFindResults], []), flags, None, None);
    }
    if env.resultsReportFails {
      return RunResult(Outcome(CriticalErrors, errors + [ReportFailed(SearchResultsTxt)], []), flags, None, None);
    }
    // `addReport` ignores a report file that does not exist.
    if env.usersExists && env.usersReportFails {
      return RunResult(Outcome(CriticalErrors, errors + [ReportFailed(UsersTxt)], []), flags, None, None);
    }
    var vhds := VhdNames(env.listing);
    var bad := FirstCanonicalFailure(vhds, env.canonicalFails);
    if bad.Some? {
      return RunResult(Outcome(CriticalErrors, errors + [CanonicalPathFailed(bad.value)], []), flags, None, None);
    }
    res := IngestAndTag(env, vhds);
  }

  /**
   * What happens once the run is prepared, in VHD mode or not: the exits of
   * the ingest, the tagging pass run against the environment, and the
   * outcome each of them reports.
   */
  ghost predicate IngestSpec(env: Environment, res: RunResult, vhdMode: bool) {
    && res.flags.createVhd == vhdMode
    && (res.flags.addingInterestingFiles <==> res.tagged.Some?)
    && ReportFailed(UsersTxt) !in res.outcome.errors
    // without a VHD: the root directory, then the import
    && (!vhdMode && !env.rootIsDirectory ==>
          res.outcome == Outcome(CriticalErrors, CopyErrors(env) + [NoSparseImage], []) && res.imported.None?)
    && (res.imported.Some? <==> !vhdMode && env.rootIsDirectory)
    && (res.imported.Some? ==> ImportSpec(env.dest, env.lines, ImportOracleOf(env), res.imported.value))
    && (res.imported.Some? && res.imported.value.error.Some? ==>
          res.outcome == Outcome(CriticalErrors, CopyErrors(env) + [ImportFailed(res.imported.value.error.value)], []))
    && (res.imported.Some? && res.imported.value.error.None? && !res.imported.value.sourceAdded ==>
          env.cancel.DuringIngest?)
    // in VHD mode: the current case, then the sub-task's outcome
    && (vhdMode && env.noCurrentCase ==>
          res.outcome == Outcome(CriticalErrors, CopyErrors(env) + [NoCurrentCase], []))
    && (vhdMode && !env.noCurrentCase && env.subTask.code == CriticalErrors ==> res.outcome == Forward(env.subTask))
    // the tagging pass
    && (res.tagged.Some? <==>
          if vhdMode then !env.noCurrentCase && env.subTask.code != CriticalErrors
          else res.imported.Some? && res.imported.value.error.None?)
    && (res.tagged.Some? ==>
          res.tagged.value == Tag(TagModeOf(env, vhdMode), env.lines, TagOracleOf(env), env.db))
    && (res.tagged.Some? && res.tagged.value.error.Some? ==>
          res.outcome == Outcome(NonCriticalErrors, CopyErrors(env) + [TaggingFailed(res.tagged.value.error.value)], []))
    && (res.tagged.Some? && res.tagged.value.error.None? ==>
          res.outcome == if vhdMode then Forward(env.subTask)
                         else Outcome(NoErrors, CopyErrors(env), if res.imported.value.sourceAdded then [LocalFilesSource] else []))
    && (env.cancel.DuringIngest? && |DataLines(env.lines)| > 0 && res.tagged.Some? ==>
          !res.tagged.value.posted && res.tagged.value.artifacts == Artifacts(env.db, []))
  }

  /**
   * The part of `run()` after the reports and the VHD listing: the ingest in
   * one of the two modes, then the tagging pass.
   */
  method IngestAndTag(env: Environment, vhds: seq<string>) returns (res: RunResult)
    requires Prepared(env) && vhds == VhdNames(env.listing)
    ensures IngestSpec(env, res, |vhds| > 0)
  {
    if |vhds| == 0 {
      res := IngestLocal(env);
    } else {
      res := IngestVhd(env);
    }
  }

  /** Without a VHD: the `root` directory, the import, then the tagging pass. */
  method IngestLocal(env: Environment) returns (res: RunResult)
    ensures IngestSpec(env, res, false)
  {
    var errors := CopyErrors(env);
    var flags := TaskFlags(false, false);
    if !env.rootIsDirectory {
      return RunResult(Outcome(CriticalErrors, errors + [NoSparseImage], []), flags, None, None);
    }
    var ir := Import(env.dest, env.lines, ImportOracleOf(env));
    if ir.error.Some? {
      return RunResult(Outcome(CriticalErrors, errors + [ImportFailed(ir.error.value)], []), flags, Some(ir), None);
    }
    res := TagLocal(env, ir);
  }

  /** The tagging pass after an import without an error. */
  method TagLocal(env: Environment, ir: ImportResult) returns (res: RunResult)
    requires env.rootIsDirectory && ir.error.None?
    requires ImportSpec(env.dest, env.lines, ImportOracleOf(env), ir)
    ensures res.imported == Some(ir)
    ensures IngestSpec(env, res, false)
  {
    var sources := if ir.sourceAdded then [LocalFilesSource] else [];
    var flags := TaskFlags(false, true);
    var tr := Tag(Local, env.lines, TagOracleOf(env), env.db);
    if tr.error.Some? {
      return RunResult(Outcome(NonCriticalErrors, CopyErrors(env) + [TaggingFailed(tr.error.value)], []), flags, Some(ir), Some(tr));
    }
    return RunResult(Outcome(NoErrors, CopyErrors(env), sources), flags, Some(ir), Some(tr));
  }

  /** In VHD mode: the current case, the sub-task's outcome, then the tagging pass. */
  method IngestVhd(env: Environment) returns (res: RunResult)
    ensures IngestSpec(env, res, true)
  {
    var errors := CopyErrors(env);
    var flags := TaskFlags(true, false);
    if env.noCurrentCase {
      return RunResult(Outcome(CriticalErrors, errors + [NoCurrentCase], []), flags, None, None);
    }
    if env.subTask.code == CriticalErrors {
      return RunResult(Forward(env.subTask), flags, None, None);
    }
    flags := flags.(addingInterestingFiles := true);
    var objIds := ImagePathsToObjId(env.imagePaths);
    var tr := Tag(Vhd(env.dest, objIds), env.lines, TagOracleOf(env), env.db);
    if tr.error.Some? {
      return RunResult(Outcome(NonCriticalErrors, errors + [TaggingFailed(tr.error.value)], []), flags, None, Some(tr));
    }
    return RunResult(Forward(env.subTask), flags, None, Some(tr));
  }

  /**
   * A local run whose import commits reports the copy error only and the
   * local-files source, unless the tagging pass then fails, which is
   * non-critical and reports no source.
   */
  lemma LocalRunCommitted(env: Environment, res: RunResult)
    requires IngestSpec(env, res, false) && env.rootIsDirectory
    requires var o := ImportOracleOf(env); var rows := DataLines(env.lines);
      Staging(o) && FirstStop(env.dest, rows, o, 0).None? && o.readFailsAt != Some(LineNumber(|rows|)) && !o.commitFails
    ensures res.imported.Some? && res.imported.value.tx.Committed?
    ensures var t := Tag(Local, env.lines, TagOracleOf(env), env.db);
      res.outcome == if t.error.None? then Outcome(NoErrors, CopyErrors(env), [LocalFilesSource])
                     else Outcome(NonCriticalErrors, CopyErrors(env) + [TaggingFailed(t.error.value)], [])
  {
  }

  /**
   * A local run whose first failing row has the wrong width is critical,
   * naming that row's line, its width and 14, and tags nothing.
   */
  lemma LocalRunWrongWidth(env: Environment, res: RunResult, i: nat)
    requires IngestSpec(env, res, false) && env.rootIsDirectory
    requires var o := ImportOracleOf(env); var rows := DataLines(env.lines);
      && Staging(o) && FirstStop(env.dest, rows, o, 0) == Some(i)
      && o.readFailsAt != Some(LineNumber(i)) && env.cancel != DuringIngest(i) && ParseRow(rows[i]).Failure?
    ensures res.outcome == Outcome(CriticalErrors,
      CopyErrors(env) + [ImportFailed(NotEnoughFields(LineNumber(i), ParseRow(DataLines(env.lines)[i]).error, FieldCount))], [])
    ensures res.imported.Some? && res.imported.value.tx.RolledBack? && res.tagged.None?
  {
  }

  /**
   * A local run cancelled during the import rolls it back without an error;
   * the tagging pass then sees the flag at its first row and returns, so the
   * callback gets no errors beyond the copy error and no data source.
   */
  lemma LocalRunCancelled(env: Environment, res: RunResult, i: nat)
    requires IngestSpec(env, res, false) && env.rootIsDirectory
    requires var o := ImportOracleOf(env); var rows := DataLines(env.lines);
      && Staging(o) && FirstStop(env.dest, rows, o, 0) == Some(i)
      && o.readFailsAt != Some(LineNumber(i)) && env.cancel == DuringIngest(i)
    requires !env.tagFailures.openFails
    requires env.tagFailures.readFailsAt != Some(HeaderLine) && env.tagFailures.readFailsAt != Some(FirstDataLine)
    ensures res.imported == Some(ImportResult(RolledBack, false, None))
    ensures res.tagged == Some(TagResult(Artifacts(env.db, []), false, None))
    ensures res.outcome == Outcome(NoErrors, CopyErrors(env), [])
  {
    CancelledBeforeFirstRow(Local, env.lines, TagOracleOf(env), env.db);
  }

  /**
   * The same cancelled local run when `cancelTask` has already deleted the
   * destination: tagging cannot open the manifest there, and the run ends
   * with non-critical errors instead of none.
   */
  lemma LocalRunCancelledAfterDeletion(env: Environment, res: RunResult, i: nat)
    requires IngestSpec(env, res, false) && env.rootIsDirectory
    requires var o := ImportOracleOf(env); var rows := DataLines(env.lines);
      && Staging(o) && FirstStop(env.dest, rows, o, 0) == Some(i)
      && o.readFailsAt != Some(LineNumber(i)) && env.cancel == DuringIngest(i)
    requires env.tagFailures.openFails
    ensures res.imported == Some(ImportResult(RolledBack, false, None))
    ensures res.tagged == Some(TagResult(Artifacts(env.db, []), false, Some(OpenFailed)))
    ensures res.outcome == Outcome(NonCriticalErrors, CopyErrors(env) + [TaggingFailed(OpenFailed)], [])
  {
  }

  /**
   * A local run whose manifest cannot be opened, or whose header cannot be
   * read, leaves the import's transaction open and empty and is critical.
   */
  lemma LocalRunUnreadable(env: Environment, res: RunResult)
    requires IngestSpec(env, res, false) && env.rootIsDirectory
    requires var o := env.importFailures;
      !o.beginFails && !o.sourceFails && (o.openFails || o.readFailsAt == Some(HeaderLine))
    ensures res.imported == Some(ImportResult(Open([]), false, Some(ReadFailed)))
    ensures res.outcome == Outcome(CriticalErrors, CopyErrors(env) + [ImportFailed(ReadFailed)], [])
    ensures res.tagged.None?
  {
  }

  /** What `cancelTask` does besides setting the cancelled flag. */
  datatype CancelEffect = CancelEffect(interruptSubTask: bool, deleteDestination: bool)

  /**
   * `cancelTask()`: the VHD sub-task, once started, is interrupted; the
   * destination is deleted unless VHD mode was chosen or tagging has begun.
   */
  function CancelTask(flags: TaskFlags, subTaskStarted: bool): (e: CancelEffect)
    ensures e.deleteDestination <==> !flags.createVhd && !flags.addingInterestingFiles
    ensures e.interruptSubTask <==> subTaskStarted
  {
    CancelEffect(subTaskStarted, !flags.createVhd && !flags.addingInterestingFiles)
  }

  /** The stages of `run` a cancellation can arrive in. */
  datatype Stage = Preparing | Ingesting | TaggingFiles | Reported

  /** The flags during each stage, for a run that takes VHD mode or not. */
  function FlagsAt(stage: Stage, vhdMode: bool): TaskFlags {
    match stage
    case Preparing => TaskFlags(false, false)
    case Ingesting => TaskFlags(vhdMode, false)
    case TaggingFiles => TaskFlags(vhdMode, true)
    case Reported => TaskFlags(vhdMode, true)
  }

  /**
   * A cancellation deletes the destination exactly when it arrives while
   * preparing, or while the extracted files of a non-VHD image are imported;
   * from tagging on, and during a VHD ingest, the destination stays.
   */
  lemma CancelDeletesDestination(stage: Stage, vhdMode: bool, subTaskStarted: bool)
    ensures CancelTask(FlagsAt(stage, vhdMode), subTaskStarted).deleteDestination <==>
      stage == Preparing || (stage == Ingesting && !vhdMode)
  {
  }

  /**
   * The flags `run` leaves behind match the stage model: a run that reached
   * tagging ends with the flags of the tagging stage.
   */
  method RunEndsTagging(env: Environment) returns (res: RunResult)
    ensures res.tagged.Some? ==> res.flags == FlagsAt(TaggingFiles, res.flags.createVhd)
    ensures res.tagged.Some? ==> !CancelTask(res.flags, res.flags.createVhd).deleteDestination
  {
    res := Run(env);
  }
}

=== FILE: text.dfy ===
/**
 * String operations the ingestion code relies on: `line.split("\t", -1)`,
 * `s.replace("'", "''")`, `endsWith`, and joining a directory with a name.
 */
module Text {

  /** The platform name separator of `Paths.get(dir, name)` (the application targets Windows). */
  const Separator: char := '\\'

  /** `Paths.get(dir, name).toString()` without normalisation. */
  function PathJoin(dir: string, name: string): string {
    dir + [Separator] + name
  }

  /** Number of occurrences of `c` in `s`. */
  function Count(s: string, c: char): nat {
    if |s| == 0 then 0 else (if s[0] == c then 1 else 0) + Count(s[1..], c)
  }

  /**
   * `s.split(sep, -1)` for a one-character separator: every piece between
   * separators, keeping leading and trailing empty pieces.
   */
  function Split(s: string, sep: char): (fields: seq<string>)
    ensures |fields| > 0
    ensures sep !in s ==> fields == [s]
  {
    if |s| == 0 then [""]
    else
      assert forall c :: c in s[1..] ==> c in s;
      var rest := Split(s[1..], sep);
      if s[0] == sep then [""] + rest
      else
        assert s == [s[0]] + s[1..];
        [[s[0]] + rest[0]] + rest[1..]
  }

  /** `String.join(sep, fields)`. */
  function Join(fields: seq<string>, sep: char): string
    requires |fields| > 0
  {
    if |fields| == 1 then fields[0] else fields[0] + [sep] + Join(fields[1..], sep)
  }

  /** The number of fields is the number of separators plus one. */
  lemma {:induction false} SplitCount(s: string, sep: char)
    ensures |Split(s, sep)| == Count(s, sep) + 1
  {
    if |s| > 0 {
      SplitCount(s[1..], sep);
    }
  }

  /** No field contains the separator. */
  lemma {:induction false} SplitFieldsFree(s: string, sep: char)
    ensures forall i :: 0 <= i < |Split(s, sep)| ==> sep !in Split(s, sep)[i]
  {
    if |s| > 0 {
      SplitFieldsFree(s[1..], sep);
      var rest := Split(s[1..], sep);
      if s[0] != sep {
        var fields := Split(s, sep);
        forall i | 0 <= i < |fields|
          ensures sep !in fields[i]
        {
          if i == 0 {
            assert fields[0] == [s[0]] + rest[0];
          } else {
            assert fields[i] == rest[i];
          }
        }
      }
    }
  }

  /** Joining the fields with the separator gives back the line. */
  lemma {:induction false} JoinSplit(s: string, sep: char)
    ensures Join(Split(s, sep), sep) == s
  {
    if |s| > 0 {
      JoinSplit(s[1..], sep);
      var rest := Split(s[1..], sep);
      if s[0] == sep {
        assert Split(s, sep)[1..] == rest;
      } else {
        var fields := Split(s, sep);
        if |rest| == 1 {
          assert fields == [[s[0]] + rest[0]];
        } else {
          assert fields[1..] == rest[1..];
          assert Join(rest, sep) == rest[0] + [sep] + Join(rest[1..], sep);
          assert s == [s[0]] + s[1..];
        }
      }
    }
  }

  /** Splitting the join of separator-free fields gives back the fields. */
  lemma {:induction false} SplitJoin(fields: seq<string>, sep: char)
    requires |fields| > 0
    requires forall i :: 0 <= i < |fields| ==> sep !in fields[i]
    ensures Split(Join(fields, sep), sep) == fields
    decreases |fields|, |fields[0]|
  {
    var f := fields[0];
    if |f| == 0 {
      if |fields| > 1 {
        SplitJoin(fields[1..], sep);
        assert Join(fields, sep) == [sep] + Join(fields[1..], sep);
        assert Join(fields, sep)[1..] == Join(fields[1..], sep);
      }
    } else {
      var shorter := [f[1..]] + fields[1..];
      assert sep !in f[1..] by {
        forall k | 0 <= k < |f[1..]| ensures f[1..][k] != sep {
          assert f[1..][k] == f[k + 1];
        }
      }
      SplitJoin(shorter, sep);
      var s := Join(fields, sep);
      assert s == [f[0]] + Join(shorter, sep) by {
        if |fields| == 1 {
          assert s == f;
        } else {
          assert shorter[1..] == fields[1..];
        }
      }
      assert s[1..] == Join(shorter, sep);
      assert s[0] == f[0] && f[0] != sep;
      assert Split(s, sep) == [[f[0]] + f[1..]] + fields[1..];
      assert [f[0]] + f[1..] == f;
      assert Split(s, sep) == [f] + fields[1..];
    }
  }

  /** `s.endsWith(suffix)`. */
  predicate EndsWith(s: string, suffix: string) {
    |suffix| <= |s| && s[|s| - |suffix|..] == suffix
  }

  /** `s.replace("'", "''")`: every single quote doubled, everything else kept. */
  function EscapeQuotes(s: string): (r: string)
    ensures |r| == |s| + Count(s, '\'')
  {
    if |s| == 0 then ""
    else (if s[0] == '\'' then "''" else [s[0]]) + EscapeQuotes(s[1..])
  }

  /** Reading an SQL string-literal body: a doubled quote stands for one quote. */
  function UnescapeQuotes(r: string): string {
    if |r| == 0 then ""
    else if |r| >= 2 && r[0] == '\'' && r[1] == '\'' then "'" + UnescapeQuotes(r[2..])
    else [r[0]] + UnescapeQuotes(r[1..])
  }

  /** An escaped body holds quotes only in adjacent pairs, so it never ends the literal early. */
  predicate QuotesPaired(r: string)
    decreases |r|
  {
    if |r| == 0 then true
    else if r[0] == '\'' then |r| >= 2 && r[1] == '\'' && QuotesPaired(r[2..])
    else QuotesPaired(r[1..])
  }

  /** The SQL reading of an escaped string is the original string, and the escape is well formed. */
  lemma {:induction false} UnescapeEscape(s: string)
    ensures UnescapeQuotes(EscapeQuotes(s)) == s
    ensures QuotesPaired(EscapeQuotes(s))
  {
    if |s| > 0 {
      UnescapeEscape(s[1..]);
      var r := EscapeQuotes(s);
      if s[0] == '\'' {
        assert r[2..] == EscapeQuotes(s[1..]);
      } else {
        assert r[1..] == EscapeQuotes(s[1..]);
      }
      assert s == [s[0]] + s[1..];
    }
  }
}

=== FILE: wrappers.dfy ===
/** Failure-compatible wrappers used to model Java's null returns and thrown exceptions. */
module Wrappers {

  /** A value that may be absent: Java's nullable reference. */
  datatype Option<+T> = None | Some(value: T) {
    predicate IsFailure() {
      None?
    }

    function PropagateFailure<U>(): Option<U>
      requires None?
    {
      None
    }

    function Extract(): T
      requires Some?
    {
      value
    }

    function GetOr(default: T): T {
      match this
      case Some(v) => v
      case None => default
    }
  }

  /** Either a normal return or the exception that aborted the call. */
  datatype Result<+R, +E> = Success(value: R) | Failure(error: E) {
    predicate IsFailure() {
      Failure?
    }

    function PropagateFailure<U>(): Result<U, E>
      requires Failure?
    {
      Failure(error)
    }

    function Extract(): R
      requires Success?
    {
      value
    }
  }
}
